=== FILE: README.md ===
# zns-tools in Dafny

zns-tools maps the files of an F2FS file system onto the zones of a zoned
(ZNS) NVMe device. It reports, for one file or a directory, which extents
lie in which zone (zns.fiemap, zns.filemap), how the extents occupy F2FS
segments and how those segments split by heat class (zns.segmap), a JSON
dump of the zone map (libjson) and a write benchmark that reports the
segments of the file it wrote (fpbench). Python scripts turn kernel and
application traces into a timeline for a trace viewer.

This project models the core of both halves and proves what each part
promises:

- the Python trace helpers: the code tables of `helpers.py`, the event and
  timestamp records, the timeline and the generator loop of `tracegen.py`
  (`trace_helpers.dfy`, `trace_common.dfy`, `apptrace_event.dfy`,
  `trace_event.dfy`, `trace_timestamp.dfy`, `trace_timeline.dfy`,
  `tracegen.dfy`);
- `lib/libzns-tools.c`: the segment geometry, zone numbers, the sorted zone
  extent lists, the per-file counters and the FIEMAP loop of `get_extents`
  (`fiemap.dfy`, `zns_tools.dfy`);
- `src/filemap.c`: the stable extent sort, the hole and zone report
  (`filemap.dfy`);
- `lib/libzmap.c`: its `get_zone_number`, the only function of that file
  in this model (`zmap.dfy`);
- `src/segmap.c`: the segment report, its counters, options and zone window
  (`segmap.dfy`);
- `lib/libf2fs.c`: the NAT lookup and the procfs `segment_info` parsers
  (`libf2fs.dfy`);
- `lib/libjson.c`: the value formatters, the configuration objects and the
  zone-map dump (`libjson.dfy`);
- `src/fpbench.c`: size arguments, option checks and the segment report
  (`fpbench.dfy`).

`common.dfy` holds what the modules share: Option and Result, fixed-width
unsigned arithmetic written out with explicit wrap-around, bitwise AND on
naturals, C's `atoi`, Python's `int()`, decimal and hexadecimal text, and
splitting on delimiters.

Machine integers are `int` subset types (`u32`, `u64`). Where a value
the C code computes wraps, truncates or is reinterpreted (zone numbers,
masks and shifts, size arguments, formatted numbers), this is written out
with `% 2^32`, `% 2^64` or a two's-complement reading. The event counters
(extent, segment, zone, heat and file counters) are unbounded naturals
instead; "## Left out" names each member that keeps them so. Input from the kernel
(FIEMAP answers, BLKREPORTZONE zones, procfs tables, device blocks) enters
as sequences and maps; what a report prints is modelled as the rows it
prints.

Where the code and its own comments or headers disagree, the model follows
the code: the zone struct of `include/zns-tools.h` names a list `extents`
while `lib/libjson.c` walks `extents_head`, and the file-counter table of
the header differs from the one `lib/libzns-tools.c` uses. Two more
assumptions follow the code against the header. The header declares the
extent's `file` as `char *file` (include/zns-tools.h:65), which
`get_extents` would fill through a pointer it never sets, with at most
`sizeof(char *) - 1` bytes; the model takes the field to be a
`MAX_FILE_LENGTH` (50) byte array, so `ZnsTools.Truncate` keeps 49
characters. The header declares `struct zone_map zonemap`
(include/zns-tools.h:170), while the code allocates and uses a pointer
`ctrl.zonemap->`; the model has one zone map object, reached either way.

Several behaviours of the code that look unintended are pinned as lemmas
about the code as written rather than corrected: for example
`TraceHelpers.CmdNotInjective`, `ZnsTools.ZoneNumberDropsHighBits`,
`ZnsTools.ExtentCountPrefixShadows`, `TraceTimestamp.StrAlwaysRaises`,
`JsonDump.DumpHangsIff`, `JsonDump.Dec32Collides`, `Fpbench.GigabytesWrap`
and `Fpbench.SegmentZeroSkipped`.

`src/filemap.c` repeats two helpers of the libraries: its `get_zone_number`
(lines 30-38) is the one of `lib/libzmap.c`, modelled once as `Zmap.ZoneNumber`,
and its `contains_element` (lines 269-278) is the one of `lib/libzns-tools.c`,
modelled once as `Extents.ContainsElement`.

## Model

| member | source | states |
|---|---|---|
| TraceHelpers.GetCmd | zns.trace/util/helpers.py:3-10 | opcodes 1 and 2 name "nvme_cmd_write", 0x7d names "nvme_cmd_zone_append", and every other code, 0 included, gives None |
| TraceHelpers.PlotOperation | zns.trace/plot.py:317-324 | the plot reads opcode 1 as a write and 2 as a read; any other opcode is an error |
| TraceHelpers.CmdNotInjective | zns.trace/util/helpers.py:5-8 | get_cmd gives opcodes 1 and 2 the same name, although plot.py reads 2 as a read |
| TraceHelpers.GetHint | zns.trace/util/helpers.py:12-25 | a name exactly for 0..5, the RWH_WRITE_LIFE_{NOT_SET, NONE, SHORT, MEDIUM, LONG, EXTREME} name at that position; None outside |
| TraceHelpers.HintRoundTrip | zns.trace/util/helpers.py:12-25 | get_hint and the reverse name table agree in both directions |
| TraceHelpers.HintInjective | zns.trace/util/helpers.py:13-25 | two codes with the same hint name are the same code |
| TraceHelpers.GetTemp | zns.trace/util/helpers.py:28-35 | a name exactly for 0, 1, 2 (HOT, WARM, COLD) and the name decodes back to the code; None otherwise |
| TraceHelpers.GetType | zns.trace/util/helpers.py:37-46 | a name exactly for 0..3 (DATA, NODE, META, META_FLUSH) and the name decodes back; None otherwise |
| TraceHelpers.TempTypeRoundTrip | zns.trace/util/helpers.py:28-46 | get_temp and get_type agree with their reverse tables in both directions |
| PyModel.Micros | zns.trace/util/event.py:8 | `int(timestamp) / 1000` fails with ValueError exactly when the text is not an integer; otherwise the result times 1000 is that integer |
| PyModel.MicrosOfDecimal | zns.trace/util/timestamp.py:8 | a printed nanosecond count converts back to that count divided by 1000 |
| Classify.AnyContainsIff | zns.apptrace/util/event.py:18 | an `a in name or b in name` test holds exactly when one of its keys occurs in the name |
| Classify.FirstMatchIsFirst | zns.apptrace/util/event.py:15-25 | an if/elif chain of substring tests returns the value of test k when k is the first test that fires |
| Classify.FirstMatchOnlyFirst | zns.apptrace/util/event.py:15-25 | conversely, when the tests carry distinct values, the chain returns test k's value only if k is the first test that fires |
| Classify.FirstMatchNone | zns.apptrace/util/event.py:15-25 | the chain returns None exactly when no test fires |
| Classify.AnyContainsOneTwo | zns.apptrace/util/event.py:16-20 | a one-key test is one substring test, a two-key test is their disjunction |
| Classify.FirstMatchFires | zns.apptrace/util/event.py:15-25 | whatever the chain returns is the value of a test that fires |
| AppTraceEvent.GetPidIsFirstMatch | zns.apptrace/util/event.py:15-25 | get_pid is the first-match chain nvme, compaction/flush, vfs/rw_hint, f2fs, mm with lanes 0..4 |
| AppTraceEvent.GetCatIsFirstMatch | zns.apptrace/util/event.py:27-37 | get_cat is the first-match chain vfs/rw_hint, nvme, f2fs, mm, compaction/flush |
| AppTraceEvent.LaneAndCategoryDisagree | zns.apptrace/util/event.py:15-37 | a name with both "nvme" and "vfs" gets the NVMe lane 0 but the category "VFS": the two chains test in different orders |
| AppTraceEvent.LaneAndCategoryDisagreeExample | zns.apptrace/util/event.py:16-17 | "nvme_vfs" is such a name |
| AppTraceEvent.NvmeFlush | zns.apptrace/util/event.py:15-37 | a name with "nvme" and "flush" but no vfs/rw_hint is an NVMe event in lane and category |
| AppTraceEvent.UnclassifiedName | zns.apptrace/util/event.py:15-37 | a name no test matches has neither lane nor category |
| AppTraceEvent.NewEvent | zns.apptrace/util/event.py:4-11 | the constructor fails with ValueError on a non-integer timestamp, then KeyError when the name has no thread id; otherwise every field, with lane and category from the name |
| AppTraceEvent.EventIgnoresPid | zns.apptrace/util/event.py:4-9 | the pid argument has no effect on the event |
| TraceEvent.GetCatIsFirstMatch | zns.trace/util/event.py:14-22 | get_cat is the first-match chain vfs/rw_hint, z_, f2fs, mm |
| TraceEvent.ZnsBeforeF2fs | zns.trace/util/event.py:17-20 | "z_" is tested before "f2fs", so a name with both (and no vfs/rw_hint) is a ZNS event |
| TraceEvent.ZnsBeforeF2fsExample | zns.trace/util/event.py:17-20 | "f2fs_z_reset" is a ZNS event |
| TraceEvent.NewEvent | zns.trace/util/event.py:4-11 | ValueError exactly for a non-integer timestamp; otherwise the fields as given, the category from the name and the time in microseconds |
| TraceTimestamp.NewTimestamp | zns.trace/util/timestamp.py:4-12 | ValueError exactly for a non-integer timestamp; otherwise an instant event "i" named and categorised by the map, thread 0, empty args |
| TraceTimestamp.StrAlwaysRaises | zns.trace/util/timestamp.py:14-15 | `__str__` raises AttributeError on every timestamp, since `map_name` is never set |
| TraceTimeline.Timeline.constructor | zns.trace/util/timeline.py:4-10 | an empty event list with the fixed header (unit "ns", name and version) |
| TraceTimeline.Timeline.AddTimestamp | zns.trace/util/timeline.py:12-13 | appends the event at the end and changes nothing else |
| TraceTimeline.AddTwice | zns.trace/util/timeline.py:12-13 | adding one event twice gives two entries: the timeline is a list, not a set |
| TraceGen.Subscript | zns.trace/tracegen.py:46 | `v[key]` succeeds only on a dict holding the key, with that key's value |
| TraceGen.Lookup | zns.trace/tracegen.py:46 | a found value belongs to the key; KeyError exactly when no entry has the key |
| TraceGen.Index | zns.trace/tracegen.py:49-50 | `v[i]` succeeds exactly on a list or string with more than i elements |
| TraceGen.Items | zns.trace/tracegen.py:46-47 | `.items()` succeeds exactly on a dict |
| TraceGen.CollectExtend | zns.trace/tracegen.py:43-58 | one more item: its error ends the run, its events follow the earlier ones |
| TraceGen.CollectErrStays | zns.trace/tracegen.py:43-58 | once a prefix fails, the whole run fails with that error |
| TraceGen.CollectAppend | zns.trace/tracegen.py:43-58 | the events of concatenated input are those of each part, in order |
| TraceGen.CollectAll | zns.trace/tracegen.py:43-58 | every collected event comes from one item's own events |
| TraceGen.OneEventPerMap | zns.trace/tracegen.py:46-59 | one event per map with at least one key, none for an empty map |
| TraceGen.EmptyMapNoEvent | zns.trace/tracegen.py:47-59 | a map with no keys contributes nothing |
| TraceGen.FirstKeyOnly | zns.trace/tracegen.py:47-59 | the `break` means only the first key of a map is read |
| TraceGen.KeyWithoutComma | zns.trace/tracegen.py:48-50 | a key without a comma has no pid field: IndexError |
| TraceGen.HintValueUnused | zns.trace/tracegen.py:53-57 | the rw_hint value is read but never reaches the event |
| TraceGen.KeyEventFields | zns.trace/tracegen.py:48-57 | the event's name is the map name without '@', its time and pid are the key's first two fields |
| TraceGen.AllEventsClean | zns.trace/tracegen.py:52-58 | every event of a successful run is an instant event whose name has no '@' |
| TraceGen.LinesInOrder | zns.trace/tracegen.py:43-58 | the events of lines a + b are a's events followed by b's |
| TraceGen.Generate | zns.trace/tracegen.py:42-59 | the timeline gains exactly the events of all lines, or the run stops with the first error; the header is kept |
| TraceGen.LineErrorEndsRun | zns.trace/tracegen.py:43-46 | an error on line i is the error of the whole run |
| TraceGen.LineExtendsRun | zns.trace/tracegen.py:43-58 | a line without error appends its events to those of the lines before it |
| TraceGen.AddLine | zns.trace/tracegen.py:44-59 | one line appends its maps' events or fails with the line's first error |
| TraceGen.AddMap | zns.trace/tracegen.py:47-59 | one map appends the event of its first key or fails with that key's error |
| Extents.RunLength | lib/libzns-tools.c:585-687 | the do-while reads the answers up to and including the first one flagged FIEMAP_EXTENT_LAST, and None when they run out first (fm_mapped_extents == 0) |
| Extents.RunLengthIgnoresTail | lib/libzns-tools.c:680-687 | answers after the first LAST one are never read |
| Extents.RunLengthOfPrefix | lib/libzns-tools.c:680-687 | the run length is fixed by the first LAST answer alone |
| Extents.Processed | lib/libzns-tools.c:585-687 | the answers processed are a prefix of the answers |
| Extents.PrefixOfProcessed | lib/libzns-tools.c:585-687 | an answer before any LAST one is processed |
| Extents.ScanStep | lib/libzns-tools.c:680-687 | reading one more answer keeps the loop's scan state |
| Extents.ScanDone | lib/libzns-tools.c:687 | when the loop stops it has read exactly the processed answers, and it stopped on a LAST answer exactly when one exists |
| Extents.ContainsElement | lib/libzns-tools.c:707-716 | 1 exactly when the element is among the first `size` entries, else 0 |
| ZnsTools.InitShifts | lib/libzns-tools.c:185-189 | sector shift 9 for 512-byte sectors and 12 otherwise; a segment is 2 MiB of sectors, a power of two 2^segment_shift, and the mask clears the offset inside a segment |
| ZnsTools.SegmentIdIsQuotient | lib/libzns-tools.c:185-189 | masking with f2fs_segment_mask rounds down to a segment start, and the segment id is the block divided by the segment size |
| ZnsTools.ZoneNumber | lib/libzns-tools.c:398-406 | undefined (None) exactly when the zone size in sectors, computed in 64 bits, is 0 |
| ZnsTools.ZoneNumberUsesLow32Bits | lib/libzns-tools.c:400-403 | the 32-bit zone_mask makes only the low 32 bits of the LBA count |
| ZnsTools.ZoneNumberPow2 | lib/libzns-tools.c:398-406 | for a zone of 2^k sectors the zone number is (lba mod 2^32) / 2^k |
| ZnsTools.Mask32 | lib/libzns-tools.c:400-401 | the uint32_t zone mask of a 2^k-sector zone keeps bits k to 31 |
| ZnsTools.ZoneNumberDropsHighBits | lib/libzns-tools.c:400-403 | an LBA at 2^32 or beyond wraps back: LBA 2^32 is reported in zone 0 although it lies in zone 2^32 / 2^k |
| ZnsTools.InsertPos | lib/libzns-tools.c:369-371 | the walk stops at the first node whose physical block is not below the new one |
| ZnsTools.InsertPosUnique | lib/libzns-tools.c:369-371 | that position is the only one with both properties |
| ZnsTools.InsertedSorted | lib/libzns-tools.c:366-375 | sorted insertion keeps a list sorted by physical block |
| ZnsTools.InsertedContents | lib/libzns-tools.c:366-375 | the list gains exactly the new extent, and removing it gives back the old list |
| ZnsTools.SortedInsert | lib/libzns-tools.c:366-375 | the pointer walk and relink produce the sorted insertion |
| ZnsTools.BagUpdate | lib/libzns-tools.c:377-387 | replacing one zone's list replaces its extents among all the zones' extents |
| ZnsTools.BagHolds | lib/libzns-tools.c:377-387 | a zone's extents are among all the zones' extents |
| ZnsTools.ValidZonesAt | lib/libzns-tools.c:377-387 | in valid zones, each zone's counter is its list length, the list is sorted and holds only extents of that zone |
| ZnsTools.ValidZonesUpdate | lib/libzns-tools.c:377-387 | replacing one zone by a zone valid at that index keeps all zones valid |
| ZnsTools.EmptyZonesValid | lib/libzns-tools.c:137-149 | zones with empty lists and zero counters are valid |
| ZnsTools.InsertKeepsZoneValid | lib/libzns-tools.c:377-387 | inserting an extent of the zone and counting it keeps the zone valid |
| ZnsTools.ZoneInsertKeepsValid | lib/libzns-tools.c:377-387 | inserting into its own zone keeps the zones valid and adds exactly the extent |
| ZnsTools.ZoneAddKeepsValid | lib/libzns-tools.c:380-386 | on valid zones, starting a list with the head insertion is the same as sorted insertion, and the zones stay valid with the extent added |
| ZnsTools.BagInsert | lib/libzns-tools.c:377-387 | sorted insertion adds exactly one copy of the extent |
| ZnsTools.ZoneMap.constructor | lib/libzns-tools.c:133-149 | nr_zones zones, all empty with zero counters, and the zone map counters zero |
| ZnsTools.ZoneMap.AddExtentToZoneList | lib/libzns-tools.c:377-387 | the extent's zone gets the head insertion on an empty list, sorted insertion otherwise, and one more in its counter; valid zones stay valid and gain exactly the extent |
| ZnsTools.Truncate | lib/libzns-tools.c:545-546 | strncpy into n bytes keeps a prefix of the name, of length min(n, length) |
| ZnsTools.FindExact | lib/libzns-tools.c:538-543 | the first entry whose name equals the file, or None when no entry does |
| ZnsTools.FindPrefix | lib/libzns-tools.c:727-732 | the first entry whose name is a prefix of the file (strncmp over the stored name's length), or None |
| ZnsTools.CountExtentCounts | lib/libzns-tools.c:537-548 | the file's extent count grows by one, every other name's count is unchanged, a new entry appears only for a new name, and names stay unique |
| ZnsTools.FindSameNames | lib/libzns-tools.c:538-543 | two tables with the same names find a name at the same place |
| ZnsTools.ExtentCountExact | lib/libzns-tools.c:726-735 | with unique names and no stored name that is a proper prefix of the file, get_file_extent_count is the file's exact count |
| ZnsTools.ExtentCountPrefixShadows | lib/libzns-tools.c:728-730 | with "/mnt/a" stored before "/mnt/ab", asking for "/mnt/ab" returns the count of "/mnt/a" |
| ZnsTools.SegmentStep | lib/libzns-tools.c:743-784 | the entry keeps its name and extent count and remembers the segment last counted |
| ZnsTools.SegmentStepCounts | lib/libzns-tools.c:756-773 | counters move only for a new segment: num_segments more segments, the same number more in the heat class of a data type, the heat split stays within the segment count, and zones never decrease |
| ZnsTools.SegmentStepIdempotent | lib/libzns-tools.c:756-783 | repeating the same update changes nothing more |
| ZnsTools.SegmentStepZones | lib/libzns-tools.c:775-783 | the last zone becomes the segment's zone, and the zone counter grows by the zone span only when the zone changes |
| ZnsTools.ZoneSpanWraps | lib/libzns-tools.c:778-781 | 2048 segments are 2^32 bytes, which wrap to 0 in 32 bits, so such a run adds a single zone |
| ZnsTools.FileCounterMap.constructor | lib/libzns-tools.c:570-571 | an empty table |
| ZnsTools.FileCounterMap.IncreaseFileExtentCounter | lib/libzns-tools.c:537-548 | the table becomes the counted table (see CountExtentCounts) |
| ZnsTools.FileCounterMap.GetFileExtentCount | lib/libzns-tools.c:726-735 | the count of the first prefix-matching entry, 0 when none matches |
| ZnsTools.FileCounterMap.IncreaseFileSegmentCounter | lib/libzns-tools.c:743-784 | the first prefix-matching entry is updated as SegmentStep says and nothing else changes |
| ZnsTools.CountTimesCounts | lib/libzns-tools.c:537-548 | k extents of one name add k to that name's count and nothing to any other |
| ZnsTools.Collected | lib/libzns-tools.c:598-674 | at most one extent per answer read |
| ZnsTools.Filter | lib/libzns-tools.c:598-628 | only answers on the ZNS device and without excluded flags are kept, in order |
| ZnsTools.CollectedNumbers | lib/libzns-tools.c:629-671 | the k-th extent is built from the k-th kept answer, numbered k (ext_nr) |
| ZnsTools.CollectStep | lib/libzns-tools.c:598-678 | one more answer adds its extent when kept, its length to the total, and one inlined extent when flagged inline |
| ZnsTools.LoopStep | lib/libzns-tools.c:585-687 | before answer i the loop's tally has counted the i answers before it, one step at a time |
| ZnsTools.ClosedStep | lib/libzns-tools.c:598-678 | one more answer keeps the tally in closed form |
| ZnsTools.ClosedKept | lib/libzns-tools.c:642-673 | a kept extent adds one to the extent and zone counters, its length to the total size, and one to the file's count |
| ZnsTools.TalliedClosed | lib/libzns-tools.c:585-687 | after any answers the counters equal the closed form: extents, cumulative size, inlined count and per-file counts of the kept answers |
| ZnsTools.TalliedClosedStep | lib/libzns-tools.c:585-687 | the inductive step of TalliedClosed |
| ZnsTools.TalliedStep | lib/libzns-tools.c:585-687 | reading one more answer extends the tally by one step |
| ZnsTools.Control.constructor | lib/libzns-tools.c:116-155 | a valid, empty zone map of nr_zones zones and an empty file table |
| ZnsTools.Control.ReadAnswer | lib/libzns-tools.c:598-678 | one answer updates the counters as the tally step says; valid zones stay valid and gain exactly the kept extent |
| ZnsTools.Control.ReadNext | lib/libzns-tools.c:585-687 | one iteration of the do-while keeps the loop invariant |
| ZnsTools.Control.ReadAnswers | lib/libzns-tools.c:585-687 | the loop stops on LAST exactly when there is one; the counters are the tally of the processed answers and the zones gain exactly the collected extents |
| ZnsTools.Control.GetExtents | lib/libzns-tools.c:554-695 | EXIT_FAILURE exactly when the answers run out before LAST; the counters take their closed form, nr_files grows on success, and the zones stay valid with exactly the file's extents added |
| Filemap.Mapped | src/filemap.c:187-251 | at most one stored extent per answer read |
| Filemap.Filter | src/filemap.c:205-217 | answers below the ZNS offset are skipped; the rest are kept in order |
| Filemap.MappedNumbers | src/filemap.c:217-242 | the stored extents are the kept answers, numbered 0, 1, 2, ... in order |
| Filemap.MappedStep | src/filemap.c:205-242 | reading one answer appends its extent exactly when it is kept |
| Filemap.CumStep | src/filemap.c:231-232 | adding each length to the 64-bit sum wraps like the sum of all lengths |
| Filemap.ExtentMap.constructor | src/filemap.c:178-185 | the map holds the given extents, zero zones and the given cumulative size |
| Filemap.ExtentMap.SortExtents | src/filemap.c:290-316 | the array becomes the stable sort of its old contents |
| Filemap.ExtentMap.PrintExtentReport | src/filemap.c:368-500 | the report is the walk over the extents; when it is defined the zone counter is the walk's |
| Filemap.ExtentMap.SelectAll | src/filemap.c:295-309 | the rounds fill a fresh temp with the stable sort, leaving the extents alone |
| Filemap.ExtentMap.Round | src/filemap.c:297-309 | round i appends the first lowest unused index to used_ind and its extent to temp |
| Filemap.ExtentMap.Record | src/filemap.c:307-308 | the round's choice is appended to used_ind and its extent to temp |
| Filemap.ExtentMap.ChooseLowest | src/filemap.c:298-306 | the inner loop ends on the first unused index of lowest physical block |
| Filemap.ExtentMap.Compare | src/filemap.c:299-305 | one inner step, with contains_element on used_ind |
| Filemap.RoundsDone | src/filemap.c:297-312 | after the last round temp holds the sorted extents |
| Filemap.RoundStarts | src/filemap.c:297-298 | each round starts with cur_lowest in the state the inner loop needs |
| Filemap.RoundEnds | src/filemap.c:307-308 | a round's choice extends the recorded order by one |
| Filemap.GetExtents | src/filemap.c:172-257 | NULL exactly when the answers run out before LAST; otherwise a fresh map holding the kept answers' extents, zero zones, and the 64-bit sum of their lengths |
| Filemap.EmptyMapWhenAllSkipped | src/filemap.c:205-217 | a file whose only answer lies below the offset gives an empty map, not NULL |
| Filemap.FirstMin | src/filemap.c:298-306 | the first unused index whose physical block is lowest among the unused ones, None exactly when all are used |
| Filemap.Below | src/filemap.c:293 | the indices 0 .. n-1 |
| Filemap.DistinctCard | src/filemap.c:293 | distinct indices make a set as large as the sequence |
| Filemap.Pigeonhole | src/filemap.c:297-309 | fewer than n distinct indices below n leave one unused |
| Filemap.AllUsed | src/filemap.c:297-309 | n distinct indices below n use every index |
| Filemap.Order | src/filemap.c:297-309 | the indices chosen by the first k rounds, each a valid index |
| Filemap.OrderDistinct | src/filemap.c:297-309 | no index is chosen twice |
| Filemap.Pick | src/filemap.c:308 | temp holds the extents at the chosen indices, in that order |
| Filemap.OrderPrefix | src/filemap.c:297-309 | later rounds keep the indices earlier rounds chose |
| Filemap.OrderChoice | src/filemap.c:298-307 | round a chose the first lowest index the earlier rounds left free |
| Filemap.LaterUnused | src/filemap.c:297-309 | a later round's choice was still free when an earlier round chose |
| Filemap.SortedByPhy | src/filemap.c:290-316 | after sort_extents the physical blocks never decrease |
| Filemap.SortIsStable | src/filemap.c:299-301 | extents with equal physical blocks keep their input order (the test is a strict <) |
| Filemap.SortIsPermutation | src/filemap.c:290-316 | the sort moves every input extent to exactly one place |
| Filemap.SelectStepChooses | src/filemap.c:299-305 | one inner step keeps cur_lowest on the first lowest unused index so far |
| Filemap.HoleEnd | src/filemap.c:461-466 | the hole ends at the lower of the write pointer and the zone end |
| Filemap.ReportFacts | src/filemap.c:394-477 | the walk reads past the array exactly when holes are shown and the last extent meets the trailing-hole test; otherwise the current zone is the previous extent's, the zone counter counts zone changes, and at most two holes per step are counted |
| Filemap.NoHolesWithoutShowHoles | src/filemap.c:402-455 | without show_holes no hole is counted and the walk is always defined |
| Filemap.ReadsPastEndExample | src/filemap.c:452-455 | two extents of one zone with a gap before the write pointer make the report read extent[2] of a two-extent array |
| Filemap.AverageSize | src/filemap.c:488 | the integer average is defined exactly when there are extents, and is the floor of the quotient |
| Filemap.ZoneChangesCountZones | src/filemap.c:394-399 | for extents in non-decreasing, non-zero zones the zone counter is the number of distinct zones |
| Filemap.ZonesOfStep | src/filemap.c:394-399 | the zones seen grow by the zone of the next extent |
| Filemap.NewZone | src/filemap.c:395-397 | in sorted zones a zone change is a zone not seen before |
| Filemap.MappedZoned | src/filemap.c:234-237 | each stored extent carries the zone get_zone_number gives its physical block |
| Filemap.Position | src/filemap.c:297-309 | an index in the order occurs at some place |
| Filemap.SortKeepsZones | src/filemap.c:290-316 | sorting keeps the set of zones the extents lie in |
| Filemap.Inverse | src/filemap.c:297-309 | the place of each index in a complete order |
| Filemap.ZonesIncluded | src/filemap.c:290-316 | when each extent is an input extent, so is each zone |
| Filemap.SortKeepsEach | src/filemap.c:290-316 | every sorted extent is an input extent, so per-extent facts survive the sort |
| Filemap.SortedReportCountsZones | src/filemap.c:394-399 | for a power-of-two zone size, the report over the sorted extents counts exactly the distinct zones of the file |
| Zmap.ZoneNumber | lib/libzmap.c:232-240 | a zone size of 0 gives zone 1 |
| Zmap.MaskFacts | lib/libzmap.c:236-237 | the masked LBA is at most the LBA, and 0 for a zone size of 0 |
| Zmap.MaskedStart | lib/libzmap.c:236-237 | for a zone of 2^k sectors the mask rounds the LBA down to its zone start |
| Zmap.ZoneNumberPow2 | lib/libzmap.c:232-240 | for a zone of 2^k sectors the zone number is lba / zone_size + 1, counting from 1 |
| Zmap.ZoneNumberOfStart | lib/libzmap.c:237-239 | a masked start q * zone_size gives zone q + 1 |
| Zmap.ZoneNumberAtLeastOne | lib/libzmap.c:232-240 | zone numbers start at 1 while they fit 32 bits |
| Zmap.ZoneNumberWraps | lib/libzmap.c:239 | the uint32_t result wraps: with 1-sector zones, LBA 2^32 - 1 is zone 0 |
| Zmap.SameBlockSameZone | lib/libzmap.c:232-240 | LBAs in the same zone-aligned block share their zone number |
| Zmap.ZoneNumberMonotone | lib/libzmap.c:232-240 | for a power-of-two zone size the zone number never decreases as the LBA grows |
| Segmap.AddSegments | src/segmap.c:286-307 | the segment counter grows by n; exactly one heat counter grows by n for a cold, warm or hot segment and none for other types; heat counters never exceed the segment counter |
| Segmap.FindName | src/segmap.c:247-252 | the first entry whose name agrees with the file's on the first 50 characters, None exactly when there is none |
| Segmap.FindNameAt | src/segmap.c:247-252 | the first entry carrying the name is the one found |
| Segmap.FindNewName | src/segmap.c:254-258 | the entry created for a new name is found by later lookups |
| Segmap.Track | src/segmap.c:279-283 | a file's segment counter grows as the totals do, and its zone counter grows exactly when the extent's zone differs from its last zone |
| Segmap.TrackSameZone | src/segmap.c:280-283 | a second batch in the same zone does not count that zone again |
| Segmap.TrackedIsUpdate | src/segmap.c:277-304 | counting for a file updates only that file's entry |
| Segmap.TrackedFinds | src/segmap.c:244-259 | after counting, the file's entry is the one found, and the table grows only for a new file |
| Segmap.TrackedSum | src/segmap.c:279 | counting n segments for a file adds n to the sum of the per-file segment counters |
| Segmap.TrackedWithin | src/segmap.c:279-304 | every file's heat counters stay within its segment counter |
| Segmap.SegmentSumUpdate | src/segmap.c:279 | changing one entry changes the sum of segment counters by its difference |
| Segmap.ChainSizes | src/segmap.c:481-528 | report rows that chain from one sector to another have sizes adding up to the distance |
| Segmap.ChainAppend | src/segmap.c:494-528 | the rows of the beginning, range and remainder parts chain together |
| Segmap.InitShiftsGeometry | lib/libzns-tools.c:185-189 | init_znsdev gives a power-of-two segment size whose mask and shift agree with it |
| Segmap.SegmentOfQuotient | src/segmap.c:437-439 | masking rounds a sector down to its segment start, and shifting gives the segment id as a quotient |
| Segmap.SameSegmentIff | src/segmap.c:469-471 | the single-segment test holds exactly when the extent's first and last sectors share a segment |
| Segmap.SingleSegmentIff | src/segmap.c:469-471 | the one-segment branch is taken exactly when PBAS and PBAE - 1 lie in the same segment |
| Segmap.LaterSegment | src/segmap.c:490-529 | an extent failing the test ends in a later segment, at least one segment past its start |
| Segmap.QuotientMonotone | src/segmap.c:436-446 | a higher physical block never lies in an earlier segment |
| Segmap.QuotientStep | src/segmap.c:436-446 | the next sector lies in the same segment or the next one |
| Segmap.MultiFacts | src/segmap.c:495-527 | the masked and shifted values the three parts of a longer extent use, as quotients |
| Segmap.MultiCutsOf | src/segmap.c:495-527 | a longer extent's beginning, range and end cut points lie in order |
| Segmap.MultiPlanOf | src/segmap.c:490-529 | the rows and counter calls of a longer extent, in terms of the segments of its two ends |
| Segmap.MultiRowsChain | src/segmap.c:495-528 | the rows shown for a longer extent chain from its PBAS to its PBAE |
| Segmap.PlanRowsCover | src/segmap.c:462-529 | the rows shown for any extent run from its PBAS to its PBAE, with sizes adding up to its length |
| Segmap.MultiCallSum | src/segmap.c:504-527 | the counter calls for a longer extent add up to its segments, plus one when it ends inside a segment |
| Segmap.MultiCountsOneMore | src/segmap.c:326-331 | a longer extent is counted once more than the segments it occupies, since num_segments + 1 includes the last segment again |
| Segmap.SingleCountsOnce | src/segmap.c:472-478 | a one-segment extent is counted once, only when its segment is not the current one, and makes it current |
| Segmap.MultiLastRow | src/segmap.c:518-527 | a longer extent ending inside a segment ends with the remainder row, and that segment becomes current |
| Segmap.RemainderRow | src/segmap.c:393-410 | the remainder row runs from the start of PBAE's segment to PBAE |
| Segmap.Geometry512 | lib/libzns-tools.c:185-189 | 512-byte sectors give segments of 4096 sectors and a shift of 12 |
| Segmap.EmptyRangeRow | src/segmap.c:333-385 | an extent of one segment starting mid-segment shows a range row of size 0 |
| Segmap.RunRowShowsExtentStart | src/segmap.c:333-346 | a one-segment range row starts at the extent's PBAS, not the segment start |
| Segmap.CountCallValid | src/segmap.c:271-308 | one set_segment_counters call keeps the totals and per-file counters consistent and adds its segments to the total |
| Segmap.CountCallsValid | src/segmap.c:271-308 | any sequence of calls keeps the statistics consistent and counts the segments they name |
| Segmap.CountCallsAppend | src/segmap.c:471-527 | counting the calls of an extent in two batches is counting them all |
| Segmap.CountCallsOne | src/segmap.c:271-308 | one call as a sequence of calls |
| Segmap.ApplyThen | src/segmap.c:490-529 | the three parts of a longer extent applied one after another |
| Segmap.InWindow | src/segmap.c:440-446 | the extents shown all lie in segments inside [start_lba, end_lba) |
| Segmap.ExtentLbaMonotone | src/segmap.c:437-446 | a later extent's segment starts no earlier |
| Segmap.PastWindow | src/segmap.c:440-442 | once one sorted extent is past the window, all later ones are |
| Segmap.ShownIsWindow | src/segmap.c:436-446 | for sorted extents the break and continue show exactly the extents in the window |
| Segmap.RunRowsCover | src/segmap.c:436-530 | the report's rows add up to the lengths of the extents shown |
| Segmap.RunKeepsStatsValid | src/segmap.c:436-530 | the report keeps the statistics consistent |
| Segmap.StepKeepsStatsValid | src/segmap.c:447-529 | one extent of the report keeps the statistics consistent |
| Segmap.SegmapManager.constructor | src/segmap.c:585 | the statistics start zeroed, with an empty per-file table |
| Segmap.SegmapManager.GetFileStatsIndex | src/segmap.c:244-259 | returns the entry of the file, appending a new entry when it has none, and changes nothing else |
| Segmap.SegmapManager.SetSegmentCounters | src/segmap.c:271-308 | the new statistics are one counter call applied to the old ones |
| Segmap.SegmapManager.CountFile | src/segmap.c:277-284 | the per-file part of set_segment_counters |
| Segmap.SegmapManager.CountHeat | src/segmap.c:286-307 | the heat switch on totals and, under per-file statistics, on the file's entry |
| Segmap.Report.constructor | src/segmap.c:416-426 | the report starts with no current zone or segment and no rows |
| Segmap.Report.ShowSegmentReport | src/segmap.c:416-530 | the new state is the report walk over the sorted extents from the start state |
| Segmap.Report.ShowExtent | src/segmap.c:447-529 | the state after one extent inside the window |
| Segmap.Report.ShowSingle | src/segmap.c:469-489 | a one-segment extent follows its plan |
| Segmap.Report.ShowMulti | src/segmap.c:490-529 | a longer extent follows its plan |
| Segmap.Report.ShowBeginningPart | src/segmap.c:495-509 | the beginning part, and the segment the range starts from |
| Segmap.Report.ShowRemainderPart | src/segmap.c:518-528 | the remainder part, shown only when PBAE is not a segment start |
| Segmap.Report.ShowSegmentInfo | src/segmap.c:183-208 | the segment becomes current; zone and rows are unchanged |
| Segmap.Report.ShowBeginningSegment | src/segmap.c:221-233 | one row from PBAS to the end of its segment |
| Segmap.Report.ShowConsecutiveSegments | src/segmap.c:319-386 | the range part of a longer extent, with its counter call |
| Segmap.Report.ShowRemainderSegment | src/segmap.c:393-410 | one row from the start of PBAE's segment to PBAE, whose segment becomes current |
| Segmap.WindowOfZones | src/segmap.c:419-422 | start_lba is the first sector of the start zone and end_lba the end of the end zone, zones counted from 1 |
| Segmap.ZoneStart | src/segmap.c:419-420 | the uint64_t product minus one zone size is the start of the zone |
| Segmap.ZoneZeroShowsNothing | src/segmap.c:421-442 | an end zone of 0 gives end_lba 0, and the report shows no extent |
| Segmap.ParseOptions | src/segmap.c:588-633 | the getopt loop is the fold of its options |
| Segmap.ParsedIff | src/segmap.c:588-633 | the options parse unless one is -h or unknown |
| Segmap.ParsedOnlyStats | src/segmap.c:625-628 | -o always comes with class statistics |
| Segmap.SetOptionOnlyStats | src/segmap.c:625-628 | no single option sets -o without class statistics |
| Segmap.Validate | src/segmap.c:635-650 | each error exactly when main reports it, in order; otherwise class statistics are kept only with procfs |
| Segmap.ValidStats | src/segmap.c:643-650 | accepted options ask for class statistics only with procfs |
| Segmap.ApplyDefaults | src/segmap.c:662-668 | without -z, zone 0 means zone 1 at the start and the last zone at the end; nothing else changes |
| Segmap.DefaultWindow | src/segmap.c:662-668 | the default window covers the whole device |
| F2fs.NatBlocksHalf | lib/libf2fs.c:226-229 | without overflow, a lookup reads the blocks of half of the NAT segments, the other half being the pair copies |
| F2fs.FirstMatch | lib/libf2fs.c:249-250 | the first slot at or after the entry offset holding the inode, None exactly when no such slot holds it |
| F2fs.ScanFound | lib/libf2fs.c:240-271 | a hit is the first matching slot from the cursor on, within the blocks read, and the cursor moves just past it |
| F2fs.ScanNotFound | lib/libf2fs.c:240-282 | a miss leaves the cursor at the start of the block after the last one read, no slot read holding the inode |
| F2fs.ScanReadFailed | lib/libf2fs.c:244-247 | a read fails only past the device's last block, with no hit before it |
| F2fs.ScanKeepsCursor | lib/libf2fs.c:253-262 | the cursor always points at a slot of a block and never moves back |
| F2fs.NatCursor.constructor | lib/libf2fs.c:7-8 | the NAT cursor starts at block 0, entry 0 |
| F2fs.NatCursor.GetInodeNatEntry | lib/libf2fs.c:217-283 | the result and the new cursor are the scan from the old cursor over nat_blocks blocks |
| F2fs.FindInBlock | lib/libf2fs.c:249-272 | the inner loop stops on the first matching slot, or runs off the block exactly when there is none |
| F2fs.ProcPathOfDevice | lib/libf2fs.c:450-455 | a device `dev` named bare or under any directory opens /proc/fs/f2fs/`dev`/segment_info |
| Text.LastComponent | lib/libf2fs.c:450-453 | the strsep loop leaves the longest suffix of the name without a '/': all of it, or what follows its last '/' |
| Text.LastComponentIs | lib/libf2fs.c:450-453 | any '/'-free suffix that is the whole name or follows a '/' is that component, so it is unique |
| Text.SplitJoin | lib/libf2fs.c:451 | the pieces strsep hands out for one delimiter, joined back with it, give the string again |
| F2fs.EntryOfPair | lib/libf2fs.c:481-496 | a "type\|valid" token reads as that type and valid block count |
| F2fs.EntriesAppend | lib/libf2fs.c:480-500 | a token adds a segment exactly when it holds a '\|' |
| F2fs.ParseLinesPrefix | lib/libf2fs.c:472-510 | the parsed segments are a prefix of all segments in the file, and all of them unless the count reached highest_segment |
| F2fs.ParseLinesWithin | lib/libf2fs.c:466-470 | with rows of at most ten segments, the count stops within highest_segment + 9, the size calloc'd |
| F2fs.ReadLine | lib/libf2fs.c:472-510 | parsing is the first line, then the rest unless the count has reached highest_segment |
| F2fs.Zeros | lib/libf2fs.c:469-470 | calloc'd entries are all zero |
| F2fs.NthEntryIsEntry | lib/libf2fs.c:566-571 | the remainder-th segment token exists exactly when the line has that many segments, and is the token of that segment |
| F2fs.AllEntriesIndex | lib/libf2fs.c:554-555 | in full rows of ten, segment 10 * row + remainder is entry remainder of that row |
| F2fs.SingleAgreesWithAll | lib/libf2fs.c:528-602 | on full rows of ten, the single-segment reader finds the same entry the whole-file reader parses for that segment |
| F2fs.SegmentManager.constructor | lib/libf2fs.c:9 | the segment manager starts empty |
| F2fs.SegmentManager.GetProcfsSegmentBits | lib/libf2fs.c:442-516 | 0 and nothing changed when the file is missing; otherwise 1, room for highest_segment + 9 entries, the old count of zero entries followed by the parsed segments |
| F2fs.SegmentManager.ReadSegmentLines | lib/libf2fs.c:472-510 | after the two header lines, the table gains exactly the segments parsed line by line, ending at the first line after which the count reaches highest_segment; the allocated size is unchanged |
| F2fs.SegmentManager.ParseLine | lib/libf2fs.c:480-501 | one line's segments are appended to the table, in order |
| F2fs.SegmentManager.GetProcfsSingleSegmentBits | lib/libf2fs.c:528-602 | 0 and nothing changed when the file is missing; otherwise 1 and one entry, the segment's when its row and column exist and zero otherwise |
| F2fs.ReadEntry | lib/libf2fs.c:485-496 | the piece loop reads a token as its segment |
| F2fs.ReadSingleEntry | lib/libf2fs.c:576-586 | the piece loop of the single reader, which also sets the id |
| F2fs.FindSegmentToken | lib/libf2fs.c:566-571 | the token loop stops on the remainder-th segment token |
| JsonDump.HexDigits | lib/libjson.c:9 | %x digits: lower case, no leading zeros, and read back as the value |
| JsonDump.HexRoundTrip | lib/libjson.c:9 | the hexadecimal digits of a value read back as that value |
| JsonDump.HexLength | lib/libjson.c:9 | a value has at most k hexadecimal digits exactly when it is below 16^k |
| JsonDump.Hex32Exact | lib/libjson.c:14-20 | a 32-bit value always fits the buffer: "0x" and all its digits, reading back as the value |
| JsonDump.Hex64Exact | lib/libjson.c:6-12 | a 64-bit value is written whole exactly when it is below 2^48; above, the string is cut to 14 characters |
| JsonDump.Dec32Small | lib/libjson.c:22-28 | values below 1000 are written whole and read back as the value |
| JsonDump.Dec32Collides | lib/libjson.c:22-28 | zones 100 and 1000 both get the key "100" |
| JsonDump.Dec32Negative | lib/libjson.c:25 | %d reads values from 2^31 as negative numbers |
| JsonDump.GetBdev | lib/libjson.c:30-52 | dev_name, dev_path, link_name and is_zoned always, and nr_zones, zone_size, zone_mask, sector_size and sector_shift exactly for a zoned device, each with the value the code stores |
| JsonDump.GetFsInfo | lib/libjson.c:54-75 | fs_magic always; for F2FS the name, segment sectors, shift and mask with their values; only the name for Btrfs; nothing else for other file systems |
| JsonDump.GetCtrlConfig | lib/libjson.c:77-94 | "dev-1" exactly with multi_dev, holding bdev's object; "dev-2" holding the ZNS device's object and "filesystem" the file-system object, always; every key and value as json_get_bdev and json_get_fs_info write them |
| JsonDump.WalkEndlessIff | lib/libjson.c:213-222 | a zone's walk never ends exactly when it reaches an extent before the window, since continue skips the advance |
| JsonDump.WalkCurrent | lib/libjson.c:224-227 | a walk that ends leaves the zone it started with, or the zone of an extent it showed |
| JsonDump.PastEndReplacesEarlierZone | lib/libjson.c:213-218 | a zone whose first extent is past the window adds an empty object under the previous zone's key |
| JsonDump.EmptyZoneSkipped | lib/libjson.c:206-208 | zones with no extents add nothing |
| JsonDump.DumpHangsIff | lib/libjson.c:205-317 | the dump never ends exactly when some zone with extents reaches an extent before the window |
| JsonDump.DumpZone | lib/libjson.c:210-312 | the extent walk of one zone |
| JsonDump.DumpZonemap | lib/libjson.c:192-322 | the zonemap object, one key per zone with extents |
| Fpbench.Multiplier | src/fpbench.c:139-149 | a multiplier exactly for B, K, M and G, being 1024 to the power of the suffix's place |
| Fpbench.GetIntegerValue | src/fpbench.c:136-152 | without a suffix the atoi value; with one the product wrapped to a 32-bit int |
| Fpbench.MulMod | src/fpbench.c:151 | the uint32_t product wraps like the exact product |
| Fpbench.SizeRoundTrip | src/fpbench.c:136-152 | a decimal size with a suffix reads back as its byte count while that fits an int |
| Fpbench.LowerCaseIgnored | src/fpbench.c:139-148 | a lower-case suffix is not a multiplier: the value is the number alone |
| Fpbench.GigabytesWrap | src/fpbench.c:145-151 | "4G" reads as 0 and "2G" as -2^31 |
| Fpbench.InitialBench | src/fpbench.c:158-160 | file and block sizes start at 4096, with no file and no jobs |
| Fpbench.ParseOptions | src/fpbench.c:162-190 | the getopt loop is the fold of its options |
| Fpbench.ParsedAppend | src/fpbench.c:162-190 | parsing two runs of options is parsing one after the other |
| Fpbench.ParsedKeepsSizes | src/fpbench.c:171-176 | without -s the file size is kept, without -b the block size |
| Fpbench.DefaultSizes | src/fpbench.c:158-176 | without -s and -b both sizes are 4096 |
| Fpbench.LastSizeWins | src/fpbench.c:171-173 | the last -s decides the file size |
| Fpbench.ParsedFile | src/fpbench.c:167-170 | one workload exactly when some -f was given, and then a file name is set |
| Fpbench.CheckOptions | src/fpbench.c:24-32 | the missing-file error exactly without a workload; the size error exactly with one and a zero file size |
| Fpbench.CheckParsed | src/fpbench.c:24-32 | parsed options pass exactly when some -f was given and the file size is not zero |
| Fpbench.FourGigabytesRejected | src/fpbench.c:24-32 | -s 4G wraps to a zero size and is rejected as missing |
| Fpbench.Probed | src/fpbench.c:81 | a missing procfs file leaves the table as it was; otherwise it holds one entry |
| Fpbench.Step | src/fpbench.c:75-96 | one extent faults exactly when it leaves the segment while neither procfs nor `segman` gives an entry; with an entry it keeps one |
| Fpbench.Report | src/fpbench.c:74-97 | the loop stops at the first fault; with an entry it never faults and keeps one |
| Fpbench.ReportFaultsIff | src/fpbench.c:74-97 | the loop reads `sm_info[0]` through NULL (the procfs reader returns before its calloc, lib/libf2fs.c:542-552) exactly when the procfs file is missing, no entry is left and some extent leaves segment start `cur` |
| Fpbench.Changes | src/fpbench.c:75-80 | at most one segment change per extent |
| Fpbench.ReportCountsChanges | src/fpbench.c:75-84 | the segment counter counts the changes of segment start along the extents |
| Fpbench.ReportHeatWithin | src/fpbench.c:83-96 | the heat counters never exceed the segment counter |
| Fpbench.SegmentZeroSkipped | src/fpbench.c:75-80 | extents all in segment 0 are never counted, since cur_segment starts at 0 |
| Fpbench.ReportWithoutProcfs | src/fpbench.c:81 | without the procfs file a run that does not fault never replaces the table |
| Fpbench.PrintReport | src/fpbench.c:68-103 | no row, with `segman` unchanged, exactly when the loop faults on a NULL `sm_info`; otherwise the row printed holds the loop's counters, the extent count and the zone count passed in |
| Fpbench.ProbeSegment | src/fpbench.c:81 | the call leaves `segman` holding exactly the probe result for the segment: unchanged without the procfs file, else a one-entry table |
| Fpbench.CountType | src/fpbench.c:82-96 | the switch counts one segment under its heat |
| Fpbench.ReportRowCounts | src/fpbench.c:68-103 | the report faults exactly without procfs file and entry when some extent is outside segment start 0; otherwise the segments reported are the segment changes, and the heat counters stay within them |

## Left out

- Device probing and system calls: `is_zoned`, `get_sector_size`, `init_dev`, `init_zone_map`, `get_dev_size`, `get_zone_size`, `get_nr_zones`, `get_zone_info`, `print_zone_info`, `set_super_block_info`, `set_fs_magic` and `init_ctrl` in `lib/libzns-tools.c`, `lib/libzmap.c` and `src/control.c` are not part of this model. Their results enter as parameters: FIEMAP answers as sequences of extents, BLKREPORTZONE zones as sequences, procfs files as a map from path to lines, NAT blocks as a sequence of blocks.
- Raw disk reads and the `f2fs_show_*` printers of `lib/libf2fs.c`: a NAT block that cannot be read is the `ReadFailed` outcome; the printers are not modelled.
- Printed text: `REP`, `MSG`, `INFO` and `WARN` output is modelled as the rows and counters it prints, not as characters; `ERR_MSG` (which exits) is an `Err` or `None` result.
- The CLI front-ends `src/fibmap.c`, `src/fiemap.c`, `src/imap.c`, `src/inode.c`, `src/main.c` and `fpbench/fpbench.c`, the sysfs and FIBMAP code of the root `filemap.c`, and `write_file` and `run_workloads` of `src/fpbench.c` (file writes, `fcntl` hints, `fsync`).
- The `fs_info_init` callback branch of `get_extents` in `lib/libzns-tools.c` (lines 652-664), which fills file-system specific data the model does not use.
- Floating point: the EAES/EAHS averages of the reports and `json_object_new_double` are left out; `Filemap.AverageSize` states the integer quotient only. Python's `int(ts) / 1000` is an exact rational, with no claim about float rounding.
- Plotting and statistics scripts (`plot.py` files and the evaluation scripts) other than the opcode reading of `zns.trace/plot.py`, which `TraceHelpers.PlotOperation` records.
- json-c: objects are maps from keys to values, so key order, reference counts and `json_object_to_file` are not modelled; `init_json_file` (clock, command line) is left out. `json_get_zone_info` is an ioctl and enters as a value per zone.
- Python's `json.loads` and `jsonpickle.encode` in `tracegen.py`: a trace line enters already decoded as a list of maps; events are records, not JSON text. `int()` accepts ASCII digits with an optional sign and surrounding ASCII whitespace; underscores and non-ASCII digits are not modelled.
- Memory: `calloc` sizes are recorded (`capacity`) but a write past an allocation (for example more than `highest_segment + 9` segments in `get_procfs_segment_bits`) is not modelled as a fault; the 50-byte `path` buffer of the procfs readers is assumed large enough; `free` is not modelled.
- Linked lists: the zone extent lists of `lib/libzns-tools.c` are sequences, so the pointer relinking of `sorted_zone_list_insert` is modelled by its result, not by its aliasing.
- The `strcmp(split_string, "|")` branch of the procfs readers: pieces produced by `strsep` on `"|"` never equal `"|"`, so the branch is dead and is omitted.
- Undefined behaviour: a shift by 32 or more bits in `init_znsdev` and an `atoi` overflow are not modelled; `Text.Atoi` returns the exact value.
- `json_dump_f2fs_zonemap` loops forever on an extent before the window; the model states this as `Endless` walks and `JsonDump.DumpHangsIff` rather than as a non-terminating method.
- The `-n` job count of `src/fpbench.c` is parsed (`% 2^16`) but jobs are not run; main's call of `check_options` only when `nr_jobs == 0` and the `strrchr` root directory are left out.
- `MetaEvent` of `zns.apptrace/util/event.py` is a datatype only; it has no behaviour to prove.
- ZnsTools.ZoneMap.AddExtentToZoneList: the zone's `extent_ctr` (lib/libzns-tools.c:386) and the zone map's counters are unbounded naturals; their `uint32_t` wrap-around is not modelled.
- ZnsTools.SegmentStep: a file entry's `segment_ctr`, heat counters and `zone_ctr` (lib/libzns-tools.c:757-778) are unbounded naturals, without the `uint32_t` wrap of their additions; an entry starts with zero counters, `last_segment_id` and `last_zone`, although for every file after the first the `realloc` of `get_extents` (lib/libzns-tools.c:573-579) leaves them indeterminate.
- ZnsTools.FileCounterMap.IncreaseFileExtentCounter: `ext_ctr` (lib/libzns-tools.c:540) is an unbounded natural, without its `uint32_t` wrap; a new entry's other fields are zero, where `realloc` leaves them indeterminate.
- ZnsTools.FileCounterMap.IncreaseFileSegmentCounter: the same unbounded counters and zero-filled entries as `ZnsTools.SegmentStep`.
- ZnsTools.Control.ReadAnswer: the loop's `ext_ctr`, the zone map's `extent_ctr` and `zone_ctr` and `inlined_extent_ctr` (lib/libzns-tools.c:670-677) are unbounded naturals; the `uint32_t` wrap of the zone map counters is not modelled.
- ZnsTools.Control.GetExtents: `nr_files` (lib/libzns-tools.c:689) and the extent counters are unbounded naturals, without their `uint32_t` wrap; the `realloc` of the file-counter table is modelled as appending zeroed entries, as for `ZnsTools.SegmentStep`.
- Segmap.Report.ShowExtent: `extent_end` (src/segmap.c:464) is the exact sum of `phy_blk` and `len`, not its `uint64_t` wrap, and the rows built from it follow; the lemmas about an extent's plan require that sum below 2^64. `zone_ctr` (src/segmap.c:456) is an unbounded natural.
- Segmap.AddSegments: counters are unbounded naturals; the `uint32_t` wrap-around of `segment_ctr` and the heat counters is not modelled.
- Fpbench.Report: `segment_ctr` and the heat counters are naturals, without their `uint32_t` wrap-around.
- Filemap.ExtentMap.PrintExtentReport: `zone_ctr` and the hole counters are naturals, without their `uint32_t` wrap-around.
- Fpbench.GetIntegerValue: requires a non-empty argument, since the code reads the character before `optarg` for an empty one, which the model cannot represent.
- Segmap.SegmapManager.SetSegmentCounters: a segment id outside the procfs table reads as an unclassified type instead of an out-of-bounds read of `sm_info`.
- F2fs.NatCursor.GetInodeNatEntry: the cursor offset is unbounded; the `uint32_t` wrap of `nat_block_offset` and of the byte address is not modelled.

=== FILE: apptrace_event.dfy ===
/**
  zns.apptrace/util/event.py: the application-trace event record. The
  lane (`pid`) and the category (`cat`) are both derived from the event
  name by a chain of substring tests, each chain in its own order; the
  `pid` argument of the constructor is ignored.
 */
module AppTraceEvent {
  import opened Wrappers
  import opened Text
  import opened PyModel
  import opened Classify

  /** The lanes of get_pid, in the order they are tested. */
  const PidRules: seq<Rule<int>> := [
    Rule(["nvme"], 0),
    Rule(["compaction", "flush"], 1),
    Rule(["vfs", "rw_hint"], 2),
    Rule(["f2fs"], 3),
    Rule(["mm"], 4)]

  /** The categories of get_cat, in the order they are tested. */
  const CatRules: seq<Rule<string>> := [
    Rule(["vfs", "rw_hint"], "VFS"),
    Rule(["nvme"], "NVMe"),
    Rule(["f2fs"], "F2FS"),
    Rule(["mm"], "MM"),
    Rule(["compaction", "flush"], "RocksDB")]

  /** Lane of an event name: the first substring test that succeeds decides. */
  function GetPid(name: string): Option<int> {
    if Contains(name, "nvme") then Some(0)
    else if Contains(name, "compaction") || Contains(name, "flush") then Some(1)
    else if Contains(name, "vfs") || Contains(name, "rw_hint") then Some(2)
    else if Contains(name, "f2fs") then Some(3)
    else if Contains(name, "mm") then Some(4)
    else None
  }

  /** Category of an event name, with its own test order. */
  function GetCat(name: string): Option<string> {
    if Contains(name, "vfs") || Contains(name, "rw_hint") then Some("VFS")
    else if Contains(name, "nvme") then Some("NVMe")
    else if Contains(name, "f2fs") then Some("F2FS")
    else if Contains(name, "mm") then Some("MM")
    else if Contains(name, "compaction") || Contains(name, "flush") then Some("RocksDB")
    else None
  }

  /** get_pid is the first-match rule list PidRules. */
  lemma GetPidIsFirstMatch(name: string)
    ensures GetPid(name) == FirstMatch(PidRules, name)
  {
    AnyContainsOneTwo(name, "nvme", "");
    AnyContainsOneTwo(name, "compaction", "flush");
    AnyContainsOneTwo(name, "vfs", "rw_hint");
    AnyContainsOneTwo(name, "f2fs", "");
    AnyContainsOneTwo(name, "mm", "");
    FirstMatchSteps(PidRules, name);
  }

  /** get_cat is the first-match rule list CatRules. */
  lemma GetCatIsFirstMatch(name: string)
    ensures GetCat(name) == FirstMatch(CatRules, name)
  {
    AnyContainsOneTwo(name, "nvme", "");
    AnyContainsOneTwo(name, "compaction", "flush");
    AnyContainsOneTwo(name, "vfs", "rw_hint");
    AnyContainsOneTwo(name, "f2fs", "");
    AnyContainsOneTwo(name, "mm", "");
    FirstMatchSteps(CatRules, name);
  }

  /** FirstMatch over a five-rule list, one rule at a time. */
  lemma FirstMatchSteps<V>(rules: seq<Rule<V>>, name: string)
    requires |rules| == 5
    ensures FirstMatch(rules, name)
         == if Fires(rules[0], name) then Some(rules[0].value)
            else if Fires(rules[1], name) then Some(rules[1].value)
            else if Fires(rules[2], name) then Some(rules[2].value)
            else if Fires(rules[3], name) then Some(rules[3].value)
            else if Fires(rules[4], name) then Some(rules[4].value)
            else None
  {
    FirstMatchStep(rules, name);
    FirstMatchStep(rules[1..], name);
    FirstMatchStep(rules[2..], name);
    FirstMatchStep(rules[3..], name);
    FirstMatchStep(rules[4..], name);
    assert rules[1..][1..] == rules[2..] && rules[2..][1..] == rules[3..];
    assert rules[3..][1..] == rules[4..] && rules[4..][1..] == [];
  }

  /** The two orders disagree: 'nvme' wins the lane, 'vfs' wins the category. */
  lemma LaneAndCategoryDisagree(name: string)
    requires Contains(name, "nvme") && Contains(name, "vfs")
    ensures GetPid(name) == Some(0) && GetCat(name) == Some("VFS")
  {
  }

  /** Such names exist, e.g. "nvme_vfs". */
  lemma LaneAndCategoryDisagreeExample()
    ensures GetPid("nvme_vfs") == Some(0) && GetCat("nvme_vfs") == Some("VFS")
  {
    ContainsInfix("", "nvme", "_vfs");
    ContainsInfix("nvme_", "vfs", "");
    LaneAndCategoryDisagree("nvme_vfs");
  }

  /** An NVMe flush is an NVMe event in both chains: 'nvme' precedes 'flush' in each. */
  lemma NvmeFlush(name: string)
    requires Contains(name, "nvme") && Contains(name, "flush")
    requires !Contains(name, "vfs") && !Contains(name, "rw_hint")
    ensures GetPid(name) == Some(0) && GetCat(name) == Some("NVMe")
  {
  }

  /** A name no test matches has neither lane nor category. */
  lemma UnclassifiedName(name: string)
    requires forall k | 0 <= k < |PidRules| :: !Fires(PidRules[k], name)
    ensures GetPid(name) == None && GetCat(name) == None
  {
    GetPidIsFirstMatch(name);
    GetCatIsFirstMatch(name);
    FirstMatchNone(PidRules, name);
    assert forall k | 0 <= k < |CatRules| :: !Fires(CatRules[k], name) by {
      assert forall k | 0 <= k < |CatRules| :: exists j :: 0 <= j < |PidRules| && CatRules[k].keys == PidRules[j].keys by {
        assert CatRules[0].keys == PidRules[2].keys;
        assert CatRules[1].keys == PidRules[0].keys;
        assert CatRules[2].keys == PidRules[3].keys;
        assert CatRules[3].keys == PidRules[4].keys;
        assert CatRules[4].keys == PidRules[1].keys;
      }
    }
    FirstMatchNone(CatRules, name);
  }

  /** An application event as the Event constructor builds it. */
  datatype Event<A> = Event(name: string, cat: Option<string>, ph: string, ts: real,
                            pid: Option<int>, tid: int, args: A)

  /**
    Event.__init__: `int(timestamp)` is evaluated before `tid_map[name]`,
    so a bad timestamp raises ValueError even when the name is also
    missing from the thread map.
   */
  function NewEvent<A>(name: string, timestamp: string, phase: string, pid: int, tid: int,
                       args: A, tidMap: map<string, int>): (r: Result<Event<A>, PyError>)
    ensures r.Ok? <==> PyInt(timestamp).Some? && name in tidMap
    ensures PyInt(timestamp).None? ==> r == Err(ValueError)
    ensures PyInt(timestamp).Some? && name !in tidMap ==> r == Err(KeyError)
    ensures r.Ok? ==> r.value.ts * 1000.0 == PyInt(timestamp).value as real
    ensures r.Ok? ==> r.value.pid == GetPid(name) && r.value.cat == GetCat(name)
    ensures r.Ok? ==> r.value.tid == tidMap[name]
    ensures r.Ok? ==> r.value.name == name && r.value.ph == phase && r.value.args == args
  {
    var ts := Micros(timestamp);
    if ts.Err? then Err(ts.error)
    else if name !in tidMap then Err(KeyError)
    else Ok(Event(name, GetCat(name), phase, ts.value, GetPid(name), tidMap[name], args))
  }

  /** The lane and the category depend on the name alone, not on the pid passed in. */
  lemma EventIgnoresPid<A>(name: string, timestamp: string, phase: string, pid1: int, pid2: int,
                           tid: int, args: A, tidMap: map<string, int>)
    ensures NewEvent(name, timestamp, phase, pid1, tid, args, tidMap)
         == NewEvent(name, timestamp, phase, pid2, tid, args, tidMap)
  {
  }

  /** MetaEvent: the five fields as given, with no classification. */
  datatype MetaEvent<A> = MetaEvent(name: string, ph: string, pid: int, tid: int, args: A)
}

=== FILE: common.dfy ===
/** Option and Result, used by every module for the source's error paths. */
module Wrappers {

  datatype Option<T> = None | Some(value: T)

  datatype Result<T, E> = Ok(value: T) | Err(error: E)
}

/**
  Fixed-width unsigned arithmetic of the C sources, written over `int`.
  Wrap-around is explicit (`% TWO64`, `% TWO32`) and bitwise AND is the
  recursive `And` below, so that every mask in the sources can be
  stated as an ordinary expression and then related to division.
 */
module Bits {

  const TWO32: nat := 0x1_0000_0000
  const TWO64: nat := 0x1_0000_0000_0000_0000

  type u32 = x: int | 0 <= x < 0x1_0000_0000
  type u64 = x: int | 0 <= x < 0x1_0000_0000_0000_0000

  function Pow2(k: nat): (r: nat)
    ensures r >= 1
  {
    if k == 0 then 1 else 2 * Pow2(k - 1)
  }

  /** Bitwise AND of two non-negative integers, one bit at a time. */
  function And(a: nat, b: nat): nat
    decreases a
  {
    if a == 0 || b == 0 then 0
    else 2 * And(a / 2, b / 2) + (if a % 2 == 1 && b % 2 == 1 then 1 else 0)
  }

  /** `~x` on a uint64_t. */
  function Not64(x: u64): u64 {
    TWO64 - 1 - x
  }

  /** `~x` on a uint32_t. */
  function Not32(x: u32): u32 {
    TWO32 - 1 - x
  }

  /** Unsigned 64-bit subtraction, wrapping below zero. */
  function Sub64(a: u64, b: u64): u64 {
    (a - b) % TWO64
  }

  /** Unsigned 64-bit addition, wrapping above 2^64 - 1. */
  function Add64(a: u64, b: u64): u64 {
    (a + b) % TWO64
  }

  /** Unsigned 64-bit multiplication, wrapping. */
  function Mul64(a: u64, b: u64): u64 {
    (a * b) % TWO64
  }

  /** `a << k` on a uint64_t: the bits shifted past bit 63 are lost. */
  function Shl64(a: u64, k: nat): u64 {
    (a * Pow2(k)) % TWO64
  }

  /** `a << k` on an unsigned int (32 bits). */
  function Shl32(a: u32, k: nat): u32 {
    (a * Pow2(k)) % TWO32
  }

  /** `a >> k` on an unsigned value. */
  function Shr(a: nat, k: nat): (r: nat)
    ensures r <= a
  {
    DivBounds(a, Pow2(k));
    a / Pow2(k)
  }

  /** Conversion of any integer to uint32_t (reduction modulo 2^32). */
  function ToU32(x: int): u32 {
    x % TWO32
  }

  /** Conversion of any integer to uint64_t (reduction modulo 2^64). */
  function ToU64(x: int): u64 {
    x % TWO64
  }

  /** Two's-complement reading of a 32-bit pattern, as `%d` and `(int)` do. */
  function AsInt32(x: u32): (r: int)
    ensures -0x8000_0000 <= r < 0x8000_0000
    ensures r % TWO32 == x
  {
    if x < 0x8000_0000 then x else x - TWO32
  }

  lemma Pow2Small()
    ensures Pow2(9) == 512 && Pow2(12) == 4096 && Pow2(16) == 0x1_0000
  {
  }

  lemma Pow2Of32()
    ensures Pow2(32) == TWO32
  {
    Pow2Small();
    Pow2Add(16, 16);
  }

  lemma Pow2Of64()
    ensures Pow2(64) == TWO64
  {
    Pow2Of32();
    Pow2Add(32, 32);
  }

  lemma {:induction false} Pow2Add(a: nat, b: nat)
    ensures Pow2(a + b) == Pow2(a) * Pow2(b)
  {
    if a > 0 {
      Pow2Add(a - 1, b);
    }
  }

  lemma {:induction false} Pow2Monotone(a: nat, b: nat)
    requires a <= b
    ensures Pow2(a) <= Pow2(b)
  {
    if a < b {
      Pow2Monotone(a, b - 1);
    }
  }

  /** The remainder modulo 2^k is built from the remainder of a/2 modulo 2^(k-1) and the low bit. */
  lemma ModPow2Split(a: nat, k: nat)
    requires k >= 1
    ensures a % Pow2(k) == 2 * ((a / 2) % Pow2(k - 1)) + a % 2
    ensures a / Pow2(k) == (a / 2) / Pow2(k - 1)
  {
    var p := Pow2(k - 1);
    var q, r := a / 2, a % 2;
    var m := 2 * (q % p) + r;
    assert q == p * (q / p) + q % p;
    assert a == Pow2(k) * (q / p) + m;
    assert 0 <= m < Pow2(k);
    DivModUnique(a, Pow2(k), q / p, m);
  }

  lemma DivModUnique(a: int, m: int, q: int, r: int)
    requires m > 0 && 0 <= r < m && a == q * m + r
    ensures a % m == r && a / m == q
  {
    var q0, r0 := a / m, a % m;
    assert (q0 - q) * m == r - r0;
    if q0 > q {
      MulAtLeast(q0 - q, m);
    } else if q0 < q {
      MulAtLeast(q - q0, m);
    }
  }

  lemma MulAtLeast(d: int, m: int)
    requires d >= 1 && m > 0
    ensures d * m >= m
  {
  }

  lemma {:induction false} AndZeroRight(a: nat)
    ensures And(a, 0) == 0
  {
  }

  lemma AndZeroLeft(b: nat)
    ensures And(0, b) == 0
  {
  }

  /** AND with all-ones below bit n leaves a value below 2^n unchanged. */
  lemma {:induction false} AndLowOnes(a: nat, n: nat)
    requires a < Pow2(n)
    ensures And(a, Pow2(n) - 1) == a
  {
    if n > 0 && a > 0 {
      ModPow2Split(Pow2(n) - 1, n);
      assert (Pow2(n) - 1) / 2 == Pow2(n - 1) - 1;
      AndLowOnes(a / 2, n - 1);
    }
  }

  /**
    The central mask fact: clearing the k low bits of a value below 2^n
    (AND with 2^n - 2^k) rounds it down to a multiple of 2^k.
   */
  lemma AndHighMask(a: nat, n: nat, k: nat)
    requires k <= n && a < Pow2(n)
    ensures Pow2(k) <= Pow2(n)
    ensures And(a, Pow2(n) - Pow2(k)) == a - a % Pow2(k)
  {
    HighOnesMask(n, k);
    FitsBelow(a, n);
    AndHighOnes(a, Pow2(n) - Pow2(k), k, n);
    LowBitsMod(a, k);
  }

  /** The k low bits of `a`, collected one at a time. */
  function LowBits(a: nat, k: nat): nat {
    if k == 0 then 0 else 2 * LowBits(a / 2, k - 1) + a % 2
  }

  lemma {:induction false} LowBitsMod(a: nat, k: nat)
    ensures LowBits(a, k) == a % Pow2(k)
  {
    if k > 0 {
      LowBitsMod(a / 2, k - 1);
      ModPow2Split(a, k);
    }
  }

  /** `m` has bits k..n-1 set and no others, read from the low bit up. */
  predicate HighOnes(m: nat, k: nat, n: nat)
    decreases n
  {
    if n == 0 then m == 0
    else m % 2 == (if k == 0 then 1 else 0) && HighOnes(m / 2, if k == 0 then 0 else k - 1, n - 1)
  }

  /** `a` has no bit at n or above. */
  predicate Fits(a: nat, n: nat)
    decreases n
  {
    if n == 0 then a == 0 else Fits(a / 2, n - 1)
  }

  /** AND with a mask of the bits from k up (to a's width) clears exactly the k low bits. */
  lemma {:induction false} AndHighOnes(a: nat, m: nat, k: nat, n: nat)
    requires HighOnes(m, k, n) && Fits(a, n)
    ensures And(a, m) == a - LowBits(a, k)
    decreases n
  {
    if a == 0 {
      LowBitsZero(k);
    } else {
      var k' := if k == 0 then 0 else k - 1;
      AndHighOnes(a / 2, m / 2, k', n - 1);
      assert And(a, m) == 2 * And(a / 2, m / 2) + (if a % 2 == 1 && m % 2 == 1 then 1 else 0);
      if k > 0 {
        assert LowBits(a, k) == 2 * LowBits(a / 2, k - 1) + a % 2;
      }
      assert a == 2 * (a / 2) + a % 2;
    }
  }

  lemma {:induction false} LowBitsZero(k: nat)
    ensures LowBits(0, k) == 0
  {
    if k > 0 {
      LowBitsZero(k - 1);
    }
  }

  /** 2^n - 2^k is the mask of bits k..n-1. */
  lemma {:induction false} HighOnesMask(n: nat, k: nat)
    requires k <= n
    ensures Pow2(k) <= Pow2(n)
    ensures HighOnes(Pow2(n) - Pow2(k), k, n)
    decreases n
  {
    Pow2Monotone(k, n);
    if n == 0 {
      assert Pow2(0) == 1;
    } else if k == 0 {
      assert Pow2(0) == 1;
      HighOnesMask(n - 1, 0);
      DivModUnique(Pow2(n) - 1, 2, Pow2(n - 1) - 1, 1);
    } else {
      HighOnesMask(n - 1, k - 1);
      DivModUnique(Pow2(n) - Pow2(k), 2, Pow2(n - 1) - Pow2(k - 1), 0);
    }
  }

  /** A value below 2^n fits in n bits. */
  lemma {:induction false} FitsBelow(a: nat, n: nat)
    requires a < Pow2(n)
    ensures Fits(a, n)
    decreases n
  {
    if n == 0 {
      assert Pow2(0) == 1;
    } else {
      HalfBelow(a, n);
      FitsBelow(a / 2, n - 1);
    }
  }

  /** Halving a value below 2^n gives one below 2^(n-1). */
  lemma HalfBelow(a: nat, n: nat)
    requires n > 0 && a < Pow2(n)
    ensures a / 2 < Pow2(n - 1)
  {
    assert Pow2(n) == 2 * Pow2(n - 1);
  }

  /** Only the bits of `a` below the width of `b` matter to `And(a, b)`. */
  lemma {:induction false} AndTruncate(a: nat, b: nat, n: nat)
    requires b < Pow2(n)
    ensures And(a, b) == And(a % Pow2(n), b)
  {
    if n > 0 && a != 0 && b != 0 {
      ModPow2Split(a, n);
      var a' := a % Pow2(n);
      assert a' / 2 == (a / 2) % Pow2(n - 1) && a' % 2 == a % 2;
      AndTruncate(a / 2, b / 2, n - 1);
    }
  }

  lemma {:induction false} AndUpperBound(a: nat, b: nat)
    ensures And(a, b) <= a && And(a, b) <= b
  {
    if a != 0 && b != 0 {
      AndUpperBound(a / 2, b / 2);
    }
  }

  /** `~(2^k - 1)` on 64 bits is 2^64 - 2^k. */
  lemma LowMask64(k: nat)
    requires k < 64
    ensures Pow2(k) < TWO64
    ensures Not64(Sub64(Pow2(k), 1)) == TWO64 - Pow2(k)
  {
    Pow2Monotone(k, 63);
    Pow2Of64();
  }

  /** `x & ~(2^k - 1)` on 64 bits rounds x down to a multiple of 2^k. */
  lemma RoundDown64(x: u64, k: nat)
    requires k < 64
    ensures Pow2(k) < TWO64
    ensures And(x, Not64(Sub64(Pow2(k), 1))) == x - x % Pow2(k) == (x / Pow2(k)) * Pow2(k)
  {
    LowMask64(k);
    Pow2Of64();
    AndHighMask(x, 64, k);
    DivModIdentity(x, Pow2(k));
  }

  /** Adding to a 64-bit sum one term at a time wraps like adding the total. */
  lemma Add64Sum(a: u64, s: nat, x: u64)
    ensures Add64(ToU64(a + s), x) == ToU64(a + s + x)
  {
    DivModUnique(a + s, TWO64, (a + s) / TWO64, (a + s) % TWO64);
    var q := (a + s) / TWO64;
    DivModUnique(a + s + x, TWO64, q + (ToU64(a + s) + x) / TWO64, (ToU64(a + s) + x) % TWO64);
  }

  lemma {:induction false} DivBounds(a: nat, m: int)
    requires m > 0
    ensures 0 <= a / m <= a
    decreases a
  {
    if a < m {
      DivModUnique(a, m, 0, a);
    } else {
      DivBounds(a - m, m);
      DivModUnique(a, m, (a - m) / m + 1, (a - m) % m);
    }
  }

  lemma DivModIdentity(a: int, m: int)
    requires m > 0
    ensures a - a % m == (a / m) * m
  {
  }
}

/**
  Strings as the Python and C sources read them: substring tests, C's
  `atoi`, Python's `int()`, decimal rendering, and the splitting done by
  `str.split`, `strsep` and `re.sub`.
 */
module Text {
  import opened Wrappers

  predicate IsDigit(c: char) {
    '0' <= c <= '9'
  }

  predicate AllDigits(s: string) {
    forall i | 0 <= i < |s| :: IsDigit(s[i])
  }

  function DigitValue(c: char): (d: nat)
    requires IsDigit(c)
    ensures d < 10
  {
    (c as int) - ('0' as int)
  }

  function DigitChar(d: nat): (c: char)
    requires d < 10
    ensures IsDigit(c) && DigitValue(c) == d
  {
    (('0' as int) + d) as char
  }

  /** Python's `sub in s`. */
  predicate Contains(s: string, sub: string)
    decreases |s|
  {
    |sub| <= |s| && (s[..|sub|] == sub || (|s| > 0 && Contains(s[1..], sub)))
  }

  ghost predicate OccursAt(s: string, sub: string, i: int) {
    0 <= i && i + |sub| <= |s| && s[i..i + |sub|] == sub
  }

  /** The textbook definition of a substring occurrence. */
  ghost predicate Occurs(s: string, sub: string) {
    exists i :: OccursAt(s, sub, i)
  }

  lemma {:induction false} ContainsIffOccurs(s: string, sub: string)
    ensures Contains(s, sub) <==> Occurs(s, sub)
    decreases |s|
  {
    if Contains(s, sub) {
      if s[..|sub|] == sub {
        assert OccursAt(s, sub, 0);
      } else {
        ContainsIffOccurs(s[1..], sub);
        var i :| OccursAt(s[1..], sub, i);
        assert s[1..][i..i + |sub|] == s[i + 1..i + 1 + |sub|];
        assert OccursAt(s, sub, i + 1);
      }
    }
    if Occurs(s, sub) {
      var i :| OccursAt(s, sub, i);
      if i > 0 {
        assert s[1..][i - 1..i - 1 + |sub|] == s[i..i + |sub|];
        assert OccursAt(s[1..], sub, i - 1);
        ContainsIffOccurs(s[1..], sub);
      }
    }
  }

  /** Every string contains its own pieces: sub occurs in a + sub + b. */
  lemma ContainsInfix(a: string, sub: string, b: string)
    ensures Contains(a + sub + b, sub)
  {
    var s := a + sub + b;
    assert s[|a|..|a| + |sub|] == sub;
    assert OccursAt(s, sub, |a|);
    ContainsIffOccurs(s, sub);
  }

  /** Every character of an occurring pattern is a character of the text. */
  lemma ContainsKeepsChars(s: string, sub: string)
    ensures Contains(s, sub) ==> forall c | c in sub :: c in s
  {
    ContainsIffOccurs(s, sub);
    if Contains(s, sub) {
      var i :| OccursAt(s, sub, i);
      forall c | c in sub
        ensures c in s
      {
        var j :| 0 <= j < |sub| && sub[j] == c;
        assert s[i..i + |sub|][j] == s[i + j];
      }
    }
  }

  /** A pattern holding a character the text lacks does not occur in it. */
  lemma NotContainsByChar(s: string, sub: string, c: char)
    requires c in sub && c !in s
    ensures !Contains(s, sub)
  {
    ContainsKeepsChars(s, sub);
  }

  /** The value of a run of decimal digits, most significant first. */
  function DigitsValue(ds: string): nat
    requires AllDigits(ds)
  {
    if ds == [] then 0 else DigitsValue(ds[..|ds| - 1]) * 10 + DigitValue(ds[|ds| - 1])
  }

  /** The shortest decimal rendering of n (as `%u` / `str(n)` print it). */
  function Decimal(n: nat): (r: string)
    ensures |r| >= 1 && AllDigits(r)
  {
    if n < 10 then [DigitChar(n)] else Decimal(n / 10) + [DigitChar(n % 10)]
  }

  /** `%d` / `str(x)` of a signed integer. */
  function SignedDecimal(x: int): (r: string)
    ensures |r| >= 1
  {
    if x < 0 then "-" + Decimal(-x) else Decimal(x)
  }

  lemma {:induction false} DecimalValue(n: nat)
    ensures DigitsValue(Decimal(n)) == n
  {
    if n >= 10 {
      var r := Decimal(n);
      assert r[..|r| - 1] == Decimal(n / 10);
      DecimalValue(n / 10);
    }
  }

  /** C's isspace in the "C" locale. */
  predicate IsCSpace(c: char) {
    c == ' ' || c == '\t' || c == '\n' || c == '\r' || c as int == 11 || c as int == 12
  }

  function SkipSpace(s: string): (r: string)
    ensures |r| <= |s|
  {
    if |s| > 0 && IsCSpace(s[0]) then SkipSpace(s[1..]) else s
  }

  /** The longest prefix of s made of decimal digits. */
  function LeadingDigits(s: string): (r: string)
    ensures AllDigits(r) && |r| <= |s| && r == s[..|r|]
    ensures |r| < |s| ==> !IsDigit(s[|r|])
  {
    if |s| > 0 && IsDigit(s[0]) then [s[0]] + LeadingDigits(s[1..]) else []
  }

  /**
    C's atoi: skip leading white space, read an optional sign, then the
    longest run of digits; anything after it is ignored, and no digits
    give 0. (Overflow, undefined in C, is not modelled: the value is exact.)
   */
  function Atoi(s: string): int {
    var t := SkipSpace(s);
    if |t| > 0 && t[0] == '-' then -(DigitsValue(LeadingDigits(t[1..])) as int)
    else if |t| > 0 && t[0] == '+' then DigitsValue(LeadingDigits(t[1..]))
    else DigitsValue(LeadingDigits(t))
  }

  lemma LeadingDigitsOfDigits(ds: string, rest: string)
    requires AllDigits(ds)
    requires rest == [] || !IsDigit(rest[0])
    ensures LeadingDigits(ds + rest) == ds
    decreases |ds|
  {
    if ds != [] {
      assert (ds + rest)[1..] == ds[1..] + rest;
      LeadingDigitsOfDigits(ds[1..], rest);
    }
  }

  /** atoi reads back what %u printed, and stops at the first non-digit after it. */
  lemma AtoiDecimal(n: nat, rest: string)
    requires rest == [] || !IsDigit(rest[0])
    ensures Atoi(Decimal(n) + rest) == n
  {
    var s := Decimal(n) + rest;
    assert s[0] == Decimal(n)[0];
    assert SkipSpace(s) == s;
    LeadingDigitsOfDigits(Decimal(n), rest);
    DecimalValue(n);
  }

  /** Python's notion of white space for `int()`, restricted to ASCII. */
  predicate IsPySpace(c: char) {
    IsCSpace(c) || (28 <= c as int <= 31)
  }

  function StripLeft(s: string): (r: string)
    ensures |r| <= |s|
  {
    if |s| > 0 && IsPySpace(s[0]) then StripLeft(s[1..]) else s
  }

  function StripRight(s: string): (r: string)
    ensures |r| <= |s|
  {
    if |s| > 0 && IsPySpace(s[|s| - 1]) then StripRight(s[..|s| - 1]) else s
  }

  /**
    Python's `int(s)` on a string: surrounding white space is ignored, an
    optional sign, then at least one decimal digit and nothing else. Any
    other text raises ValueError, here None.
   */
  function PyInt(s: string): Option<int> {
    ParseSigned(StripRight(StripLeft(s)))
  }

  /** An optional sign and at least one decimal digit, and nothing else. */
  function ParseSigned(t: string): Option<int> {
    if |t| > 0 && t[0] == '-' then Negate(ParseBody(t[1..]))
    else if |t| > 0 && t[0] == '+' then ParseBody(t[1..])
    else ParseBody(t)
  }

  /** At least one decimal digit and nothing else. */
  function ParseBody(b: string): Option<int> {
    if |b| > 0 && ParseDigits(b).Some? then Some(ParseDigits(b).value) else None
  }

  function Negate(r: Option<int>): Option<int> {
    if r.Some? then Some(-r.value) else None
  }

  /** The value of a string of digits, None as soon as a character is not a digit. */
  function ParseDigits(s: string): Option<nat> {
    if s == [] then Some(0)
    else
      var init := ParseDigits(s[..|s| - 1]);
      if init.Some? && IsDigit(s[|s| - 1]) then Some(init.value * 10 + DigitValue(s[|s| - 1]))
      else None
  }

  /** ParseDigits accepts exactly the all-digit strings, with their DigitsValue. */
  lemma {:induction false} ParseDigitsIff(s: string)
    ensures ParseDigits(s).Some? <==> AllDigits(s)
    ensures ParseDigits(s).Some? ==> ParseDigits(s).value == DigitsValue(s)
  {
    if s != [] {
      var init := s[..|s| - 1];
      ParseDigitsIff(init);
      assert forall i | 0 <= i < |init| :: init[i] == s[i];
      if AllDigits(init) && IsDigit(s[|s| - 1]) {
        assert AllDigits(s);
      }
    }
  }

  lemma PyIntDecimal(x: int)
    ensures PyInt(SignedDecimal(x)) == Some(x)
  {
    if x < 0 {
      var ds := Decimal(-x);
      DecimalValue(-x);
      PyIntSigned(ds, x);
      assert SignedDecimal(x) == ['-'] + ds;
    } else {
      var ds := Decimal(x);
      DecimalValue(x);
      PyIntUnsigned(ds, x);
      assert SignedDecimal(x) == ds;
    }
  }

  lemma PyIntUnsigned(ds: string, r: int)
    requires |ds| > 0 && AllDigits(ds) && DigitsValue(ds) as int == r
    ensures PyInt(ds) == Some(r)
  {
    assert IsDigit(ds[0]) && IsDigit(ds[|ds| - 1]);
    StripClean(ds);
    DigitsBody(ds, r);
  }

  lemma PyIntSigned(ds: string, r: int)
    requires |ds| > 0 && AllDigits(ds) && DigitsValue(ds) as int == -r
    ensures PyInt(['-'] + ds) == Some(r)
  {
    var s := ['-'] + ds;
    assert s[0] == '-' && s[|s| - 1] == ds[|ds| - 1];
    assert IsDigit(ds[|ds| - 1]);
    StripClean(s);
    DigitsBody(ds, -r);
    NegatedBody(ds, r);
  }

  /** A non-empty string of digits is a body with its DigitsValue. */
  lemma DigitsBody(ds: string, v: int)
    requires |ds| > 0 && AllDigits(ds) && DigitsValue(ds) as int == v
    ensures ParseBody(ds) == Some(v)
  {
    ParseDigitsIff(ds);
  }

  /** A minus sign before a body negates its value. */
  lemma NegatedBody(ds: string, r: int)
    requires ParseBody(ds) == Some(-r)
    ensures ParseSigned(['-'] + ds) == Some(r)
  {
    var s := ['-'] + ds;
    assert s[0] == '-' && s[1..] == ds;
  }

  /** A string that neither starts nor ends with white space is its own stripped form. */
  lemma StripClean(s: string)
    requires |s| > 0 && !IsPySpace(s[0]) && !IsPySpace(s[|s| - 1])
    ensures StripRight(StripLeft(s)) == s
  {
  }

  /** A string with no digit at all is not an integer to Python. */
  lemma PyIntNeedsDigits(s: string)
    requires forall i | 0 <= i < |s| :: !IsDigit(s[i])
    ensures PyInt(s) == None
  {
    var t := StripRight(StripLeft(s));
    StripKeepsChars(s);
    var body := if |t| > 0 && (t[0] == '-' || t[0] == '+') then t[1..] else t;
    ParseDigitsIff(body);
    if |body| > 0 {
      assert body[0] in t;
      assert !IsDigit(body[0]);
    }
  }

  lemma StripKeepsChars(s: string)
    ensures forall c | c in StripRight(StripLeft(s)) :: c in s
  {
    StripLeftKeeps(s);
    StripRightKeeps(StripLeft(s));
  }

  lemma StripLeftKeeps(s: string)
    ensures forall c | c in StripLeft(s) :: c in s
  {
  }

  lemma StripRightKeeps(s: string)
    ensures forall c | c in StripRight(s) :: c in s
  {
  }

  /** Index of the first occurrence of c in s. */
  function IndexOf(s: string, c: char): (i: nat)
    requires c in s
    ensures i < |s| && s[i] == c && c !in s[..i]
  {
    if s[0] == c then 0 else 1 + IndexOf(s[1..], c)
  }

  /** Index of the first character of s that belongs to `delims`. */
  function IndexOfAny(s: string, delims: set<char>): (i: nat)
    ensures i <= |s|
    ensures i < |s| ==> s[i] in delims
    ensures forall j | 0 <= j < i :: s[j] !in delims
  {
    if s == [] then 0 else if s[0] in delims then 0 else 1 + IndexOfAny(s[1..], delims)
  }

  /**
    The pieces between delimiter characters, empty pieces included: what
    Python's `s.split(",")` returns for a one-character separator, and what
    repeated `strsep(&s, delims)` hands out one by one.
   */
  function SplitOn(s: string, delims: set<char>): (r: seq<string>)
    ensures |r| >= 1
    decreases |s|
  {
    var i := IndexOfAny(s, delims);
    if i == |s| then [s] else [s[..i]] + SplitOn(s[i + 1..], delims)
  }

  /** A string splits into at least two pieces exactly when it holds a delimiter. */
  lemma SplitOnMany(s: string, delims: set<char>)
    ensures |SplitOn(s, delims)| >= 2 <==> exists j :: 0 <= j < |s| && s[j] in delims
    ensures SplitOn(s, delims)[0] == s[..IndexOfAny(s, delims)]
  {
  }

  /** No piece holds a delimiter. */
  lemma {:induction false} SplitOnPiecesHaveNoDelims(s: string, delims: set<char>)
    ensures forall k, j | 0 <= k < |SplitOn(s, delims)| && 0 <= j < |SplitOn(s, delims)[k]| ::
      SplitOn(s, delims)[k][j] !in delims
    decreases |s|
  {
    var i := IndexOfAny(s, delims);
    if i < |s| {
      SplitOnPiecesHaveNoDelims(s[i + 1..], delims);
    }
  }

  /** The pieces joined back with `d` between them: Python's `d.join(pieces)`. */
  function Join(pieces: seq<string>, d: char): string
    decreases |pieces|
  {
    if pieces == [] then []
    else if |pieces| == 1 then pieces[0]
    else pieces[0] + [d] + Join(pieces[1..], d)
  }

  /** Splitting on one delimiter and joining the pieces back with it gives the string again. */
  lemma {:induction false} SplitJoin(s: string, d: char)
    ensures Join(SplitOn(s, {d}), d) == s
    decreases |s|
  {
    var i := IndexOfAny(s, {d});
    if i < |s| {
      var rest := SplitOn(s[i + 1..], {d});
      SplitJoin(s[i + 1..], d);
      assert ([s[..i]] + rest)[1..] == rest;
      assert s == s[..i] + [d] + s[i + 1..];
    }
  }

  /** The piece after the last delimiter. */
  function LastPiece(s: string, delims: set<char>): string
    decreases |s|
  {
    var i := IndexOfAny(s, delims);
    if i == |s| then s else LastPiece(s[i + 1..], delims)
  }

  /** LastPiece is the last of the pieces. */
  lemma {:induction false} SplitOnLastPiece(s: string, delims: set<char>)
    ensures SplitOn(s, delims)[|SplitOn(s, delims)| - 1] == LastPiece(s, delims)
    decreases |s|
  {
    var i := IndexOfAny(s, delims);
    if i < |s| {
      SplitOnLastPiece(s[i + 1..], delims);
    }
  }

  /** The last piece is a suffix of s, preceded by a delimiter unless it is all of s. */
  lemma {:induction false} SplitOnLast(s: string, delims: set<char>)
    ensures |LastPiece(s, delims)| <= |s|
    ensures s[|s| - |LastPiece(s, delims)|..] == LastPiece(s, delims)
    ensures |LastPiece(s, delims)| < |s| ==> s[|s| - |LastPiece(s, delims)| - 1] in delims
    decreases |s|
  {
    var i := IndexOfAny(s, delims);
    if i == |s| {
      assert s[0..] == s;
    } else {
      SplitOnLast(s[i + 1..], delims);
      SuffixOfTail(s, i + 1, LastPiece(s[i + 1..], delims));
    }
  }

  /** A suffix of s[k..] is a suffix of s, with the same character before it. */
  lemma SuffixOfTail(s: string, k: nat, x: string)
    requires k <= |s| && |x| <= |s| - k && s[k..][|s| - k - |x|..] == x
    ensures s[|s| - |x|..] == x
    ensures |x| < |s| - k ==> s[|s| - |x| - 1] == s[k..][|s| - k - |x| - 1]
  {
    assert s[k..][|s| - k - |x|..] == s[|s| - |x|..];
  }

  /** Python's `re.sub("@", "", s)`: every occurrence of the character removed. */
  function RemoveChar(s: string, c: char): (r: string)
    ensures c !in r
    ensures |r| <= |s|
  {
    if s == [] then [] else (if s[0] == c then [] else [s[0]]) + RemoveChar(s[1..], c)
  }

  /** Removing a character keeps every other character, in order. */
  lemma {:induction false} RemoveCharIdentity(s: string, c: char)
    requires c !in s
    ensures RemoveChar(s, c) == s
  {
    if s != [] {
      RemoveCharIdentity(s[1..], c);
    }
  }

  lemma {:induction false} RemoveCharAppend(a: string, b: string, c: char)
    ensures RemoveChar(a + b, c) == RemoveChar(a, c) + RemoveChar(b, c)
  {
    if a == [] {
      assert a + b == b;
    } else {
      assert (a + b)[0] == a[0] && (a + b)[1..] == a[1..] + b;
      var h := if a[0] == c then [] else [a[0]];
      RemoveCharAppend(a[1..], b, c);
      calc {
        RemoveChar(a + b, c);
        h + RemoveChar((a + b)[1..], c);
        h + (RemoveChar(a[1..], c) + RemoveChar(b, c));
        (h + RemoveChar(a[1..], c)) + RemoveChar(b, c);
        RemoveChar(a, c) + RemoveChar(b, c);
      }
    }
  }

  /**
    The last '/'-separated component of a path, as the strsep loop in
    libf2fs leaves it: the longest suffix without a '/'.
   */
  function LastComponent(s: string): (r: string)
    ensures '/' !in r
    ensures |r| <= |s| && s[|s| - |r|..] == r
    ensures |r| < |s| ==> s[|s| - |r| - 1] == '/'
  {
    var pieces := SplitOn(s, {'/'});
    SplitOnPiecesHaveNoDelims(s, {'/'});
    SplitOnLast(s, {'/'});
    SplitOnLastPiece(s, {'/'});
    var last := pieces[|pieces| - 1];
    assert forall j | 0 <= j < |last| :: last[j] != '/';
    last
  }

  /** A '/'-free suffix that is all of s or follows a '/' is the last component. */
  lemma LastComponentIs(s: string, c: string)
    requires '/' !in c && |c| <= |s| && s[|s| - |c|..] == c
    requires |c| < |s| ==> s[|s| - |c| - 1] == '/'
    ensures LastComponent(s) == c
  {
    var r := LastComponent(s);
  }
}

=== FILE: fiemap.dfy ===
/**
  What the two extent mappers (lib/libzns-tools.c and src/filemap.c)
  share: the FIEMAP answers they read one extent at a time, the rule that
  ends their loop, and the linear `contains_element` scan.

  Each call of ioctl(FS_IOC_FIEMAP) is modelled as the next element of an
  input sequence, its answer `fm_extents[0]`: src/filemap.c asks for one
  extent per call, and lib/libzns-tools.c asks for `st_blocks` extents but
  reads only the first of them before moving `fm_start` past it. An
  exhausted sequence is the answer with fm_mapped_extents == 0.
 */
module Extents {
  import opened Wrappers
  import opened Bits

  /** One `struct fiemap_extent`, the fields the mappers read. */
  datatype FiemapExtent = FiemapExtent(physical: u64, logical: u64, length: u64, flags: u32)

  /** FIEMAP_EXTENT_LAST and FIEMAP_EXTENT_DATA_INLINE of linux/fiemap.h. */
  const ExtentLast: u32 := 0x1
  const ExtentDataInline: u32 := 0x200

  predicate IsLast(fe: FiemapExtent) {
    And(fe.flags, ExtentLast) != 0
  }

  /**
    How many answers the do-while loop reads: up to and including the
    first one flagged FIEMAP_EXTENT_LAST. None when the answers run out
    before such an extent, which the mappers report as "no extents are
    mapped".
   */
  function RunLength(fs: seq<FiemapExtent>): (r: Option<nat>)
    ensures r.Some? ==> 0 < r.value <= |fs| && IsLast(fs[r.value - 1])
    ensures r.Some? ==> forall j | 0 <= j < r.value - 1 :: !IsLast(fs[j])
    ensures r.None? ==> forall j | 0 <= j < |fs| :: !IsLast(fs[j])
  {
    if fs == [] then None
    else if IsLast(fs[0]) then Some(1)
    else
      var rest := RunLength(fs[1..]);
      assert forall j | 1 <= j < |fs| :: fs[j] == fs[1..][j - 1];
      if rest.None? then None else Some(rest.value + 1)
  }

  /** Answers after the first LAST extent are never read. */
  lemma RunLengthIgnoresTail(fs: seq<FiemapExtent>, more: seq<FiemapExtent>)
    requires RunLength(fs).Some?
    ensures RunLength(fs + more) == RunLength(fs)
  {
    var n := RunLength(fs).value;
    var gs := fs + more;
    assert gs[..n] == fs[..n];
    RunLengthOfPrefix(gs, n);
    RunLengthOfPrefix(fs, n);
  }

  /** The run length is fixed by the first LAST extent alone. */
  lemma {:induction false} RunLengthOfPrefix(fs: seq<FiemapExtent>, n: nat)
    requires 0 < n <= |fs| && IsLast(fs[n - 1])
    requires forall j | 0 <= j < n - 1 :: !IsLast(fs[j])
    ensures RunLength(fs) == Some(n)
  {
    if n > 1 {
      assert !IsLast(fs[0]);
      assert forall j | 0 <= j < n - 2 :: fs[1..][j] == fs[j + 1];
      RunLengthOfPrefix(fs[1..], n - 1);
    }
  }

  /** The answers the FIEMAP loops read: through the first LAST one, or all of them when none is LAST. */
  function Processed(fs: seq<FiemapExtent>): (r: seq<FiemapExtent>)
    ensures r <= fs
  {
    match RunLength(fs)
    case Some(n) => fs[..n]
    case None => fs
  }

  /** An answer read before any LAST one is among the processed answers. */
  lemma PrefixOfProcessed(fs: seq<FiemapExtent>, i: nat)
    requires i < |fs| && forall j | 0 <= j < i :: !IsLast(fs[j])
    ensures i < |Processed(fs)| && Processed(fs)[i] == fs[i]
  {
  }

  /**
    The first `i` answers have been read and `last` says whether the last
    of them was flagged LAST; none before it was.
   */
  predicate Scanned(fs: seq<FiemapExtent>, i: nat, last: bool) {
    && i <= |fs|
    && (last ==> RunLength(fs) == Some(i))
    && (!last ==> forall j | 0 <= j < i :: !IsLast(fs[j]))
  }

  /** Reading one more answer when none so far was flagged LAST. */
  lemma ScanStep(fs: seq<FiemapExtent>, i: nat)
    requires Scanned(fs, i, false) && i < |fs|
    ensures Scanned(fs, i + 1, IsLast(fs[i]))
    ensures forall j | 0 <= j < i :: !IsLast(fs[j])
  {
    if IsLast(fs[i]) {
      RunLengthOfPrefix(fs, i + 1);
    }
  }

  /** Once the loop stops, it has read exactly the processed answers. */
  lemma ScanDone(fs: seq<FiemapExtent>, i: nat, last: bool)
    requires Scanned(fs, i, last) && (last || i == |fs|)
    ensures fs[..i] == Processed(fs)
    ensures last <==> RunLength(fs).Some?
  {
  }

  /**
    contains_element (lib/libzns-tools.c and src/filemap.c): 1 when
    `element` is among the first `size` entries of `list`, else 0.
   */
  method ContainsElement(list: seq<u32>, element: u32, size: nat) returns (r: int)
    requires size <= |list|
    ensures r == 0 || r == 1
    ensures r == 1 <==> element in list[..size]
  {
    var i := 0;
    while i < size
      invariant 0 <= i <= size
      invariant element !in list[..i]
    {
      if list[i] == element {
        return 1;
      }
      i := i + 1;
    }
    return 0;
  }
}

=== FILE: filemap.dfy ===
/**
  src/filemap.c: map the extents of one file to the zones of a ZNS device,
  sort them by physical block, and account zones and holes for the report.

  The FIEMAP answers are an input sequence (see module Extents). The
  BLKREPORTZONE query get_zone_info makes for each kept extent is a
  parameter `report`, from the start sector of a zone to what the device
  reports for it.
 */
module Filemap {
  import opened Wrappers
  import opened Bits
  import opened Extents
  import Zmap

  /** SECTOR_SHIFT: FIEMAP reports bytes, the map keeps 512-byte sectors. */
  const SectorShift: nat := 9

  /** `struct extent` of src/filemap.h. */
  datatype Extent = Extent(zone: u32, flags: u32, extNr: u32, logicalBlk: u64, phyBlk: u64,
                           zoneLbas: u64, len: u64, zoneSize: u64, zoneWp: u64, zoneLbae: u64)

  /** The zeroed extent calloc hands out. */
  const ZeroExtent := Extent(0, 0, 0, 0, 0, 0, 0, 0, 0, 0)

  /** The fields of the one `struct blk_zone` that BLKREPORTZONE fills in. */
  datatype ZoneReport = ZoneReport(start: u64, capacity: u64, wp: u64)

  /** What get_extents reads from `struct control`: the ZNS offset and the zone size. */
  datatype Config = Config(offset: u64, zoneSize: u64)

  // ---------------------------------------------------------------------
  // get_extents (src/filemap.c:203-251)
  // ---------------------------------------------------------------------

  /** An answer starting below the ZNS offset lies on the other device and is skipped. */
  predicate Kept(cfg: Config, fe: FiemapExtent) {
    fe.physical >= cfg.offset
  }

  /** The start sector get_zone_info asks about: `zone_size * zone - zone_size`, in 64 bits. */
  function ZoneStart(zoneSize: u64, zone: u32): u64 {
    Sub64(Mul64(zoneSize, zone), zoneSize)
  }

  /**
    The extent get_extents stores for its `k`-th kept answer: sectors
    instead of bytes, `ext_nr` the 32-bit `k`, the 1-based zone of the
    physical block, and the zone's start, write pointer and end
    (start + capacity) as the device reports them.
   */
  function ExtentOf(cfg: Config, report: u64 -> ZoneReport, k: nat, fe: FiemapExtent): Extent
    requires Kept(cfg, fe)
  {
    var phy: u64 := Shr(fe.physical - cfg.offset, SectorShift);
    var zone := Zmap.ZoneNumber(phy, cfg.zoneSize);
    var rep := report(ZoneStart(cfg.zoneSize, zone));
    Extent(zone, fe.flags, ToU32(k), Shr(fe.logical, SectorShift), phy, rep.start,
           Shr(fe.length, SectorShift), cfg.zoneSize, rep.wp, Add64(rep.start, rep.capacity))
  }

  /** The extents get_extents stores while reading the answers `fs`, in order. */
  function Mapped(cfg: Config, report: u64 -> ZoneReport, fs: seq<FiemapExtent>): (r: seq<Extent>)
    ensures |r| <= |fs|
  {
    if fs == [] then []
    else
      var prev := Mapped(cfg, report, fs[..|fs| - 1]);
      var fe := fs[|fs| - 1];
      if Kept(cfg, fe) then prev + [ExtentOf(cfg, report, |prev|, fe)] else prev
  }

  /**
    The answers that are kept, in order; the same shape as ZnsTools.Filter,
    each mapper with its own Kept test.
   */
  function Filter(cfg: Config, fs: seq<FiemapExtent>): (r: seq<FiemapExtent>)
    ensures |r| <= |fs| && forall k | 0 <= k < |r| :: Kept(cfg, r[k])
  {
    if fs == [] then []
    else
      var prev := Filter(cfg, fs[..|fs| - 1]);
      if Kept(cfg, fs[|fs| - 1]) then prev + [fs[|fs| - 1]] else prev
  }

  /** The stored extents are the kept answers numbered 0, 1, 2, ... in order. */
  lemma {:induction false} MappedNumbers(cfg: Config, report: u64 -> ZoneReport, fs: seq<FiemapExtent>)
    ensures var m := Mapped(cfg, report, fs);
      var f := Filter(cfg, fs);
      |m| == |f| && forall k | 0 <= k < |m| :: m[k] == ExtentOf(cfg, report, k, f[k])
  {
    if fs != [] {
      MappedNumbers(cfg, report, fs[..|fs| - 1]);
    }
  }

  /** The summed lengths of extents. */
  function LenSum(es: seq<Extent>): nat {
    if es == [] then 0 else LenSum(es[..|es| - 1]) + es[|es| - 1].len
  }

  /** Reading answer `i`: what it adds to the stored extents. */
  lemma MappedStep(cfg: Config, report: u64 -> ZoneReport, fs: seq<FiemapExtent>, i: nat)
    requires i < |fs|
    ensures var prev := Mapped(cfg, report, fs[..i]);
      Mapped(cfg, report, fs[..i + 1])
      == prev + if Kept(cfg, fs[i]) then [ExtentOf(cfg, report, |prev|, fs[i])] else []
  {
    assert fs[..i + 1][..i] == fs[..i];
    assert Mapped(cfg, report, fs[..i]) + [] == Mapped(cfg, report, fs[..i]);
  }

  /** Adding an extent's length to the 64-bit sum wraps like summing all lengths. */
  lemma CumStep(es: seq<Extent>, e: Extent, cum: u64)
    requires cum == ToU64(LenSum(es))
    ensures Add64(cum, e.len) == ToU64(LenSum(es + [e]))
  {
    Add64Sum(0, LenSum(es), e.len);
    assert (es + [e])[..|es|] == es;
  }

  /**
    `struct extent_map`: the stored extents, the number of zones they lie
    in (filled in by the report) and their summed length in 64 bits.
   */
  class ExtentMap {
    const extent: array<Extent>
    var zoneCtr: nat
    var cumExtentSize: u64

    constructor (es: seq<Extent>, cum: u64)
      ensures extent[..] == es && zoneCtr == 0 && cumExtentSize == cum
      ensures fresh(extent)
    {
      extent := new Extent[|es|](k requires 0 <= k < |es| => es[k]);
      zoneCtr := 0;
      cumExtentSize := cum;
    }

    /**
      sort_extents: round i scans all extents for the first lowest one
      not yet in `used_ind`, records its index there and copies it to
      `temp`; at the end `temp` is copied back over the extents.
     */
    method SortExtents()
      requires extent.Length < TWO32
      modifies extent
      ensures extent[..] == StableSorted(old(extent[..]))
    {
      var temp := SelectAll();
      forall k | 0 <= k < extent.Length {
        extent[k] := temp[k];
      }
      assert extent[..] == temp[..];
    }

    /**
      The accounting of print_extent_report: count zone changes into
      `zone_ctr` and, with show_holes, the holes between and after extents.
      None when the walk reads past the last extent.
     */
    method PrintExtentReport(showHoles: bool) returns (r: Option<Tally>)
      modifies this
      ensures r == Report(extent[..], showHoles, old(zoneCtr))
      ensures r.Some? ==> zoneCtr == r.value.zoneCtr
    {
      ghost var es := extent[..];
      ghost var z0 := zoneCtr;
      var n := extent.Length;
      var currentZone: u32 := 0;
      var holeCtr: nat := 0;
      var holeCumSize: u64 := 0;
      for i := 0 to n
        invariant ReportUpTo(es, showHoles, z0, i) == Some(Tally(currentZone, zoneCtr, holeCtr, holeCumSize))
      {
        if currentZone != extent[i].zone {
          currentZone := extent[i].zone;
          zoneCtr := zoneCtr + 1;
        }
        if showHoles && i > 0 && Add64(extent[i - 1].phyBlk, extent[i - 1].len) != extent[i].phyBlk {
          if extent[i - 1].zone == extent[i].zone {
            var holeSize := Sub64(extent[i].phyBlk, Add64(extent[i - 1].phyBlk, extent[i - 1].len));
            holeCumSize := Add64(holeCumSize, holeSize);
            holeCtr := holeCtr + 1;
          }
        }
        if showHoles && i > 0 && i < n - 1 && extent[i].zoneLbas != extent[i].phyBlk
           && extent[i - 1].zone != extent[i].zone {
          var holeSize := Sub64(extent[i].phyBlk, extent[i].zoneLbas);
          holeCumSize := Add64(holeCumSize, holeSize);
          holeCtr := holeCtr + 1;
        }
        var pbae := Add64(extent[i].phyBlk, extent[i].len);
        if showHoles && i > 0 && pbae != extent[i].zoneLbae && extent[i].zoneWp > pbae {
          if i + 1 == n {
            // extent[i + 1] is past the extents
            return None;
          }
          if extent[i].zone != extent[i + 1].zone {
            var holeEnd := if extent[i].zoneWp < extent[i].zoneLbae then extent[i].zoneWp else extent[i].zoneLbae;
            var holeSize := Sub64(holeEnd, pbae);
            holeCumSize := Add64(holeCumSize, holeSize);
            holeCtr := holeCtr + 1;
          }
        }
      }
      r := Some(Tally(currentZone, zoneCtr, holeCtr, holeCumSize));
    }

    /** The rounds of sort_extents, filling a fresh `temp` without touching the extents. */
    method SelectAll() returns (temp: array<Extent>)
      requires extent.Length < TWO32
      ensures fresh(temp) && temp[..] == StableSorted(extent[..])
    {
      var n := extent.Length;
      ghost var xs := extent[..];
      var cur: u32 := 0;
      var used := new u32[n](_ => 0);
      temp := new Extent[n](_ => ZeroExtent);
      ghost var order: seq<int>, picked: seq<Extent> := [], [];
      for i := 0 to n
        modifies used, temp
        invariant Sorting(used, temp, i, cur, xs, order, picked)
      {
        cur := Round(used, temp, i, cur, order, picked);
        order, picked := order + [cur], picked + [xs[cur]];
      }
      RoundsDone(xs, order, picked, cur);
      assert temp[..] == temp[..n];
    }

    /** The invariant of the rounds loop, on the arrays themselves. */
    ghost predicate Sorting(used: array<u32>, temp: array<Extent>, i: nat, cur: u32,
                            xs: seq<Extent>, order: seq<int>, picked: seq<Extent>)
      reads this, extent, used, temp
    {
      && i <= used.Length && i <= temp.Length
      && extent[..] == xs && used[..i] == order && temp[..i] == picked
      && Rounds(xs, order, picked, cur)
    }

    /** Round `i` of sort_extents, after `order` was chosen and `picked` copied. */
    method Round(used: array<u32>, temp: array<Extent>, i: nat, cur: u32,
                 ghost order: seq<int>, ghost picked: seq<Extent>) returns (next: u32)
      requires temp != extent && used.Length == temp.Length == extent.Length < TWO32 && i < extent.Length
      requires used[..i] == order && temp[..i] == picked && Rounds(extent[..], order, picked, cur)
      modifies used, temp
      ensures next < extent.Length
      ensures used[..i + 1] == order + [next] && temp[..i + 1] == picked + [extent[next]]
      ensures Rounds(extent[..], order + [next], picked + [extent[next]], next)
    {
      ghost var xs := extent[..];
      RoundStarts(xs, order, picked, cur);
      next := ChooseLowest(used, i, cur);
      RoundEnds(xs, order, picked, next);
      Record(used, temp, i, next);
      assert extent[..] == xs;
    }

    /** The end of round `i` of sort_extents: record the choice in `used_ind` and `temp`. */
    method Record(used: array<u32>, temp: array<Extent>, i: nat, next: u32)
      requires temp != extent && used.Length == temp.Length == extent.Length && i < extent.Length
      requires next < extent.Length
      modifies used, temp
      ensures used[..i + 1] == old(used[..i]) + [next]
      ensures temp[..i + 1] == old(temp[..i]) + [extent[next]]
    {
      used[i] := next;
      temp[i] := extent[next];
      assert used[..i + 1] == used[..i] + [used[i]];
      assert temp[..i + 1] == temp[..i] + [temp[i]];
    }

    /** The inner loop of sort_extents for round `i`, starting from cur_lowest `cur`. */
    method ChooseLowest(used: array<u32>, i: nat, cur: u32) returns (next: u32)
      requires used.Length == extent.Length < TWO32 && i < extent.Length
      requires FirstMin(extent[..], used[..i], extent.Length).Some?
      requires Choosing(extent[..], used[..i], 0, cur)
      ensures FirstMin(extent[..], used[..i], extent.Length) == Some(next as nat)
    {
      ghost var xs := extent[..];
      ghost var u: seq<int> := used[..i];
      var n := extent.Length;
      var j := 0;
      next := cur;
      while j < n
        invariant j <= n && Choosing(xs, u, j, next)
      {
        var after := Compare(used, i, j, next);
        SelectStepChooses(xs, u, j, next, after);
        next := after;
        j := j + 1;
      }
    }

    /**
      The body of the inner loop: take `j` when it is strictly lower and
      unused, or when the current choice is already used.
     */
    method Compare(used: array<u32>, i: nat, j: nat, cur: u32) returns (next: u32)
      requires used.Length == extent.Length < TWO32 && i < extent.Length
      requires j < extent.Length && cur < extent.Length
      ensures next == SelectStep(extent[..], used[..i], j, cur)
    {
      var lower := false;
      if extent[j].phyBlk < extent[cur].phyBlk {
        var found := ContainsElement(used[..], j, i);
        lower := found == 0;
      }
      next := cur;
      if lower {
        next := j;
      } else {
        var found := ContainsElement(used[..], cur, i);
        if found == 1 {
          next := j;
        }
      }
      assert used[..][..i] == used[..i];
    }
  }

  /**
    After `i` rounds of sort_extents: `used_ind` holds the first `i`
    chosen indices, `temp` the extents at them, and cur_lowest the last
    choice (0 before the first round).
   */
  ghost predicate Rounds(xs: seq<Extent>, used: seq<int>, temp: seq<Extent>, cur: nat) {
    && |used| <= |xs|
    && used == Order(xs, |used|)
    && temp == Pick(xs, used)
    && (|used| == 0 ==> cur == 0)
    && (|used| > 0 ==> cur == used[|used| - 1])
  }

  /** After the last round `temp` holds the sorted extents. */
  lemma RoundsDone(xs: seq<Extent>, used: seq<int>, temp: seq<Extent>, cur: nat)
    requires Rounds(xs, used, temp, cur) && |used| == |xs|
    ensures temp == StableSorted(xs)
  {
  }

  /** A round starts with cur_lowest in the state the inner loop expects. */
  lemma RoundStarts(xs: seq<Extent>, used: seq<int>, temp: seq<Extent>, cur: nat)
    requires Rounds(xs, used, temp, cur) && |used| < |xs|
    ensures FirstMin(xs, used, |xs|).Some? && Choosing(xs, used, 0, cur)
  {
    OrderDistinct(xs, |used|);
    Pigeonhole(used, |xs|);
  }

  /** The round's choice extends the recorded order and `temp` by one. */
  lemma RoundEnds(xs: seq<Extent>, used: seq<int>, temp: seq<Extent>, cur: nat)
    requires |used| < |xs| && used == Order(xs, |used|) && temp == Pick(xs, used)
    requires FirstMin(xs, used, |xs|) == Some(cur)
    ensures Rounds(xs, used + [cur], temp + [xs[cur]], cur)
  {
    var u := used + [cur];
    assert u[..|u| - 1] == used;
  }

  /**
    The extent loop of get_extents: read one answer at a time, store the
    kept ones, and stop after the one flagged LAST. Null when the answers
    run out first ("no extents are mapped").
   */
  method GetExtents(cfg: Config, report: u64 -> ZoneReport, fs: seq<FiemapExtent>) returns (m: ExtentMap?)
    ensures m == null <==> RunLength(fs).None?
    ensures m != null ==> fresh(m) && fresh(m.extent) && m.zoneCtr == 0
    ensures m != null ==> m.extent[..] == Mapped(cfg, report, Processed(fs))
    ensures m != null ==> m.cumExtentSize == ToU64(LenSum(m.extent[..]))
  {
    var es: seq<Extent> := [];
    var cum: u64 := 0;
    var i := 0;
    var last := false;
    while !last
      invariant Scanned(fs, i, last)
      invariant es == Mapped(cfg, report, fs[..i]) && cum == ToU64(LenSum(es))
      decreases |fs| - i, !last
    {
      if i == |fs| {
        ScanDone(fs, i, false);
        return null;
      }
      ScanStep(fs, i);
      MappedStep(cfg, report, fs, i);
      var fe := fs[i];
      if fe.physical >= cfg.offset {
        var e := ExtentOf(cfg, report, |es|, fe);
        CumStep(es, e, cum);
        cum := Add64(cum, e.len);
        es := es + [e];
      }
      last := IsLast(fe);
      i := i + 1;
    }
    ScanDone(fs, i, last);
    m := new ExtentMap(es, cum);
  }

  /**
    A run whose every answer lies below the ZNS offset still ends with a
    map, holding no extent: the report's average extent size then divides
    by zero.
   */
  lemma EmptyMapWhenAllSkipped(cfg: Config, report: u64 -> ZoneReport, fe: FiemapExtent)
    requires fe.physical < cfg.offset && IsLast(fe)
    ensures RunLength([fe]).Some? && Mapped(cfg, report, Processed([fe])) == []
  {
    assert [fe][..0] == [];
  }

  // ---------------------------------------------------------------------
  // sort_extents (src/filemap.c:290-316)
  // ---------------------------------------------------------------------

  /**
    The index sort_extents settles on after scanning indices 0 .. j-1
    and skipping the ones in `used`: the first of the unused indices with
    the lowest physical block, or None when every one of them is used.
   */
  function FirstMin(xs: seq<Extent>, used: seq<int>, j: nat): (r: Option<nat>)
    requires j <= |xs|
    ensures r.None? <==> forall k | 0 <= k < j :: k in used
    ensures r.Some? ==> r.value < j && r.value !in used
    ensures r.Some? ==> forall k | 0 <= k < j && k !in used :: xs[r.value].phyBlk <= xs[k].phyBlk
    ensures r.Some? ==> forall k | 0 <= k < r.value && k !in used :: xs[r.value].phyBlk < xs[k].phyBlk
  {
    if j == 0 then None
    else
      var prev := FirstMin(xs, used, j - 1);
      if j - 1 in used then prev
      else if prev.None? then Some(j - 1)
      else if xs[j - 1].phyBlk < xs[prev.value].phyBlk then Some(j - 1)
      else prev
  }

  /** Distinct indices below `n`. */
  predicate Indices(s: seq<int>, n: nat) {
    forall a | 0 <= a < |s| :: 0 <= s[a] < n && s[a] !in s[..a]
  }

  /** The indices 0 .. n-1 as a set. */
  function Below(n: nat): (r: set<int>)
    ensures |r| == n && forall k :: k in r <==> 0 <= k < n
  {
    if n == 0 then {} else Below(n - 1) + {n - 1}
  }

  /** Distinct elements make a set as large as the sequence. */
  lemma {:induction false} DistinctCard(s: seq<int>, n: nat)
    requires Indices(s, n)
    ensures |set x | x in s| == |s|
  {
    if s != [] {
      var t := s[..|s| - 1];
      assert Indices(t, n);
      DistinctCard(t, n);
      assert (set x | x in s) == (set x | x in t) + {s[|s| - 1]};
      assert s[|s| - 1] !in t;
    }
  }

  /** Fewer than `n` distinct indices below `n` leave one unused. */
  lemma Pigeonhole(s: seq<int>, n: nat)
    requires Indices(s, n) && |s| < n
    ensures exists k | 0 <= k < n :: k !in s
  {
    DistinctCard(s, n);
    var used := set x | x in s;
    assert |Below(n) - used| > 0;
    var k :| k in Below(n) - used;
  }

  /** `n` distinct indices below `n` use every one of them. */
  lemma AllUsed(s: seq<int>, n: nat)
    requires Indices(s, n) && |s| == n
    ensures forall k | 0 <= k < n :: k in s
  {
    DistinctCard(s, n);
    var used := set x | x in s;
    assert Below(n) * used == used;
    assert |Below(n) - used| == 0;
    assert Below(n) - used == {};
    forall k | 0 <= k < n
      ensures k in s
    {
      assert k in Below(n) && k !in Below(n) - used;
      assert k in used;
    }
  }

  /**
    The indices sort_extents records in `used_ind` during its first `k`
    rounds. While fewer than all indices are used a choice always exists
    (OrderChoice), so the fallback 0 is never taken.
   */
  function Order(xs: seq<Extent>, k: nat): (r: seq<int>)
    requires k <= |xs|
    ensures |r| == k && forall a | 0 <= a < k :: 0 <= r[a] < |xs|
  {
    if k == 0 then []
    else
      var prev := Order(xs, k - 1);
      var m := FirstMin(xs, prev, |xs|);
      prev + [if m.Some? then m.value else 0]
  }

  /** No index is chosen twice. */
  lemma {:induction false} OrderDistinct(xs: seq<Extent>, k: nat)
    requires k <= |xs|
    ensures Indices(Order(xs, k), |xs|)
  {
    if k > 0 {
      var prev := Order(xs, k - 1);
      OrderDistinct(xs, k - 1);
      Pigeonhole(prev, |xs|);
      assert Order(xs, k)[..k - 1] == prev;
    }
  }

  /** The extents at the indices `o`, in that order. */
  function Pick(xs: seq<Extent>, o: seq<int>): (r: seq<Extent>)
    requires forall a | 0 <= a < |o| :: 0 <= o[a] < |xs|
    ensures |r| == |o| && forall a | 0 <= a < |o| :: r[a] == xs[o[a]]
  {
    if o == [] then [] else Pick(xs, o[..|o| - 1]) + [xs[o[|o| - 1]]]
  }

  /** What sort_extents leaves in the array. */
  function StableSorted(xs: seq<Extent>): seq<Extent> {
    Pick(xs, Order(xs, |xs|))
  }

  /** Later rounds keep the indices earlier rounds chose. */
  lemma {:induction false} OrderPrefix(xs: seq<Extent>, a: nat, k: nat)
    requires a <= k <= |xs|
    ensures Order(xs, k)[..a] == Order(xs, a)
  {
    if a < k {
      OrderPrefix(xs, a, k - 1);
      var p := Order(xs, k - 1);
      OrderUnfold(xs, k);
      assert (p + [Order(xs, k)[k - 1]])[..a] == p[..a];
    }
  }

  lemma OrderUnfold(xs: seq<Extent>, k: nat)
    requires 0 < k <= |xs|
    ensures Order(xs, k) == Order(xs, k - 1) + [Order(xs, k)[k - 1]]
  {
  }

  /** Round `a` chose the first lowest index the earlier rounds left free. */
  lemma OrderChoice(xs: seq<Extent>, a: nat)
    requires a < |xs|
    ensures FirstMin(xs, Order(xs, a), |xs|).Some?
    ensures Order(xs, |xs|)[a] == FirstMin(xs, Order(xs, a), |xs|).value
  {
    OrderDistinct(xs, a);
    Pigeonhole(Order(xs, a), |xs|);
    OrderPrefix(xs, a + 1, |xs|);
    assert Order(xs, |xs|)[a] == Order(xs, |xs|)[..a + 1][a];
  }

  /** Index `b`'s choice was still free when round `a` chose. */
  lemma LaterUnused(xs: seq<Extent>, a: nat, b: nat)
    requires a < b < |xs|
    ensures var o := Order(xs, |xs|);
      o[b] !in Order(xs, a) && o[a] == FirstMin(xs, Order(xs, a), |xs|).value && o[a] != o[b]
  {
    OrderChoice(xs, a);
    OrderChoice(xs, b);
    OrderPrefix(xs, a, b);
    OrderPrefix(xs, b, |xs|);
    assert forall x | x in Order(xs, a) :: x in Order(xs, b);
    assert Order(xs, |xs|)[a] == Order(xs, b)[a];
  }

  /** After sort_extents the physical blocks never decrease. */
  lemma SortedByPhy(xs: seq<Extent>)
    ensures var r := StableSorted(xs);
      |r| == |xs| && forall a, b | 0 <= a < b < |r| :: r[a].phyBlk <= r[b].phyBlk
  {
    var o := Order(xs, |xs|);
    forall a, b | 0 <= a < b < |xs|
      ensures xs[o[a]].phyBlk <= xs[o[b]].phyBlk
    {
      LaterUnused(xs, a, b);
    }
  }

  /** Extents with the same physical block keep their input order. */
  lemma SortIsStable(xs: seq<Extent>)
    ensures var o := Order(xs, |xs|);
      forall a, b | 0 <= a < b < |xs| && xs[o[a]].phyBlk == xs[o[b]].phyBlk :: o[a] < o[b]
  {
    var o := Order(xs, |xs|);
    forall a, b | 0 <= a < b < |xs| && xs[o[a]].phyBlk == xs[o[b]].phyBlk
      ensures o[a] < o[b]
    {
      LaterUnused(xs, a, b);
    }
  }

  /**
    Every input extent is placed exactly once: the chosen indices are
    distinct and cover 0 .. n-1, and each output extent is the input
    extent at its index, `ext_nr` included.
   */
  lemma SortIsPermutation(xs: seq<Extent>)
    ensures var o := Order(xs, |xs|);
      var r := StableSorted(xs);
      && |o| == |xs| && Indices(o, |xs|)
      && (forall k | 0 <= k < |xs| :: k in o)
      && (forall a | 0 <= a < |r| :: r[a] == xs[o[a]])
  {
    OrderDistinct(xs, |xs|);
    AllUsed(Order(xs, |xs|), |xs|);
  }

  /** One step of the inner loop of sort_extents at index `j`, with `cur` as cur_lowest. */
  function SelectStep(xs: seq<Extent>, used: seq<int>, j: nat, cur: nat): nat
    requires j < |xs| && cur < |xs|
  {
    if xs[j].phyBlk < xs[cur].phyBlk && j !in used then j
    else if cur in used then j
    else cur
  }

  /**
    What the inner loop knows after index j-1: cur_lowest is the first
    lowest unused index so far, or, while there is none, an index already
    used (or still the initial 0).
   */
  predicate Choosing(xs: seq<Extent>, used: seq<int>, j: nat, cur: nat)
    requires j <= |xs|
  {
    && cur < |xs|
    && match FirstMin(xs, used, j)
       case Some(m) => cur == m
       case None => cur in used || (j == 0 && cur == 0)
  }

  /** One inner step keeps cur_lowest on the first lowest unused index. */
  lemma SelectStepChooses(xs: seq<Extent>, used: seq<int>, j: nat, cur: nat, next: nat)
    requires j < |xs| && Choosing(xs, used, j, cur) && next == SelectStep(xs, used, j, cur)
    ensures Choosing(xs, used, j + 1, next)
  {
  }

  // ---------------------------------------------------------------------
  // print_extent_report (src/filemap.c:368-500): zone and hole accounting
  // ---------------------------------------------------------------------

  /** The counters print_extent_report keeps while walking the extents. */
  datatype Tally = Tally(currentZone: u32, zoneCtr: nat, holeCtr: nat, holeCumSize: u64)

  /** The zone current_zone holds when index `i` is reached: the previous extent's, 0 at first. */
  function PrevZone(es: seq<Extent>, i: nat): u32
    requires i <= |es|
  {
    if i == 0 then 0 else es[i - 1].zone
  }

  /** The end of an extent, PBAE, in 64 bits. */
  function Pbae(e: Extent): u64 {
    Add64(e.phyBlk, e.len)
  }

  /** A hole between extent i-1 and extent i of the same zone. */
  predicate GapInZone(es: seq<Extent>, i: nat)
    requires i < |es|
  {
    i > 0 && Pbae(es[i - 1]) != es[i].phyBlk && es[i - 1].zone == es[i].zone
  }

  /** A hole between the start of a newly entered zone and extent i (never the last one). */
  predicate GapAtZoneStart(es: seq<Extent>, i: nat)
    requires i < |es|
  {
    0 < i < |es| - 1 && es[i].zoneLbas != es[i].phyBlk && es[i - 1].zone != es[i].zone
  }

  /**
    The conditions of the trailing-hole check before it compares extent
    i with extent i+1: the extent ends before the zone end and below the
    write pointer.
   */
  predicate TrailingCandidate(es: seq<Extent>, i: nat)
    requires i < |es|
  {
    i > 0 && Pbae(es[i]) != es[i].zoneLbae && es[i].zoneWp > Pbae(es[i])
  }

  /** hole_end: the lower of the write pointer and the zone end. */
  function HoleEnd(e: Extent): (r: u64)
    ensures r <= e.zoneWp && r <= e.zoneLbae && (r == e.zoneWp || r == e.zoneLbae)
  {
    if e.zoneWp < e.zoneLbae then e.zoneWp else e.zoneLbae
  }

  function AddHole(t: Tally, size: u64): Tally {
    t.(holeCtr := t.holeCtr + 1, holeCumSize := Add64(t.holeCumSize, size))
  }

  /**
    One pass of the report loop at index i. None when the trailing-hole
    check reads `extent[i + 1]` with i the last index: that slot holds no
    extent, so from there on the behaviour is not defined.
   */
  function ReportStep(es: seq<Extent>, showHoles: bool, i: nat, t: Tally): Option<Tally>
    requires i < |es|
  {
    var e := es[i];
    var t1 := if t.currentZone != e.zone then t.(currentZone := e.zone, zoneCtr := t.zoneCtr + 1) else t;
    var t2 := if showHoles && GapInZone(es, i) then AddHole(t1, Sub64(e.phyBlk, Pbae(es[i - 1]))) else t1;
    var t3 := if showHoles && GapAtZoneStart(es, i) then AddHole(t2, Sub64(e.phyBlk, e.zoneLbas)) else t2;
    if showHoles && TrailingCandidate(es, i) then
      if i + 1 == |es| then None
      else if e.zone != es[i + 1].zone then Some(AddHole(t3, Sub64(HoleEnd(e), Pbae(e))))
      else Some(t3)
    else Some(t3)
  }

  /** The counters after the first `k` passes, starting from zone counter `z0`. */
  function ReportUpTo(es: seq<Extent>, showHoles: bool, z0: nat, k: nat): Option<Tally>
    requires k <= |es|
  {
    if k == 0 then Some(Tally(0, z0, 0, 0))
    else
      match ReportUpTo(es, showHoles, z0, k - 1)
      case None => None
      case Some(t) => ReportStep(es, showHoles, k - 1, t)
  }

  function Report(es: seq<Extent>, showHoles: bool, z0: nat): Option<Tally> {
    ReportUpTo(es, showHoles, z0, |es|)
  }

  /** How many of the first `k` extents lie in another zone than the extent before them. */
  function ZoneChanges(es: seq<Extent>, k: nat): nat
    requires k <= |es|
  {
    if k == 0 then 0
    else ZoneChanges(es, k - 1) + if es[k - 1].zone != PrevZone(es, k - 1) then 1 else 0
  }

  /** The report reads past the extents exactly when holes are shown and the last extent is a trailing candidate. */
  predicate ReadsPastEnd(es: seq<Extent>, showHoles: bool) {
    showHoles && |es| >= 2 && TrailingCandidate(es, |es| - 1)
  }

  /**
    What the first `k` passes compute: current_zone is the zone of the
    last extent seen, zone_ctr counts the zone changes, at most two holes
    are found per extent after the first, and the walk is defined unless
    it is the read past the last extent.
   */
  lemma {:induction false} ReportFacts(es: seq<Extent>, showHoles: bool, z0: nat, k: nat)
    requires k <= |es|
    ensures ReportUpTo(es, showHoles, z0, k).None? <==> k == |es| && ReadsPastEnd(es, showHoles)
    ensures ReportUpTo(es, showHoles, z0, k).Some? ==>
      var t := ReportUpTo(es, showHoles, z0, k).value;
      && t.currentZone == PrevZone(es, k)
      && t.zoneCtr == z0 + ZoneChanges(es, k)
      && t.holeCtr <= (if k == 0 then 0 else 2 * (k - 1))
  {
    if k > 0 {
      ReportFacts(es, showHoles, z0, k - 1);
    }
  }

  /** Without show_holes no hole is counted and the walk is always defined. */
  lemma {:induction false} NoHolesWithoutShowHoles(es: seq<Extent>, z0: nat, k: nat)
    requires k <= |es|
    ensures ReportUpTo(es, false, z0, k) == Some(Tally(PrevZone(es, k), z0 + ZoneChanges(es, k), 0, 0))
  {
    if k > 0 {
      NoHolesWithoutShowHoles(es, z0, k - 1);
    }
  }

  /**
    Two extents in one zone where the last one ends below both the write
    pointer and the zone end: with show_holes the report reads the slot
    after the last extent.
   */
  lemma ReadsPastEndExample()
    ensures var a := Extent(1, 0, 0, 0, 0, 0, 8, 256, 64, 256);
      var b := Extent(1, 0, 1, 8, 16, 0, 8, 256, 64, 256);
      Report([a, b], true, 0).None? && Report([a, b], false, 0).Some?
  {
    var a := Extent(1, 0, 0, 0, 0, 0, 8, 256, 64, 256);
    var b := Extent(1, 0, 1, 8, 16, 0, 8, 256, 64, 256);
    ReportFacts([a, b], true, 0, 2);
    NoHolesWithoutShowHoles([a, b], 0, 2);
  }

  /**
    AES, the floored average extent size `cum_extent_size / ext_ctr`:
    undefined (a division by zero) for a map without extents.
   */
  function AverageSize(cum: u64, count: nat): (r: Option<u64>)
    ensures r.Some? <==> count > 0
    ensures r.Some? ==> r.value * count <= cum < (r.value + 1) * count
  {
    if count == 0 then None
    else
      DivBounds(cum, count);
      DivModIdentity(cum, count);
      Some(cum / count)
  }

  /** The zones the first `k` extents lie in. */
  function ZonesOf(es: seq<Extent>, k: nat): set<u32>
    requires k <= |es|
  {
    set i | 0 <= i < k :: es[i].zone
  }

  /**
    When the zones never decrease and none is 0, each zone change enters
    a new zone: zone_ctr counts the distinct zones.
   */
  lemma {:induction false} ZoneChangesCountZones(es: seq<Extent>, k: nat)
    requires k <= |es|
    requires forall a, b | 0 <= a < b < |es| :: es[a].zone <= es[b].zone
    requires forall a | 0 <= a < |es| :: es[a].zone != 0
    ensures ZoneChanges(es, k) == |ZonesOf(es, k)|
  {
    if k > 0 {
      ZoneChangesCountZones(es, k - 1);
      ZonesOfStep(es, k);
      var z := es[k - 1].zone;
      var seen := ZonesOf(es, k - 1);
      if k == 1 {
        assert seen == {};
      } else if z != es[k - 2].zone {
        NewZone(es, k);
        assert |seen + {z}| == |seen| + 1;
      } else {
        assert z in seen;
        assert seen + {z} == seen;
      }
    }
  }

  lemma ZonesOfStep(es: seq<Extent>, k: nat)
    requires 0 < k <= |es|
    ensures ZonesOf(es, k) == ZonesOf(es, k - 1) + {es[k - 1].zone}
  {
  }

  /** A zone other than the previous extent's is one not seen before. */
  lemma NewZone(es: seq<Extent>, k: nat)
    requires 0 < k <= |es|
    requires forall a, b | 0 <= a < b < |es| :: es[a].zone <= es[b].zone
    requires forall a | 0 <= a < |es| :: es[a].zone != 0
    requires es[k - 1].zone != PrevZone(es, k - 1)
    ensures es[k - 1].zone !in ZonesOf(es, k - 1)
  {
    forall i | 0 <= i < k - 1
      ensures es[i].zone != es[k - 1].zone
    {
      assert es[i].zone <= es[k - 2].zone <= es[k - 1].zone;
    }
  }

  /** Each extent's zone is get_zone_number of its physical block. */
  predicate ZonedBy(es: seq<Extent>, zoneSize: u64) {
    forall a | 0 <= a < |es| :: es[a].zone == Zmap.ZoneNumber(es[a].phyBlk, zoneSize)
  }

  /** Every physical block's zone index fits the uint32_t zone number. */
  predicate ZonesFit(es: seq<Extent>, zoneSize: u64) {
    zoneSize > 0 && forall a | 0 <= a < |es| :: es[a].phyBlk / zoneSize + 1 < TWO32
  }

  /** get_extents stores each extent with the zone of its physical block. */
  lemma MappedZoned(cfg: Config, report: u64 -> ZoneReport, fs: seq<FiemapExtent>)
    ensures ZonedBy(Mapped(cfg, report, fs), cfg.zoneSize)
  {
    MappedNumbers(cfg, report, fs);
  }

  /** Where `k` occurs in `o`. */
  lemma Position(o: seq<int>, k: int) returns (a: nat)
    requires k in o
    ensures a < |o| && o[a] == k
  {
    a :| 0 <= a < |o| && o[a] == k;
  }

  /** The sort moves extents, so it keeps the zones they lie in. */
  lemma SortKeepsZones(xs: seq<Extent>)
    ensures ZonesOf(StableSorted(xs), |xs|) == ZonesOf(xs, |xs|)
  {
    var es := StableSorted(xs);
    var o := Order(xs, |xs|);
    OrderDistinct(xs, |xs|);
    AllUsed(o, |xs|);
    ZonesIncluded(es, xs, o);
    ZonesIncluded(xs, es, Inverse(o, |xs|));
  }

  /** Places of 0 .. n-1 in `o`, which holds each of them. */
  ghost function Inverse(o: seq<int>, n: nat): (r: seq<int>)
    requires forall k | 0 <= k < n :: k in o
    ensures |r| == n && forall k | 0 <= k < n :: 0 <= r[k] < |o| && o[r[k]] == k
  {
    if n == 0 then []
    else
      var prev := Inverse(o, n - 1);
      assert n - 1 in o;
      var a :| 0 <= a < |o| && o[a] == n - 1;
      prev + [a]
  }

  /** When each element of `es` is some element of `xs`, so is each zone. */
  lemma ZonesIncluded(es: seq<Extent>, xs: seq<Extent>, o: seq<int>)
    requires |o| == |es| && forall a | 0 <= a < |es| :: 0 <= o[a] < |xs| && es[a] == xs[o[a]]
    ensures ZonesOf(es, |es|) <= ZonesOf(xs, |xs|)
  {
    forall z | z in ZonesOf(es, |es|)
      ensures z in ZonesOf(xs, |xs|)
    {
      var a :| 0 <= a < |es| && es[a].zone == z;
      assert xs[o[a]].zone == z;
    }
  }

  /** Every sorted extent is an input extent. */
  lemma SortKeepsEach(xs: seq<Extent>, zoneSize: u64)
    ensures ZonedBy(xs, zoneSize) ==> ZonedBy(StableSorted(xs), zoneSize)
    ensures ZonesFit(xs, zoneSize) ==> ZonesFit(StableSorted(xs), zoneSize)
  {
    var o := Order(xs, |xs|);
    assert forall a | 0 <= a < |xs| :: StableSorted(xs)[a] == xs[o[a]];
  }

  /**
    With a power-of-two zone size, the sorted extents' zone numbers never
    decrease, so the report's zone_ctr grows by the number of distinct
    zones the file's extents lie in.
   */
  lemma SortedReportCountsZones(xs: seq<Extent>, z: u64, p: nat, showHoles: bool, z0: nat)
    requires p < 64 && z == Pow2(p) && ZonedBy(xs, z) && ZonesFit(xs, z)
    ensures var r := Report(StableSorted(xs), showHoles, z0);
      r.Some? ==> r.value.zoneCtr == z0 + |ZonesOf(xs, |xs|)|
  {
    var es := StableSorted(xs);
    SortKeepsZones(xs);
    SortKeepsEach(xs, z);
    SortedByPhy(xs);
    forall a, b | 0 <= a < b < |es|
      ensures es[a].zone <= es[b].zone
    {
      Zmap.ZoneNumberMonotone(es[a].phyBlk, es[b].phyBlk, z, p);
    }
    forall a | 0 <= a < |es|
      ensures es[a].zone != 0
    {
      Zmap.ZoneNumberAtLeastOne(es[a].phyBlk, z);
    }
    ReportFacts(es, showHoles, z0, |es|);
    ZoneChangesCountZones(es, |es|);
  }
}

=== FILE: fpbench.dfy ===
/**
  src/fpbench.c: a benchmark that writes a file with a write-lifetime
  hint, maps its extents and reports how many segments they occupy and
  how those segments split by heat class.

  Writing the file (/dev/urandom, fcntl, lseek, write, fsync) and the
  device setup are not part of this model; the extents arrive as an
  input, and the procfs `segment_info` table as a map from path to lines,
  as in the F2fs module.
 */
module Fpbench {
  import opened Wrappers
  import opened Bits
  import opened Text
  import opened ZnsTools
  import F2fs
  import Segmap

  // ---------------------------------------------------------------------
  // get_integer_value
  // ---------------------------------------------------------------------

  /** The size suffixes get_integer_value knows: upper-case B, K, M and G only. */
  function Multiplier(suffix: char): (r: Option<u32>)
    ensures r.Some? <==> suffix in "BKMG"
    ensures r.Some? ==> r.value == Pow1024(IndexOf(suffix))
  {
    assert Pow1024(3) == 1024 * Pow1024(2);
    if suffix == 'B' then Some(1)
    else if suffix == 'K' then Some(1024)
    else if suffix == 'M' then Some(0x10_0000)
    else if suffix == 'G' then Some(0x4000_0000)
    else None
  }

  /** 1024 to the power `k`. */
  function Pow1024(k: nat): nat {
    if k == 0 then 1 else 1024 * Pow1024(k - 1)
  }

  /** The position of a size suffix in "BKMG". */
  function IndexOf(suffix: char): nat {
    if suffix == 'K' then 1 else if suffix == 'M' then 2 else if suffix == 'G' then 3 else 0
  }

  /**
    get_integer_value: the number is atoi of the argument; a suffix
    multiplies it in unsigned 32-bit arithmetic and the product is read
    back as an int. The argument must not be empty, because the suffix is
    read at index strlen - 1.
   */
  function GetIntegerValue(arg: string): (r: int)
    requires |arg| > 0
    ensures Multiplier(arg[|arg| - 1]).None? ==> r == Atoi(arg)
    ensures Multiplier(arg[|arg| - 1]).Some? ==>
      -0x8000_0000 <= r < 0x8000_0000 && r % TWO32 == (Atoi(arg) * Multiplier(arg[|arg| - 1]).value) % TWO32
  {
    match Multiplier(arg[|arg| - 1])
    case None => Atoi(arg)
    case Some(m) =>
      MulMod(Atoi(arg), m);
      AsInt32(ToU32(ToU32(Atoi(arg)) * m))
  }

  /** Reducing a factor modulo 2^32 first does not change the product modulo 2^32. */
  lemma MulMod(a: int, m: nat)
    ensures ToU32(ToU32(a) * m) == (a * m) % TWO32
  {
    var q, r := a / TWO32, ToU32(a);
    var b := r * m;
    assert a == q * TWO32 + r;
    assert a * m == (q * m) * TWO32 + b by {
      assert a * m == (q * TWO32 + r) * m;
    }
    assert b == (b / TWO32) * TWO32 + b % TWO32;
    DivModUnique(a * m, TWO32, q * m + b / TWO32, b % TWO32);
  }

  /** A number followed by one of the suffixes B, K, M, G is that many bytes, units, KiB, MiB or GiB, while the product fits an int. */
  lemma SizeRoundTrip(n: nat, suffix: char)
    requires suffix in "BKMG"
    requires n * Pow1024(IndexOf(suffix)) < 0x8000_0000
    ensures GetIntegerValue(Decimal(n) + [suffix]) == n * Pow1024(IndexOf(suffix))
  {
    var arg := Decimal(n) + [suffix];
    var m := Multiplier(suffix).value;
    var p := n * m;
    AtoiDecimal(n, [suffix]);
    assert arg[|arg| - 1] == suffix;
    if n > 0 {
      MulAtLeast(m, n);
      assert m * n == p;
    }
    DivModUnique(n, TWO32, 0, n);
    DivModUnique(p, TWO32, 0, p);
    assert GetIntegerValue(arg) == AsInt32(ToU32(ToU32(n) * m));
  }

  /** A lower-case suffix is not a suffix: "4k" is four bytes. */
  lemma LowerCaseIgnored(n: nat, suffix: char)
    requires suffix in "bkmg"
    ensures GetIntegerValue(Decimal(n) + [suffix]) == n
  {
    var arg := Decimal(n) + [suffix];
    AtoiDecimal(n, [suffix]);
    assert arg[|arg| - 1] == suffix;
  }

  /** The 32-bit product wraps: "4G" is 0 and "2G" is the most negative int. */
  lemma GigabytesWrap()
    ensures GetIntegerValue("4G") == 0
    ensures GetIntegerValue("2G") == -0x8000_0000
  {
    assert Decimal(4) == "4" && Decimal(2) == "2";
    AtoiDecimal(4, "G");
    AtoiDecimal(2, "G");
    assert "4G" == Decimal(4) + "G" && "2G" == Decimal(2) + "G";
  }

  // ---------------------------------------------------------------------
  // Options (main) and check_options
  // ---------------------------------------------------------------------

  /** BLOCK_SZ: the default block size and file size. */
  const BlockSize: u64 := 4096

  /** The options main reads with getopt("b:f:l:hn:s:w:"); any other letter is Unknown. */
  datatype Opt = Help | File(name: string) | Size(arg: string) | Block(arg: string)
               | Jobs(arg: string) | Hint(arg: string) | LogLevel(arg: string) | Unknown

  /** A size argument is read by get_integer_value, which needs it non-empty. */
  predicate Readable(opt: Opt) {
    (opt.Size? || opt.Block?) ==> |opt.arg| > 0
  }

  /**
    The first workload and the fields of `wl_man` the options set: the
    sizes are uint64_t, the job count a uint16_t, the hint and the log
    level uint8_t.
   */
  datatype Bench = Bench(filename: Option<string>, nrWls: nat, fsize: u64, bsize: u64,
                         nrJobs: nat, rwHint: nat, logLevel: nat)

  /** After the calloc of main: one empty workload with BLOCK_SZ for both sizes. */
  function InitialBench(): (r: Bench)
    ensures r.fsize == BlockSize && r.bsize == BlockSize
    ensures r.nrWls == 0 && r.filename.None? && r.nrJobs == 0
  {
    Bench(None, 0, BlockSize, BlockSize, 0, 0, 0)
  }

  /** One option; None when it shows the help, which exits. */
  function SetOption(b: Bench, opt: Opt): Option<Bench>
    requires Readable(opt)
  {
    match opt
    case Help => None
    case Unknown => None
    case File(name) => Some(b.(filename := Some(name), nrWls := 1))
    case Size(arg) => Some(b.(fsize := ToU64(GetIntegerValue(arg))))
    case Block(arg) => Some(b.(bsize := ToU64(GetIntegerValue(arg))))
    case Jobs(arg) => Some(b.(nrJobs := Atoi(arg) % 0x1_0000))
    case Hint(arg) => Some(b.(rwHint := Atoi(arg) % 256))
    case LogLevel(arg) => Some(b.(logLevel := Atoi(arg) % 256))
  }

  predicate AllReadable(opts: seq<Opt>) {
    forall i | 0 <= i < |opts| :: Readable(opts[i])
  }

  /** The options in order, from `b`. */
  function Parsed(b: Bench, opts: seq<Opt>): Option<Bench>
    requires AllReadable(opts)
    decreases |opts|
  {
    if opts == [] then Some(b)
    else match SetOption(b, opts[0])
      case None => None
      case Some(b1) => Parsed(b1, opts[1..])
  }

  /** The getopt loop of main. */
  method ParseOptions(opts: seq<Opt>) returns (r: Option<Bench>)
    requires AllReadable(opts)
    ensures r == Parsed(InitialBench(), opts)
  {
    var b := InitialBench();
    var i := 0;
    while i < |opts|
      invariant i <= |opts|
      invariant AllReadable(opts[i..])
      invariant Parsed(InitialBench(), opts) == Parsed(b, opts[i..])
    {
      assert opts[i..][0] == opts[i];
      var next := SetOption(b, opts[i]);
      if next.None? {
        return None;
      }
      assert opts[i..][1..] == opts[i + 1..];
      b := next.value;
      i := i + 1;
    }
    return Some(b);
  }

  /** Options parsed one after the other: the second run starts where the first ended. */
  lemma {:induction false} ParsedAppend(b: Bench, xs: seq<Opt>, ys: seq<Opt>)
    requires AllReadable(xs) && AllReadable(ys)
    ensures AllReadable(xs + ys)
    ensures Parsed(b, xs + ys) == if Parsed(b, xs).None? then None else Parsed(Parsed(b, xs).value, ys)
    decreases |xs|
  {
    var zs := xs + ys;
    assert forall i | 0 <= i < |zs| :: zs[i] == if i < |xs| then xs[i] else ys[i - |xs|];
    if xs == [] {
      assert zs == ys;
    } else {
      assert zs[0] == xs[0] && zs[1..] == xs[1..] + ys;
      assert AllReadable(xs[1..]) by {
        assert forall i | 0 <= i < |xs| - 1 :: xs[1..][i] == xs[i + 1];
      }
      var next := SetOption(b, xs[0]);
      if next.Some? {
        ParsedAppend(next.value, xs[1..], ys);
      }
    }
  }

  /** Options other than -s leave the file size alone, and options other than -b the block size. */
  lemma {:induction false} ParsedKeepsSizes(b: Bench, opts: seq<Opt>)
    requires AllReadable(opts) && Parsed(b, opts).Some?
    ensures (forall i | 0 <= i < |opts| :: !opts[i].Size?) ==> Parsed(b, opts).value.fsize == b.fsize
    ensures (forall i | 0 <= i < |opts| :: !opts[i].Block?) ==> Parsed(b, opts).value.bsize == b.bsize
    decreases |opts|
  {
    if opts != [] {
      var b1 := SetOption(b, opts[0]).value;
      assert forall i | 0 <= i < |opts| - 1 :: opts[1..][i] == opts[i + 1];
      ParsedKeepsSizes(b1, opts[1..]);
    }
  }

  /** Without -s the file is BLOCK_SZ bytes, and without -b the writes are BLOCK_SZ bytes. */
  lemma DefaultSizes(opts: seq<Opt>)
    requires AllReadable(opts) && Parsed(InitialBench(), opts).Some?
    ensures (forall i | 0 <= i < |opts| :: !opts[i].Size?) ==> Parsed(InitialBench(), opts).value.fsize == 4096
    ensures (forall i | 0 <= i < |opts| :: !opts[i].Block?) ==> Parsed(InitialBench(), opts).value.bsize == 4096
  {
    ParsedKeepsSizes(InitialBench(), opts);
  }

  /** The last -s decides the file size. */
  lemma LastSizeWins(b: Bench, before: seq<Opt>, arg: string, after: seq<Opt>)
    requires |arg| > 0 && AllReadable(before) && AllReadable(after)
    requires forall i | 0 <= i < |after| :: !after[i].Size?
    ensures AllReadable(before + [Size(arg)] + after)
    ensures Parsed(b, before + [Size(arg)] + after).Some? ==>
      Parsed(b, before + [Size(arg)] + after).value.fsize == ToU64(GetIntegerValue(arg))
  {
    var mid := [Size(arg)] + after;
    assert AllReadable(mid) by {
      assert forall i | 1 <= i < |mid| :: mid[i] == after[i - 1];
    }
    ParsedAppend(b, before, mid);
    assert before + [Size(arg)] + after == before + mid;
    var p := Parsed(b, before);
    if p.Some? && Parsed(b, before + mid).Some? {
      assert mid[0] == Size(arg) && mid[1..] == after;
      ParsedKeepsSizes(p.value.(fsize := ToU64(GetIntegerValue(arg))), after);
    }
  }

  /** A workload exists exactly when some -f was given. */
  lemma {:induction false} ParsedFile(b: Bench, opts: seq<Opt>)
    requires AllReadable(opts) && Parsed(b, opts).Some?
    requires b.nrWls <= 1 && (b.nrWls == 1 <==> b.filename.Some?)
    ensures Parsed(b, opts).value.nrWls <= 1
    ensures Parsed(b, opts).value.nrWls == 1 <==> b.nrWls == 1 || exists i | 0 <= i < |opts| :: opts[i].File?
    ensures Parsed(b, opts).value.nrWls == 1 <==> Parsed(b, opts).value.filename.Some?
    decreases |opts|
  {
    if opts != [] {
      var b1 := SetOption(b, opts[0]).value;
      assert forall i | 0 <= i < |opts| - 1 :: opts[1..][i] == opts[i + 1];
      ParsedFile(b1, opts[1..]);
      if b1.nrWls == 1 && b.nrWls != 1 {
        assert opts[0].File?;
      }
      if exists i | 0 <= i < |opts| :: opts[i].File? {
        var i :| 0 <= i < |opts| && opts[i].File?;
        if i > 0 {
          assert opts[1..][i - 1].File?;
        }
      }
    }
  }

  /** The errors check_options stops with (exit status 1); the first one found wins. */
  datatype BenchError = MissingFilename | MissingFileSize

  /** check_options: a file name is required, and so is a non-zero file size. */
  function CheckOptions(b: Bench): (r: Result<Bench, BenchError>)
    ensures r.Err? && r.error == MissingFilename <==> b.nrWls < 1
    ensures r.Err? && r.error == MissingFileSize <==> b.nrWls >= 1 && b.fsize == 0
    ensures r.Ok? ==> r.value == b && b.nrWls >= 1 && b.fsize != 0
  {
    if b.nrWls < 1 then Err(MissingFilename)
    else if b.fsize == 0 then Err(MissingFileSize)
    else Ok(b)
  }

  /** Parsed options pass check_options exactly when -f was given and the file size is not zero. */
  lemma CheckParsed(opts: seq<Opt>)
    requires AllReadable(opts) && Parsed(InitialBench(), opts).Some?
    ensures CheckOptions(Parsed(InitialBench(), opts).value).Ok?
            <==> (exists i | 0 <= i < |opts| :: opts[i].File?) && Parsed(InitialBench(), opts).value.fsize != 0
  {
    ParsedFile(InitialBench(), opts);
  }

  /** "-s 4G" wraps to a zero file size, which check_options reports as a missing -s. */
  lemma FourGigabytesRejected()
    ensures AllReadable([File("f"), Size("4G")])
    ensures Parsed(InitialBench(), [File("f"), Size("4G")]).Some?
    ensures CheckOptions(Parsed(InitialBench(), [File("f"), Size("4G")]).value) == Err(MissingFileSize)
  {
    GigabytesWrap();
    var opts := [File("f"), Size("4G")];
    assert opts[1..] == [Size("4G")] && opts[1..][1..] == [];
  }

  // ---------------------------------------------------------------------
  // print_report
  // ---------------------------------------------------------------------

  /** The fields of `segman` that get_procfs_single_segment_bits sets. */
  datatype Probe = Probe(info: seq<F2fs.SegmentInfo>, nrSegments: nat, capacity: nat)

  /**
    What get_procfs_single_segment_bits leaves in `segman` for segment
    `id`: nothing changes without the procfs table; otherwise a one-entry
    table with the segment's entry when its token is found.
   */
  function Probed(devName: string, procfs: map<string, seq<string>>, id: u32, p: Probe): (r: Probe)
    ensures F2fs.ProcPath(devName) !in procfs ==> r == p
    ensures F2fs.ProcPath(devName) in procfs ==> |r.info| == 1 && r.capacity == 1
    ensures r.nrSegments == p.nrSegments || r.nrSegments == p.nrSegments + 1
  {
    var path := F2fs.ProcPath(devName);
    if path !in procfs then p
    else
      var found := F2fs.FromLine(procfs[path], id / 10 + 2, id % 10);
      Probe(if found.Some? then [F2fs.SingleEntry(found.value, id)] else [F2fs.ZeroInfo],
            p.nrSegments + (if found.Some? then 1 else 0), 1)
  }

  /** The device, its segment geometry and the procfs tables print_report reads. */
  datatype Env = Env(g: Geometry, devName: string, procfs: map<string, seq<string>>)

  /** `sm_info[0]` can be read: the procfs table exists, or an earlier call left an entry. */
  predicate HasEntry(env: Env, p: Probe) {
    F2fs.ProcPath(env.devName) in env.procfs || |p.info| > 0
  }

  /** The loop's state: the segment start last seen, `segman`, and the counters. */
  datatype Progress = Progress(cur: nat, probe: Probe, counts: Segmap.Counters)

  /**
    One extent: when its segment start differs from the last one, one
    more segment, probed in procfs, and the heat counter of the type the
    probe leaves in `sm_info[0]`. Without the procfs file and without an
    entry from an earlier call, `sm_info` was never allocated and the
    switch reads `sm_info[0]` through NULL: that fault is None.
   */
  function Step(env: Env, t: Progress, e: Extent): (r: Option<Progress>)
    ensures r.None? <==> Segmap.SegmentStart(env.g, e.phyBlk) != t.cur && !HasEntry(env, t.probe)
    ensures HasEntry(env, t.probe) ==> r.Some? && HasEntry(env, r.value.probe)
  {
    var start := Segmap.SegmentStart(env.g, e.phyBlk);
    if t.cur == start then Some(t)
    else
      var p := Probed(env.devName, env.procfs, ToU32(Segmap.SegmentOf(env.g, e.phyBlk)), t.probe);
      if |p.info| == 0 then None
      else Some(Progress(start, p, Segmap.AddSegments(t.counts, p.info[0].segType, 1)))
  }

  /** The loop over all extents, in order, stopping at a NULL read. */
  function Report(env: Env, t: Progress, es: seq<Extent>): (r: Option<Progress>)
    ensures HasEntry(env, t.probe) ==> r.Some? && HasEntry(env, r.value.probe)
    decreases |es|
  {
    if es == [] then Some(t)
    else
      match Step(env, t, es[0])
      case None => None
      case Some(next) => Report(env, next, es[1..])
  }

  /** The number of extents whose segment start differs from the one before, the first compared with `prev`. */
  function Changes(g: Geometry, es: seq<Extent>, prev: nat): (r: nat)
    ensures r <= |es|
    decreases |es|
  {
    if es == [] then 0
    else
      var start := Segmap.SegmentStart(g, es[0].phyBlk);
      (if start != prev then 1 else 0) + Changes(g, es[1..], start)
  }

  /**
    The loop reads `sm_info[0]` through NULL exactly when there is neither
    a procfs file nor an entry left by an earlier call, and some extent
    leaves the last segment start.
   */
  lemma {:induction false} ReportFaultsIff(env: Env, t: Progress, es: seq<Extent>)
    ensures Report(env, t, es).None? <==> !HasEntry(env, t.probe) && Changes(env.g, es, t.cur) > 0
    decreases |es|
  {
    if es != [] && Segmap.SegmentStart(env.g, es[0].phyBlk) == t.cur {
      ReportFaultsIff(env, t, es[1..]);
    }
  }

  /** The segment counter counts segment-start changes, whatever procfs says. */
  lemma {:induction false} ReportCountsChanges(env: Env, t: Progress, es: seq<Extent>)
    ensures Report(env, t, es).Some? ==>
      Report(env, t, es).value.counts.segmentCtr == t.counts.segmentCtr + Changes(env.g, es, t.cur)
    decreases |es|
  {
    if es != [] {
      var next := Step(env, t, es[0]);
      if next.Some? {
        ReportCountsChanges(env, next.value, es[1..]);
      }
    }
  }

  /** Cold, warm and hot segments together never outnumber the segments counted. */
  lemma {:induction false} ReportHeatWithin(env: Env, t: Progress, es: seq<Extent>)
    requires Segmap.HeatWithin(t.counts)
    ensures Report(env, t, es).Some? ==> Segmap.HeatWithin(Report(env, t, es).value.counts)
    decreases |es|
  {
    if es != [] {
      var next := Step(env, t, es[0]);
      if next.Some? {
        ReportHeatWithin(env, next.value, es[1..]);
      }
    }
  }

  /**
    The last segment start begins at 0, so extents in the segment that
    starts at sector 0 are never counted, probed or classified.
   */
  lemma {:induction false} SegmentZeroSkipped(env: Env, t: Progress, es: seq<Extent>)
    requires t.cur == 0
    requires forall i | 0 <= i < |es| :: Segmap.SegmentStart(env.g, es[i].phyBlk) == 0
    ensures Report(env, t, es) == Some(t)
    decreases |es|
  {
    if es != [] {
      assert Step(env, t, es[0]) == Some(t);
      assert forall i | 0 <= i < |es| - 1 :: es[1..][i] == es[i + 1];
      SegmentZeroSkipped(env, t, es[1..]);
    }
  }

  /** Without the procfs file, `segman` is never touched: every new segment gets the type left in `sm_info[0]`. */
  lemma {:induction false} ReportWithoutProcfs(env: Env, t: Progress, es: seq<Extent>)
    requires F2fs.ProcPath(env.devName) !in env.procfs
    ensures Report(env, t, es).Some? ==> Report(env, t, es).value.probe == t.probe
    decreases |es|
  {
    if es != [] {
      var next := Step(env, t, es[0]);
      if next.Some? {
        ReportWithoutProcfs(env, next.value, es[1..]);
      }
    }
  }

  /** The row print_report prints: name, extents, segments, zones, and the heat split. */
  datatype ReportRow = ReportRow(filename: string, extents: nat, segments: nat, zones: nat,
                                 cold: nat, warm: nat, hot: nat)

  const NoCounts: Segmap.Counters := Segmap.Counters(0, 0, 0, 0)

  /** The state of `sm` as a Probe. */
  function ProbeOf(sm: F2fs.SegmentManager): Probe
    reads sm
  {
    Probe(sm.smInfo, sm.nrSegments, sm.capacity)
  }

  /**
    print_report: the loop over the sorted extents, from segment start 0
    and zero counters; `zoneCtr` is the zone count get_extents found. The
    row is None when the switch reads `sm_info[0]` through NULL.
   */
  method PrintReport(env: Env, filename: string, es: seq<Extent>, zoneCtr: nat, sm: F2fs.SegmentManager)
    returns (row: Option<ReportRow>)
    modifies sm
    ensures var r := Report(env, Progress(0, old(ProbeOf(sm)), NoCounts), es);
      && (r.None? ==> row.None? && ProbeOf(sm) == old(ProbeOf(sm)))
      && (r.Some? ==>
            && ProbeOf(sm) == r.value.probe
            && row == Some(ReportRow(filename, |es|, r.value.counts.segmentCtr, zoneCtr,
                                     r.value.counts.coldCtr, r.value.counts.warmCtr, r.value.counts.hotCtr)))
  {
    var cur := 0;
    var counts := NoCounts;
    ghost var start := Progress(0, ProbeOf(sm), NoCounts);
    var i := 0;
    while i < |es|
      invariant i <= |es|
      invariant HasEntry(env, ProbeOf(sm)) || ProbeOf(sm) == start.probe
      invariant Report(env, start, es) == Report(env, Progress(cur, ProbeOf(sm), counts), es[i..])
    {
      var t := Progress(cur, ProbeOf(sm), counts);
      var segmentStart := Segmap.SegmentStart(env.g, es[i].phyBlk);
      assert es[i..][0] == es[i] && es[i..][1..] == es[i + 1..];
      if cur != segmentStart {
        cur := segmentStart;
        ProbeSegment(env, ToU32(Segmap.SegmentOf(env.g, es[i].phyBlk)), sm);
        if |sm.smInfo| == 0 {
          // sm_info is still NULL
          return None;
        }
        counts := CountType(counts, sm.smInfo[0].segType);
      }
      assert Some(Progress(cur, ProbeOf(sm), counts)) == Step(env, t, es[i]);
      i := i + 1;
    }
    return Some(ReportRow(filename, |es|, counts.segmentCtr, zoneCtr, counts.coldCtr, counts.warmCtr, counts.hotCtr));
  }

  /** One get_procfs_single_segment_bits call, seen as the probe it leaves in `sm`. */
  method ProbeSegment(env: Env, id: u32, sm: F2fs.SegmentManager)
    modifies sm
    ensures ProbeOf(sm) == Probed(env.devName, env.procfs, id, old(ProbeOf(sm)))
  {
    var _ := sm.GetProcfsSingleSegmentBits(env.devName, id, env.procfs);
  }

  /** The counter updates for one new segment: segment_ctr, and the switch on its type. */
  method CountType(c: Segmap.Counters, segType: nat) returns (r: Segmap.Counters)
    ensures r == Segmap.AddSegments(c, segType, 1)
  {
    r := c.(segmentCtr := c.segmentCtr + 1);
    if segType == CursegColdData {
      r := r.(coldCtr := r.coldCtr + 1);
    } else if segType == CursegWarmData {
      r := r.(warmCtr := r.warmCtr + 1);
    } else if segType == CursegHotData {
      r := r.(hotCtr := r.hotCtr + 1);
    }
  }

  /**
    The report faults exactly when neither procfs nor `segman` gives an
    entry and some extent lies outside segment start 0; otherwise the
    segments reported are the segment changes, and their heat split never
    exceeds them.
   */
  lemma ReportRowCounts(env: Env, p: Probe, es: seq<Extent>)
    ensures var r := Report(env, Progress(0, p, NoCounts), es);
      && (r.None? <==> !HasEntry(env, p) && Changes(env.g, es, 0) > 0)
      && (r.Some? ==>
            && r.value.counts.segmentCtr == Changes(env.g, es, 0)
            && r.value.counts.coldCtr + r.value.counts.warmCtr + r.value.counts.hotCtr <= r.value.counts.segmentCtr)
  {
    ReportFaultsIff(env, Progress(0, p, NoCounts), es);
    ReportCountsChanges(env, Progress(0, p, NoCounts), es);
    ReportHeatWithin(env, Progress(0, p, NoCounts), es);
  }
}

=== FILE: libf2fs.dfy ===
/**
  lib/libf2fs.c: the NAT lookup of an inode, which keeps a cursor across
  calls, and the two readers of /proc/fs/f2fs/<dev>/segment_info.

  The device's NAT area is a sequence of NAT blocks, block 0 at
  `nat_blkaddr`; a block past the end of that sequence is a failed read,
  on which the source exits. The proc file system is a map from path to
  the lines `getline` hands out; a missing path is a failed `fopen`.
 */
module F2fs {
  import opened Wrappers
  import opened Bits
  import opened Text

  // ---------------------------------------------------------------------
  // NAT lookup
  // ---------------------------------------------------------------------

  /** One `struct f2fs_nat_entry` (version is a byte). */
  datatype NatEntry = NatEntry(version: nat, ino: u32, blockAddr: u32)

  /** NAT_ENTRY_PER_BLOCK: a 4096-byte page over packed 9-byte entries. */
  const NatEntryPerBlock: nat := 455

  /** Every NAT block holds NatEntryPerBlock entries, as `struct f2fs_nat_block` does. */
  predicate NatBlocksShaped(dev: seq<seq<NatEntry>>) {
    forall b | 0 <= b < |dev| :: |dev[b]| == NatEntryPerBlock
  }

  /**
    How many NAT blocks one lookup reads: `segment_count_nat` counts the
    pair segments, so it is halved, then shifted by `log_blocks_per_seg`,
    in 32 bits.
   */
  function NatBlocks(segmentCountNat: u32, logBlocksPerSeg: u32): u32 {
    Shl32(Shr(segmentCountNat, 1), logBlocksPerSeg)
  }

  /** Without overflow, a lookup reads the blocks of half of the NAT segments. */
  lemma NatBlocksHalf(segmentCountNat: u32, logBlocksPerSeg: u32)
    requires (segmentCountNat / 2) * Pow2(logBlocksPerSeg) < TWO32
    ensures NatBlocks(segmentCountNat, logBlocksPerSeg) == (segmentCountNat / 2) * Pow2(logBlocksPerSeg)
    ensures 2 * NatBlocks(segmentCountNat, logBlocksPerSeg) <= segmentCountNat * Pow2(logBlocksPerSeg)
  {
    var p := Pow2(logBlocksPerSeg);
    var h := segmentCountNat / 2;
    assert Pow2(1) == 2;
    assert Shr(segmentCountNat, 1) == h;
    assert 0 <= h * p;
    assert 2 * (h * p) == (2 * h) * p;
    MulLe(2 * h, segmentCountNat, p);
  }

  lemma MulLe(a: nat, b: nat, m: nat)
    requires a <= b
    ensures a * m <= b * m
  {
  }

  /** The place the next lookup starts from: `nat_block_offset` and `nat_entry_offset`. */
  datatype Cursor = Cursor(block: nat, entry: nat)

  /** What a lookup gives back: the entry, NULL, or the failed read that ends the program. */
  datatype Lookup = Found(entry: NatEntry) | NotFound | ReadFailed

  /** The first slot at or after `from` that holds inode `ino`. */
  function FirstMatch(block: seq<NatEntry>, ino: u32, from: nat): (r: Option<nat>)
    ensures r.Some? ==> from <= r.value < |block| && block[r.value].ino == ino
    ensures r.Some? ==> forall j | from <= j < r.value :: block[j].ino != ino
    ensures r.None? ==> forall j | from <= j < |block| :: block[j].ino != ino
    decreases |block| - from
  {
    if from >= |block| then None
    else if block[from].ino == ino then Some(from)
    else FirstMatch(block, ino, from + 1)
  }

  /** The cursor after a hit in slot `slot` of block `block`: the next slot, or the next block after the last slot. */
  function After(block: nat, slot: nat): Cursor {
    if slot == NatEntryPerBlock - 1 then Cursor(block + 1, 0) else Cursor(block, slot + 1)
  }

  /** The hit an After cursor follows. */
  function Before(c: Cursor): (nat, nat)
    requires c.block > 0 || c.entry > 0
  {
    if c.entry == 0 then (c.block - 1, NatEntryPerBlock - 1) else (c.block, c.entry - 1)
  }

  /**
    f2fs_get_inode_nat_entry from cursor `c`, reading at most `n` blocks:
    the answer and the cursor it leaves for the next call.
   */
  function Scan(dev: seq<seq<NatEntry>>, ino: u32, c: Cursor, n: nat): (Lookup, Cursor)
    decreases n
  {
    if n == 0 then (NotFound, c)
    else if c.block >= |dev| then (ReadFailed, c)
    else match FirstMatch(dev[c.block], ino, c.entry)
      case Some(i) => (Found(dev[c.block][i]), After(c.block, i))
      case None => Scan(dev, ino, Cursor(c.block + 1, 0), n - 1)
  }

  /** No slot holds `ino` from cursor `c` up to, not including, slot `slot` of block `block`. */
  predicate NoMatchBefore(dev: seq<seq<NatEntry>>, ino: u32, c: Cursor, block: nat, slot: nat)
    requires block < |dev|
  {
    forall k, j | c.block <= k <= block && 0 <= j < |dev[k]| && (k == c.block ==> c.entry <= j) && (k == block ==> j < slot) ::
      dev[k][j].ino != ino
  }

  /**
    A found entry holds the inode, is the first one at or after the
    cursor within the `n` blocks read, and sits just before the new
    cursor, so the next call resumes right after it.
   */
  lemma {:induction false} ScanFound(dev: seq<seq<NatEntry>>, ino: u32, c: Cursor, n: nat)
    requires NatBlocksShaped(dev) && c.entry < NatEntryPerBlock
    requires Scan(dev, ino, c, n).0.Found?
    ensures var (r, c2) := Scan(dev, ino, c, n);
      && (c2.block > 0 || c2.entry > 0)
      && var (b, i) := Before(c2);
      && c.block <= b < |dev| && b < c.block + n && i < NatEntryPerBlock
      && (b == c.block ==> c.entry <= i)
      && r.entry == dev[b][i] && r.entry.ino == ino
      && NoMatchBefore(dev, ino, c, b, i)
    decreases n
  {
    var m := FirstMatch(dev[c.block], ino, c.entry);
    if m.None? {
      ScanFound(dev, ino, Cursor(c.block + 1, 0), n - 1);
    }
  }

  /**
    NULL means no slot from the cursor on, in the `n` blocks read, holds
    the inode, and the cursor moved to the start of the block after them.
   */
  lemma {:induction false} ScanNotFound(dev: seq<seq<NatEntry>>, ino: u32, c: Cursor, n: nat)
    requires NatBlocksShaped(dev) && n > 0
    requires Scan(dev, ino, c, n).0.NotFound?
    ensures Scan(dev, ino, c, n).1 == Cursor(c.block + n, 0)
    ensures c.block + n <= |dev|
    ensures forall k, j | c.block <= k < c.block + n && 0 <= j < |dev[k]| && (k == c.block ==> c.entry <= j) ::
      dev[k][j].ino != ino
    decreases n
  {
    if n > 1 {
      ScanNotFound(dev, ino, Cursor(c.block + 1, 0), n - 1);
    }
  }

  /** A failed read happens only past the device's last block, with no hit before it. */
  lemma {:induction false} ScanReadFailed(dev: seq<seq<NatEntry>>, ino: u32, c: Cursor, n: nat)
    requires Scan(dev, ino, c, n).0.ReadFailed?
    ensures |dev| < c.block + n
    ensures forall k, j | c.block <= k < |dev| && 0 <= j < |dev[k]| && (k == c.block ==> c.entry <= j) ::
      dev[k][j].ino != ino
    decreases n
  {
    if c.block < |dev| {
      ScanReadFailed(dev, ino, Cursor(c.block + 1, 0), n - 1);
    }
  }

  /** The cursor always points at a slot of a block. */
  lemma {:induction false} ScanKeepsCursor(dev: seq<seq<NatEntry>>, ino: u32, c: Cursor, n: nat)
    requires NatBlocksShaped(dev) && c.entry < NatEntryPerBlock
    ensures Scan(dev, ino, c, n).1.entry < NatEntryPerBlock
    ensures c.block <= Scan(dev, ino, c, n).1.block
    decreases n
  {
    if n > 0 && c.block < |dev| && FirstMatch(dev[c.block], ino, c.entry).None? {
      ScanKeepsCursor(dev, ino, Cursor(c.block + 1, 0), n - 1);
    }
  }

  /** The global NAT cursor of lib/libf2fs.c. */
  class NatCursor {
    var blockOffset: nat
    var entryOffset: nat

    constructor()
      ensures blockOffset == 0 && entryOffset == 0
    {
      blockOffset := 0;
      entryOffset := 0;
    }

    function Position(): Cursor
      reads this
    {
      Cursor(blockOffset, entryOffset)
    }

    /**
      f2fs_get_inode_nat_entry: read up to `natBlocks` blocks from the
      cursor, returning the first entry for `inode` and moving the cursor
      past it.
     */
    method GetInodeNatEntry(dev: seq<seq<NatEntry>>, natBlocks: u32, inode: u32) returns (r: Lookup)
      requires NatBlocksShaped(dev)
      modifies this
      ensures (r, Position()) == Scan(dev, inode, old(Position()), natBlocks)
    {
      var i := 0;
      while i < natBlocks
        invariant i <= natBlocks
        invariant Scan(dev, inode, old(Position()), natBlocks) == Scan(dev, inode, Position(), natBlocks - i)
      {
        if blockOffset >= |dev| {
          return ReadFailed;
        }
        var block := dev[blockOffset];
        var hit := FindInBlock(block, inode, entryOffset);
        if hit < NatEntryPerBlock {
          if hit == NatEntryPerBlock - 1 {
            blockOffset := blockOffset + 1;
            entryOffset := 0;
          } else {
            entryOffset := hit + 1;
          }
          var e := block[hit];
          return Found(NatEntry(e.version, e.ino, e.blockAddr));
        }
        blockOffset := blockOffset + 1;
        entryOffset := 0;
        i := i + 1;
      }
      return NotFound;
    }
  }

  /** The inner loop over the slots of one block, from `from`; NatEntryPerBlock when no slot matches. */
  method FindInBlock(block: seq<NatEntry>, ino: u32, from: nat) returns (hit: nat)
    requires |block| == NatEntryPerBlock
    ensures hit <= NatEntryPerBlock
    ensures hit < NatEntryPerBlock <==> FirstMatch(block, ino, from).Some?
    ensures hit < NatEntryPerBlock ==> FirstMatch(block, ino, from) == Some(hit)
  {
    var j := from;
    while j < NatEntryPerBlock
      invariant from <= j
      invariant FirstMatch(block, ino, from) == FirstMatch(block, ino, j)
      decreases NatEntryPerBlock - j
    {
      if block[j].ino == ino {
        return j;
      }
      j := j + 1;
    }
    return NatEntryPerBlock;
  }

  // ---------------------------------------------------------------------
  // /proc/fs/f2fs/<dev>/segment_info
  // ---------------------------------------------------------------------

  /** One `struct segment_info`. */
  datatype SegmentInfo = SegmentInfo(id: u32, segType: u32, validBlocks: u32)

  const ZeroInfo: SegmentInfo := SegmentInfo(0, 0, 0)

  /** The path both readers open: the last component of the device name under /proc/fs/f2fs. */
  function ProcPath(devName: string): string {
    "/proc/fs/f2fs/" + LastComponent(devName) + "/segment_info"
  }

  /** A device name `dev`, bare or under any directory, reads /proc/fs/f2fs/dev/segment_info. */
  lemma ProcPathOfDevice(dir: string, dev: string)
    requires '/' !in dev
    ensures ProcPath(dev) == "/proc/fs/f2fs/" + dev + "/segment_info"
    ensures ProcPath(dir + "/" + dev) == "/proc/fs/f2fs/" + dev + "/segment_info"
  {
    LastComponentIs(dev, dev);
    var s := dir + "/" + dev;
    assert s[|s| - |dev|..] == dev && s[|s| - |dev| - 1] == '/';
    LastComponentIs(s, dev);
  }

  /** The tokens `strsep(&line, " \t")` hands out, empty ones included. */
  function Tokens(line: string): seq<string> {
    SplitOn(line, {' ', '\t'})
  }

  /** A token describes a segment when it holds a '|'. */
  predicate IsEntry(tok: string) {
    '|' in tok
  }

  /**
    The segment a token describes: the piece before the first '|' is its
    type, and every later piece overwrites its valid block count. The id
    is left as calloc made it.
   */
  function EntryOf(tok: string): SegmentInfo {
    var ps := SplitOn(tok, {'|'});
    SegmentInfo(0, ToU32(Atoi(ps[0])), if |ps| > 1 then ToU32(Atoi(ps[|ps| - 1])) else 0)
  }

  /** "type|valid" reads as that type and valid block count. */
  lemma EntryOfPair(a: string, b: string)
    requires '|' !in a && '|' !in b
    ensures IsEntry(a + "|" + b)
    ensures EntryOf(a + "|" + b) == SegmentInfo(0, ToU32(Atoi(a)), ToU32(Atoi(b)))
  {
    var s := a + "|" + b;
    assert s[|a|] == '|';
    assert IndexOfAny(s, {'|'}) == |a| by {
      IndexOfAnyAt(s, {'|'}, |a|);
    }
    assert s[..|a|] == a && s[|a| + 1..] == b;
    assert IndexOfAny(b, {'|'}) == |b| by {
      IndexOfAnyAt(b, {'|'}, |b|);
    }
    assert SplitOn(s, {'|'}) == [a, b];
  }

  /** IndexOfAny is the first delimiter position. */
  lemma IndexOfAnyAt(s: string, delims: set<char>, i: nat)
    requires i <= |s| && (i < |s| ==> s[i] in delims)
    requires forall j | 0 <= j < i :: s[j] !in delims
    ensures IndexOfAny(s, delims) == i
  {
    var k := IndexOfAny(s, delims);
    if i < |s| {
      assert s[i] in delims;
    }
    if k < |s| {
      assert s[k] in delims;
    }
  }

  /** The segments of a list of tokens, in order. */
  function Entries(toks: seq<string>): seq<SegmentInfo> {
    if toks == [] then []
    else (if IsEntry(toks[0]) then [EntryOf(toks[0])] else []) + Entries(toks[1..])
  }

  lemma {:induction false} EntriesAppend(a: seq<string>, t: string)
    ensures Entries(a + [t]) == Entries(a) + (if IsEntry(t) then [EntryOf(t)] else [])
    decreases |a|
  {
    var tail := if IsEntry(t) then [EntryOf(t)] else [];
    if a == [] {
      assert a + [t] == [t];
      assert Entries([t]) == tail + Entries([]);
    } else {
      var s := a + [t];
      var head := if IsEntry(a[0]) then [EntryOf(a[0])] else [];
      assert s[0] == a[0] && s[1..] == a[1..] + [t];
      assert Entries(s) == head + Entries(a[1..] + [t]);
      EntriesAppend(a[1..], t);
      assert Entries(a) == head + Entries(a[1..]);
    }
  }

  /** The segments of one line. */
  function LineEntries(line: string): seq<SegmentInfo> {
    Entries(Tokens(line))
  }

  /** The segments of several lines, one after the other. */
  function AllEntries(lines: seq<string>): seq<SegmentInfo> {
    if lines == [] then [] else LineEntries(lines[0]) + AllEntries(lines[1..])
  }

  /**
    The lines after the two header lines, parsed one by one until the
    count, started at `nr`, reaches `highest` at the end of a line.
   */
  function ParseLines(lines: seq<string>, highest: nat, nr: nat): seq<SegmentInfo>
    decreases |lines|
  {
    if lines == [] then []
    else
      var es := LineEntries(lines[0]);
      if nr + |es| >= highest then es else es + ParseLines(lines[1..], highest, nr + |es|)
  }

  /** The data lines of the file: all but the two header lines. */
  function DataLines(lines: seq<string>): seq<string> {
    if |lines| < 2 then [] else lines[2..]
  }

  /** The segments get_procfs_segment_bits parses from the file, the count starting at `nr`. */
  function SegmentBits(lines: seq<string>, highest: nat, nr: nat): seq<SegmentInfo> {
    ParseLines(DataLines(lines), highest, nr)
  }

  /**
    The parse takes whole lines from the front, and stops early only once
    the count has reached `highest`.
   */
  lemma {:induction false} ParseLinesPrefix(lines: seq<string>, highest: nat, nr: nat)
    ensures ParseLines(lines, highest, nr) <= AllEntries(lines)
    ensures ParseLines(lines, highest, nr) == AllEntries(lines) || nr + |ParseLines(lines, highest, nr)| >= highest
    decreases |lines|
  {
    if lines != [] {
      var es := LineEntries(lines[0]);
      if nr + |es| < highest {
        ParseLinesPrefix(lines[1..], highest, nr + |es|);
      }
    }
  }

  /**
    F2FS prints at most ten segments per row: then, starting below
    `highest`, the count stays within the `highest + 9` entries allocated.
   */
  lemma {:induction false} ParseLinesWithin(lines: seq<string>, highest: nat, nr: nat)
    requires nr < highest
    requires forall k | 0 <= k < |lines| :: |LineEntries(lines[k])| <= 10
    ensures nr + |ParseLines(lines, highest, nr)| <= highest + 9
    decreases |lines|
  {
    if lines != [] {
      var es := LineEntries(lines[0]);
      if nr + |es| < highest {
        ParseLinesWithin(lines[1..], highest, nr + |es|);
      }
    }
  }

  /** Parsing lines is parsing the first, then the rest unless the count has been reached. */
  lemma ReadLine(lines: seq<string>, highest: nat, nr: nat)
    requires lines != []
    ensures var es := LineEntries(lines[0]);
      ParseLines(lines, highest, nr) == if nr + |es| >= highest then es else es + ParseLines(lines[1..], highest, nr + |es|)
  {
  }

  /** One data line of the parse: its entries join those already read, and the parse stops there once the count reaches `highest`. */
  lemma DataLineStep(lines: seq<string>, k: nat, highest: nat, target: seq<SegmentInfo>, got: seq<SegmentInfo>, nr: nat, es: seq<SegmentInfo>)
    requires k < |lines| && es == LineEntries(lines[k])
    requires target == got + ParseLines(lines[k..], highest, nr)
    ensures nr + |es| >= highest ==> target == got + es
    ensures nr + |es| < highest ==> target == (got + es) + ParseLines(lines[k + 1..], highest, nr + |es|)
  {
    var rest := lines[k..];
    assert rest[0] == lines[k] && rest[1..] == lines[k + 1..];
    ReadLine(rest, highest, nr);
    if nr + |es| < highest {
      AppendAssoc(got, es, ParseLines(lines[k + 1..], highest, nr + |es|));
    }
  }

  /** Appending to a table in two steps appends both parts, in order. */
  lemma AppendAssoc(a: seq<SegmentInfo>, b: seq<SegmentInfo>, c: seq<SegmentInfo>)
    ensures (a + b) + c == a + (b + c)
  {
  }

  /** `count` calloc'd entries. */
  function Zeros(count: nat): (r: seq<SegmentInfo>)
    ensures |r| == count && forall k | 0 <= k < count :: r[k] == ZeroInfo
  {
    seq(count, k => ZeroInfo)
  }

  /** The `n`-th (from 0) token holding a '|'. */
  function NthEntry(toks: seq<string>, n: nat): Option<string> {
    if toks == [] then None
    else if IsEntry(toks[0]) then (if n == 0 then Some(toks[0]) else NthEntry(toks[1..], n - 1))
    else NthEntry(toks[1..], n)
  }

  /** The `n`-th segment token is the token behind the `n`-th parsed segment. */
  lemma {:induction false} NthEntryIsEntry(toks: seq<string>, n: nat)
    ensures NthEntry(toks, n).Some? <==> n < |Entries(toks)|
    ensures NthEntry(toks, n).Some? ==> Entries(toks)[n] == EntryOf(NthEntry(toks, n).value)
    decreases |toks|
  {
    if toks != [] {
      var rest := Entries(toks[1..]);
      if IsEntry(toks[0]) {
        assert Entries(toks) == [EntryOf(toks[0])] + rest;
        if n > 0 {
          NthEntryIsEntry(toks[1..], n - 1);
          assert NthEntry(toks, n) == NthEntry(toks[1..], n - 1);
        }
      } else {
        assert Entries(toks) == rest;
        NthEntryIsEntry(toks[1..], n);
      }
    }
  }

  /**
    The token get_procfs_single_segment_bits takes: from line `k` on, the
    first line with an `n`-th segment token gives it. A line with fewer
    tokens does not end the search, so a short row yields a token of a
    later row.
   */
  function FromLine(lines: seq<string>, k: nat, n: nat): Option<string>
    decreases |lines| - k
  {
    if k >= |lines| then None
    else match NthEntry(Tokens(lines[k]), n)
      case Some(tok) => Some(tok)
      case None => FromLine(lines, k + 1, n)
  }

  /** The segment get_procfs_single_segment_bits reads: its id is filled in once a second piece is read. */
  function SingleEntry(tok: string, segmentId: u32): SegmentInfo {
    var e := EntryOf(tok);
    if |SplitOn(tok, {'|'})| > 1 then e.(id := segmentId) else e
  }

  /** Entry `10 * row + rem` of full rows of ten is entry `rem` of row `row`. */
  lemma {:induction false} AllEntriesIndex(ds: seq<string>, row: nat, rem: nat)
    requires rem < 10 && row < |ds|
    requires forall k | 0 <= k < |ds| :: |LineEntries(ds[k])| == 10
    ensures 10 * row + rem < |AllEntries(ds)|
    ensures AllEntries(ds)[10 * row + rem] == LineEntries(ds[row])[rem]
    decreases row
  {
    if row > 0 {
      AllEntriesIndex(ds[1..], row - 1, rem);
      assert ds[1..][row - 1] == ds[row];
    }
  }

  /**
    On a file of full rows, get_procfs_single_segment_bits finds for
    segment `id` the entry get_procfs_segment_bits parses at index `id`.
   */
  lemma SingleAgreesWithAll(lines: seq<string>, id: u32)
    requires |lines| >= 2 && id / 10 < |lines| - 2
    requires forall k | 2 <= k < |lines| :: |LineEntries(lines[k])| == 10
    ensures FromLine(lines, id / 10 + 2, id % 10).Some?
    ensures id < |AllEntries(DataLines(lines))|
    ensures EntryOf(FromLine(lines, id / 10 + 2, id % 10).value) == AllEntries(DataLines(lines))[id]
  {
    var ds := DataLines(lines);
    var row := id / 10;
    assert ds[row] == lines[row + 2];
    NthEntryIsEntry(Tokens(lines[row + 2]), id % 10);
    AllEntriesIndex(ds, row, id % 10);
    assert 10 * row + id % 10 == id;
  }

  /** segman: the segment table the procfs readers fill. */
  class SegmentManager {
    var smInfo: seq<SegmentInfo>
    var nrSegments: nat
    var capacity: nat

    constructor()
      ensures smInfo == [] && nrSegments == 0 && capacity == 0
    {
      smInfo := [];
      nrSegments := 0;
      capacity := 0;
    }

    /**
      get_procfs_segment_bits: 0 when the file cannot be opened. Otherwise
      a fresh table of `highest + 9` entries, filled from index
      `nr_segments` on (which is not reset) with the segments parsed, and 1.
     */
    method GetProcfsSegmentBits(devName: string, highest: u32, procfs: map<string, seq<string>>) returns (r: int)
      modifies this
      ensures ProcPath(devName) !in procfs ==>
        r == 0 && smInfo == old(smInfo) && nrSegments == old(nrSegments) && capacity == old(capacity)
      ensures ProcPath(devName) in procfs ==>
        var parsed := SegmentBits(procfs[ProcPath(devName)], highest, old(nrSegments));
        && r == 1 && capacity == highest + 9
        && smInfo == Zeros(old(nrSegments)) + parsed
        && nrSegments == old(nrSegments) + |parsed|
    {
      var path := ProcPath(devName);
      if path !in procfs {
        return 0;
      }
      var lines := procfs[path];
      capacity := highest + 9;
      smInfo := Zeros(nrSegments);
      ReadSegmentLines(lines, highest);
      return 1;
    }

    /**
      The line loop of get_procfs_segment_bits: the two header lines are
      skipped, then each line's segments are appended until the count
      reaches `highest` at the end of a line.
     */
    method ReadSegmentLines(lines: seq<string>, highest: u32)
      requires |smInfo| == nrSegments
      modifies this
      ensures capacity == old(capacity)
      ensures smInfo == old(smInfo) + SegmentBits(lines, highest, old(nrSegments)) && nrSegments == |smInfo|
    {
      ghost var nr0 := nrSegments;
      ghost var start := smInfo;
      ghost var got: seq<SegmentInfo> := [];
      var lineCtr := 0;
      var k := 0;
      while k < |lines|
        invariant k <= |lines| && capacity == old(capacity)
        invariant smInfo == start + got && nrSegments == |smInfo| && nrSegments == nr0 + |got|
        invariant lineCtr == if k < 2 then k else 2
        invariant k < 2 ==> got == []
        invariant k >= 2 ==> SegmentBits(lines, highest, nr0) == got + ParseLines(lines[k..], highest, nrSegments)
      {
        if lineCtr < 2 {
          lineCtr := lineCtr + 1;
          k := k + 1;
          if k == 2 {
            assert DataLines(lines) == lines[k..];
          }
        } else {
          ghost var es := LineEntries(lines[k]);
          ghost var nr := nrSegments;
          ParseLine(lines[k]);
          DataLineStep(lines, k, highest, SegmentBits(lines, highest, nr0), got, nr, es);
          AppendAssoc(start, got, es);
          assert nrSegments == nr + |es|;
          got := got + es;
          if nrSegments >= highest {
            return;
          }
          k := k + 1;
        }
      }
    }

    /** The token loop of get_procfs_segment_bits for one line. */
    method ParseLine(line: string)
      requires |smInfo| == nrSegments
      modifies this
      ensures capacity == old(capacity)
      ensures smInfo == old(smInfo) + LineEntries(line) && nrSegments == |smInfo|
    {
      var toks := Tokens(line);
      var t := 0;
      while t < |toks|
        invariant t <= |toks| && capacity == old(capacity)
        invariant smInfo == old(smInfo) + Entries(toks[..t]) && nrSegments == |smInfo|
      {
        EntriesAppend(toks[..t], toks[t]);
        assert toks[..t + 1] == toks[..t] + [toks[t]];
        if IsEntry(toks[t]) {
          var info := ReadEntry(toks[t]);
          smInfo := smInfo + [info];
          nrSegments := nrSegments + 1;
        }
        t := t + 1;
      }
      assert toks[..t] == toks;
    }

    /**
      get_procfs_single_segment_bits: 0 when the file cannot be opened.
      Otherwise a fresh one-entry table, holding the segment's entry when
      its token is found (counted in `nr_segments`), and 1 either way.
     */
    method GetProcfsSingleSegmentBits(devName: string, segmentId: u32, procfs: map<string, seq<string>>) returns (r: int)
      modifies this
      ensures ProcPath(devName) !in procfs ==>
        r == 0 && smInfo == old(smInfo) && nrSegments == old(nrSegments) && capacity == old(capacity)
      ensures ProcPath(devName) in procfs ==>
        var found := FromLine(procfs[ProcPath(devName)], segmentId / 10 + 2, segmentId % 10);
        && r == 1 && capacity == 1
        && smInfo == (if found.Some? then [SingleEntry(found.value, segmentId)] else [ZeroInfo])
        && nrSegments == old(nrSegments) + (if found.Some? then 1 else 0)
    {
      var path := ProcPath(devName);
      if path !in procfs {
        return 0;
      }
      var lines := procfs[path];
      capacity := 1;
      smInfo := [ZeroInfo];
      var row := segmentId / 10;
      var remainder := segmentId % 10;
      var lineCtr := 0;
      var k := 0;
      while k < |lines|
        invariant k <= |lines|
        invariant lineCtr == if k <= row + 2 then k else row + 2
        invariant k > row + 2 ==> FromLine(lines, row + 2, remainder) == FromLine(lines, k, remainder)
        invariant smInfo == [ZeroInfo] && nrSegments == old(nrSegments) && capacity == 1
      {
        if lineCtr != row + 2 {
          lineCtr := lineCtr + 1;
          k := k + 1;
          continue;
        }
        var tok := FindSegmentToken(Tokens(lines[k]), remainder);
        if tok.Some? {
          var info := ReadSingleEntry(tok.value, segmentId);
          smInfo := [info];
          nrSegments := nrSegments + 1;
          return 1;
        }
        k := k + 1;
      }
      return 1;
    }
  }

  /** The piece loop over one segment token. */
  method ReadEntry(tok: string) returns (info: SegmentInfo)
    ensures info == EntryOf(tok)
  {
    var pieces := SplitOn(tok, {'|'});
    var setFirst := false;
    info := ZeroInfo;
    var p := 0;
    while p < |pieces|
      invariant p <= |pieces|
      invariant setFirst <==> p > 0
      invariant info.id == 0
      invariant p > 0 ==> info.segType == ToU32(Atoi(pieces[0]))
      invariant p == 0 ==> info.segType == 0
      invariant info.validBlocks == if p > 1 then ToU32(Atoi(pieces[p - 1])) else 0
    {
      if !setFirst {
        info := info.(segType := ToU32(Atoi(pieces[p])));
        setFirst := true;
      } else {
        info := info.(validBlocks := ToU32(Atoi(pieces[p])));
      }
      p := p + 1;
    }
  }

  /** The piece loop of get_procfs_single_segment_bits, which also sets the id with every later piece. */
  method ReadSingleEntry(tok: string, segmentId: u32) returns (info: SegmentInfo)
    ensures info == SingleEntry(tok, segmentId)
  {
    var pieces := SplitOn(tok, {'|'});
    var setFirst := false;
    info := ZeroInfo;
    var p := 0;
    while p < |pieces|
      invariant p <= |pieces|
      invariant setFirst <==> p > 0
      invariant info.id == if p > 1 then segmentId else 0
      invariant p > 0 ==> info.segType == ToU32(Atoi(pieces[0]))
      invariant p == 0 ==> info.segType == 0
      invariant info.validBlocks == if p > 1 then ToU32(Atoi(pieces[p - 1])) else 0
    {
      if !setFirst {
        info := info.(segType := ToU32(Atoi(pieces[p])));
        setFirst := true;
      } else {
        info := info.(id := segmentId, validBlocks := ToU32(Atoi(pieces[p])));
      }
      p := p + 1;
    }
  }

  /** The token loop of get_procfs_single_segment_bits: skip segment tokens until the `remainder`-th. */
  method FindSegmentToken(toks: seq<string>, remainder: nat) returns (tok: Option<string>)
    ensures tok == NthEntry(toks, remainder)
  {
    var ctr := 0;
    var t := 0;
    while t < |toks|
      invariant t <= |toks| && ctr <= remainder
      invariant NthEntry(toks, remainder) == NthEntry(toks[t..], remainder - ctr)
    {
      assert toks[t..][0] == toks[t] && toks[t..][1..] == toks[t + 1..];
      if IsEntry(toks[t]) {
        if ctr != remainder {
          ctr := ctr + 1;
          t := t + 1;
          continue;
        }
        return Some(toks[t]);
      }
      t := t + 1;
    }
    return None;
  }
}

=== FILE: libjson.dfy ===
/**
  lib/libjson.c: the JSON dump of the segment mapping. The json-c tree is
  modelled as a value: an object is a map from key to value, and adding a
  key that is already there replaces its value, as json_object_object_add
  does. The order in which json-c prints keys is not modelled.
 */
module JsonDump {
  import opened Bits
  import opened Text
  import opened ZnsTools
  import Segmap

  /** The json-c values the dump builds. */
  datatype Json =
    | JString(s: string)
    | JInt(i: int)          // json_object_new_int: a 32-bit int
    | JBool(b: bool)
    | JDouble(d: nat)       // json_object_new_double of an integer value
    | JObject(fields: map<string, Json>)
    | JZoneInfo(zone: u32)  // the object json_get_zone_info builds from the device's zone report

  // ---------------------------------------------------------------------
  // The string formatters
  // ---------------------------------------------------------------------

  function HexChar(d: nat): (c: char)
    requires d < 16
    ensures HexCharValue(c) == d
  {
    if d < 10 then ('0' as int + d) as char else ('a' as int + d - 10) as char
  }

  function HexCharValue(c: char): nat {
    if '0' <= c <= '9' then c as int - '0' as int
    else if 'a' <= c <= 'f' then c as int - 'a' as int + 10
    else 0
  }

  /** `%x`: lower-case hexadecimal digits without leading zeros ("0" for zero). */
  function HexDigits(n: nat): (r: string)
    ensures |r| >= 1
  {
    if n < 16 then [HexChar(n)] else HexDigits(n / 16) + [HexChar(n % 16)]
  }

  /** The value of a string of hexadecimal digits. */
  function HexValue(s: string): nat {
    if s == [] then 0 else HexValue(s[..|s| - 1]) * 16 + HexCharValue(s[|s| - 1])
  }

  /** The digits read back as the value they were printed from. */
  lemma {:induction false} HexRoundTrip(n: nat)
    ensures HexValue(HexDigits(n)) == n
  {
    if n >= 16 {
      HexRoundTrip(n / 16);
      var s := HexDigits(n);
      assert s[..|s| - 1] == HexDigits(n / 16);
      assert HexCharValue(s[|s| - 1]) == n % 16;
    }
  }

  /** A value has at most `k` hexadecimal digits exactly when it is below 16^k. */
  lemma {:induction false} HexLength(n: nat, k: nat)
    requires k >= 1
    ensures |HexDigits(n)| <= k <==> n < Pow2(4 * k)
  {
    Pow2Step4(k);
    if n >= 16 {
      if k == 1 {
        assert Pow2(4) == 16;
        assert |HexDigits(n)| >= 2 by {
          assert |HexDigits(n / 16)| >= 1;
        }
      } else {
        HexLength(n / 16, k - 1);
      }
    }
  }

  lemma Pow2Step4(k: nat)
    requires k >= 1
    ensures Pow2(4 * k) == 16 * Pow2(4 * (k - 1))
  {
    Pow2Plus4(4 * (k - 1));
  }

  lemma Pow2Plus4(b: nat)
    ensures Pow2(b + 4) == 16 * Pow2(b)
  {
    var p := Pow2(b);
    assert Pow2(b + 1) == 2 * p;
    assert Pow2(b + 2) == 2 * Pow2(b + 1);
    assert Pow2(b + 3) == 2 * Pow2(b + 2);
    assert Pow2(b + 4) == 2 * Pow2(b + 3);
  }

  /** uint64_to_hex_string_cast: "0x%lx" into 15 bytes, so at most 14 characters. */
  function Hex64(v: u64): string {
    Truncate("0x" + HexDigits(v), 14)
  }

  /** uint32_to_hex_string_cast: "0x%x" into 11 bytes, so at most 10 characters. */
  function Hex32(v: u32): string {
    Truncate("0x" + HexDigits(v), 10)
  }

  /** uint32_to_string_cast: "%d" into 4 bytes, so at most 3 characters, the value read as a signed int. */
  function Dec32(v: u32): string {
    Truncate(SignedDecimal(AsInt32(v)), 3)
  }

  /** A 32-bit value always fits: the string is "0x" and all its digits, and reads back as the value. */
  lemma Hex32Exact(v: u32)
    ensures Hex32(v) == "0x" + HexDigits(v)
    ensures HexValue(Hex32(v)[2..]) == v
  {
    Pow2Of32();
    HexLength(v, 8);
    HexRoundTrip(v);
    assert Hex32(v)[2..] == HexDigits(v);
  }

  /**
    A 64-bit value is written whole exactly when it has at most twelve
    hexadecimal digits (below 2^48); then it reads back as the value.
   */
  lemma Hex64Exact(v: u64)
    ensures Hex64(v) == "0x" + HexDigits(v) <==> v < Pow2(48)
    ensures v < Pow2(48) ==> HexValue(Hex64(v)[2..]) == v
    ensures v >= Pow2(48) ==> |Hex64(v)| == 14 && Hex64(v) < "0x" + HexDigits(v)
  {
    HexLength(v, 12);
    HexRoundTrip(v);
    if v < Pow2(48) {
      assert Hex64(v)[2..] == HexDigits(v);
    }
  }

  /** Zone numbers below 1000 are written whole, and read back as the number. */
  lemma Dec32Small(v: u32)
    requires v < 1000
    ensures Dec32(v) == Decimal(v)
    ensures Atoi(Dec32(v)) == v
  {
    DecimalLength(v);
    AtoiDecimal(v, []);
    assert Decimal(v) + [] == Decimal(v);
  }

  lemma DecimalLength(n: nat)
    requires n < 1000
    ensures |Decimal(n)| <= 3
  {
    if n >= 10 {
      DecimalLength(n / 10);
      if n / 10 >= 10 {
        assert (n / 10) / 10 < 10;
      }
    }
  }

  /** Zones 100 and 1000 get the same key, so one's object replaces the other's. */
  lemma Dec32Collides()
    ensures Dec32(1000) == Dec32(100) == "100"
  {
    assert Decimal(1000) == Decimal(100) + "0";
    assert Decimal(100) == Decimal(10) + "0";
    assert Decimal(10) == "10";
  }

  /** Values from 2^31 are written as negative numbers. */
  lemma Dec32Negative(v: u32)
    requires v >= 0x8000_0000
    ensures Dec32(v)[0] == '-'
  {
  }

  // ---------------------------------------------------------------------
  // The configuration objects
  // ---------------------------------------------------------------------

  /** The fields of `struct bdev` the dump writes. */
  datatype Bdev = Bdev(devName: string, devPath: string, linkName: string, isZoned: bool,
                       nrZones: u32, zoneSize: u64, zoneMask: u32)

  /** A value passed to json_object_new_int, which takes a 32-bit int. */
  function Int32(x: nat): int {
    AsInt32(ToU32(x))
  }

  const F2fsMagic: u64 := 0xF2F52010
  const BtrfsMagic: u64 := 0x9123683E

  /** The keys every bdev object has, and those only a zoned device adds. */
  const BdevKeys: set<string> := {"dev_name", "dev_path", "link_name", "is_zoned"}
  const ZonedKeys: set<string> := {"nr_zones", "zone_size", "zone_mask", "sector_size", "sector_shift"}

  /**
    The object json_get_bdev writes for `bdev`: the names and the zoned
    flag, and for a zoned device the zone geometry and the sector size and
    shift of the control structure, each key with its value.
   */
  predicate IsBdevObject(j: Json, bdev: Bdev, sectorSize: nat, sectorShift: nat) {
    && j.JObject?
    && j.fields.Keys == (if bdev.isZoned then BdevKeys + ZonedKeys else BdevKeys)
    && j.fields["dev_name"] == JString(bdev.devName)
    && j.fields["dev_path"] == JString(bdev.devPath)
    && j.fields["link_name"] == JString(bdev.linkName)
    && j.fields["is_zoned"] == JBool(bdev.isZoned)
    && (bdev.isZoned ==>
          && j.fields["nr_zones"] == JInt(AsInt32(bdev.nrZones))
          && j.fields["zone_size"] == JInt(Int32(bdev.zoneSize))
          && j.fields["zone_mask"] == JString(Hex32(bdev.zoneMask))
          && j.fields["sector_size"] == JInt(Int32(sectorSize))
          && j.fields["sector_shift"] == JInt(Int32(sectorShift)))
  }

  /** json_get_bdev: the names and the zoned flag, and the zone geometry only for a zoned device. */
  method GetBdev(bdev: Bdev, sectorSize: nat, sectorShift: nat) returns (r: Json)
    ensures IsBdevObject(r, bdev, sectorSize, sectorShift)
  {
    var dev: map<string, Json> := map[];
    dev := dev["dev_name" := JString(bdev.devName)];
    dev := dev["dev_path" := JString(bdev.devPath)];
    dev := dev["link_name" := JString(bdev.linkName)];
    dev := dev["is_zoned" := JBool(bdev.isZoned)];
    if bdev.isZoned {
      dev := dev["nr_zones" := JInt(Int32(bdev.nrZones))];
      dev := dev["zone_size" := JInt(Int32(bdev.zoneSize))];
      var value := Hex32(bdev.zoneMask);
      dev := dev["zone_mask" := JString(value)];
      dev := dev["sector_size" := JInt(Int32(sectorSize))];
      dev := dev["sector_shift" := JInt(Int32(sectorShift))];
    }
    return JObject(dev);
  }

  const F2fsKeys: set<string> :=
    {"fs_magic", "fs", "f2fs_segment_sectors", "f2fs_segment_shift", "f2fs_segment_mask"}

  /**
    The object json_get_fs_info writes: the magic always; for F2FS the
    name and the segment geometry, for Btrfs the name alone.
   */
  predicate IsFsObject(j: Json, fsMagic: u64, g: Geometry) {
    && j.JObject?
    && j.fields.Keys == (if fsMagic == F2fsMagic then F2fsKeys
                         else if fsMagic == BtrfsMagic then {"fs_magic", "fs"}
                         else {"fs_magic"})
    && j.fields["fs_magic"] == JString(Hex64(fsMagic))
    && (fsMagic == F2fsMagic ==>
          && j.fields["fs"] == JString("F2FS")
          && j.fields["f2fs_segment_sectors"] == JDouble(g.segmentSectors)
          && j.fields["f2fs_segment_shift"] == JInt(Int32(g.segmentShift))
          && j.fields["f2fs_segment_mask"] == JString(Hex64(g.segmentMask)))
    && (fsMagic == BtrfsMagic ==> j.fields["fs"] == JString("Btrfs"))
  }

  /**
    json_get_fs_info: the magic always; the name with the segment
    geometry for F2FS, the name alone for Btrfs, and no name otherwise.
   */
  method GetFsInfo(fsMagic: u64, g: Geometry) returns (r: Json)
    ensures IsFsObject(r, fsMagic, g)
    ensures "fs" in r.fields <==> fsMagic == F2fsMagic || fsMagic == BtrfsMagic
  {
    var fs: map<string, Json> := map[];
    var value := Hex64(fsMagic);
    fs := fs["fs_magic" := JString(value)];
    if fsMagic == F2fsMagic {
      fs := fs["fs" := JString("F2FS")];
      fs := fs["f2fs_segment_sectors" := JDouble(g.segmentSectors)];
      fs := fs["f2fs_segment_shift" := JInt(Int32(g.segmentShift))];
      value := Hex64(g.segmentMask);
      fs := fs["f2fs_segment_mask" := JString(value)];
    } else if fsMagic == BtrfsMagic {
      fs := fs["fs" := JString("Btrfs")];
    }
    return JObject(fs);
  }

  /** json_get_ctrl_config: "dev-1" only with a separate block device; "dev-2" and "filesystem" always. */
  method GetCtrlConfig(multiDev: bool, bdev: Bdev, znsdev: Bdev, sectorSize: nat, sectorShift: nat,
                       fsMagic: u64, g: Geometry) returns (r: Json)
    ensures r.JObject?
    ensures r.fields.Keys == if multiDev then {"dev-1", "dev-2", "filesystem"} else {"dev-2", "filesystem"}
    ensures multiDev ==> IsBdevObject(r.fields["dev-1"], bdev, sectorSize, sectorShift)
    ensures IsBdevObject(r.fields["dev-2"], znsdev, sectorSize, sectorShift)
    ensures IsFsObject(r.fields["filesystem"], fsMagic, g)
  {
    assert "dev-1" != "dev-2" by { assert "dev-1"[4] != "dev-2"[4]; }
    assert "dev-1" != "filesystem" && "dev-2" != "filesystem" by { assert |"filesystem"| == 10; }
    var config: map<string, Json> := map[];
    if multiDev {
      var dev := GetBdev(bdev, sectorSize, sectorShift);
      config := config["dev-1" := dev];
    }
    var dev := GetBdev(znsdev, sectorSize, sectorShift);
    config := config["dev-2" := dev];
    var fs := GetFsInfo(fsMagic, g);
    config := config["filesystem" := fs];
    return JObject(config);
  }

  // ---------------------------------------------------------------------
  // json_dump_f2fs_zonemap
  // ---------------------------------------------------------------------

  /** The window of the dump: the same zone window as the segment report. */
  datatype Window = Window(g: Geometry, startLba: u64, endLba: u64)

  function WindowOf(g: Geometry, startZone: u32, endZone: u32, zoneSize: u64): Window {
    Window(g, Segmap.StartLba(startZone, zoneSize), Segmap.EndLba(endZone, zoneSize))
  }

  /** What walking one zone's list gives: the zone last entered and the zone's object, or a walk that never ends. */
  datatype Walk = Walked(current: u32, zone: map<string, Json>) | Endless

  /**
    The walk over one zone's extents: it stops at the first extent whose
    segment starts at or past the window's end; an extent whose segment
    starts before the window hits a `continue` that does not advance the
    list, after which the loop repeats the same test forever.
   */
  function WalkZone(w: Window, es: seq<Extent>, current: u32, zone: map<string, Json>): Walk
    decreases |es|
  {
    if es == [] then Walked(current, zone)
    else if Segmap.ExtentLba(w.g, es[0]) >= w.endLba then Walked(current, zone)
    else if Segmap.ExtentLba(w.g, es[0]) < w.startLba then Endless
    else if current != es[0].zone then WalkZone(w, es[1..], es[0].zone, zone["zone_info" := JZoneInfo(es[0].zone)])
    else WalkZone(w, es[1..], current, zone)
  }

  /** The outcome of the dump: the "zonemap" object, or a dump that never ends. */
  datatype Dump = Dumped(zonemap: map<string, Json>) | Hangs

  /** The zones from index `i` on, with the zone last entered and the object built so far. */
  function DumpFrom(w: Window, zones: seq<Zone>, i: nat, current: u32, zonemap: map<string, Json>): Dump
    decreases |zones| - i
  {
    if i >= |zones| then Dumped(zonemap)
    else if zones[i].extentCtr == 0 then DumpFrom(w, zones, i + 1, current, zonemap)
    else match WalkZone(w, zones[i].extents, current, map[])
      case Endless => Hangs
      case Walked(cur, zone) => DumpFrom(w, zones, i + 1, cur, zonemap[Dec32(cur) := JObject(zone)])
  }

  /**
    The walk reaches an extent whose segment starts before the window,
    with no extent past the window's end before it.
   */
  predicate ReachesBelow(w: Window, es: seq<Extent>)
    decreases |es|
  {
    && es != []
    && Segmap.ExtentLba(w.g, es[0]) < w.endLba
    && (Segmap.ExtentLba(w.g, es[0]) < w.startLba || ReachesBelow(w, es[1..]))
  }

  /** A zone's walk never ends exactly when it reaches an extent before the window. */
  lemma {:induction false} WalkEndlessIff(w: Window, es: seq<Extent>, current: u32, zone: map<string, Json>)
    ensures WalkZone(w, es, current, zone).Endless? <==> ReachesBelow(w, es)
    decreases |es|
  {
    if es != [] {
      var lba := Segmap.ExtentLba(w.g, es[0]);
      if w.startLba <= lba < w.endLba {
        var cur := if current != es[0].zone then es[0].zone else current;
        var z := if current != es[0].zone then zone["zone_info" := JZoneInfo(es[0].zone)] else zone;
        WalkEndlessIff(w, es[1..], cur, z);
      }
    }
  }

  /** A walk that ends leaves the zone it started in, or the zone of an extent it showed. */
  lemma {:induction false} WalkCurrent(w: Window, es: seq<Extent>, current: u32, zone: map<string, Json>)
    requires WalkZone(w, es, current, zone).Walked?
    ensures var c := WalkZone(w, es, current, zone).current;
      c == current || exists k | 0 <= k < |es| :: es[k].zone == c
    decreases |es|
  {
    if es != [] && Segmap.ExtentLba(w.g, es[0]) < w.endLba && Segmap.ExtentLba(w.g, es[0]) >= w.startLba {
      var cur := if current != es[0].zone then es[0].zone else current;
      var z := if current != es[0].zone then zone["zone_info" := JZoneInfo(es[0].zone)] else zone;
      WalkCurrent(w, es[1..], cur, z);
      var c := WalkZone(w, es, current, zone).current;
      if c != current && c != cur {
        var k :| 0 <= k < |es[1..]| && es[1..][k].zone == c;
        assert es[k + 1].zone == c;
      }
    }
  }

  /**
    A zone whose first extent is past the window's end adds an empty
    object under the key of the zone last entered, replacing what an
    earlier zone stored there.
   */
  lemma PastEndReplacesEarlierZone(w: Window, zones: seq<Zone>, i: nat, current: u32, zonemap: map<string, Json>)
    requires i < |zones| && zones[i].extentCtr != 0 && zones[i].extents != []
    requires Segmap.ExtentLba(w.g, zones[i].extents[0]) >= w.endLba
    ensures DumpFrom(w, zones, i, current, zonemap)
            == DumpFrom(w, zones, i + 1, current, zonemap[Dec32(current) := JObject(map[])])
  {
  }

  /** Zones with no extents add nothing to the dump. */
  lemma EmptyZoneSkipped(w: Window, zones: seq<Zone>, i: nat, current: u32, zonemap: map<string, Json>)
    requires i < |zones| && zones[i].extentCtr == 0
    ensures DumpFrom(w, zones, i, current, zonemap) == DumpFrom(w, zones, i + 1, current, zonemap)
  {
  }

  /** The dump never ends exactly when some zone with extents reaches an extent before the window. */
  lemma {:induction false} DumpHangsIff(w: Window, zones: seq<Zone>, i: nat, current: u32, zonemap: map<string, Json>)
    ensures DumpFrom(w, zones, i, current, zonemap).Hangs?
            <==> exists k | i <= k < |zones| :: zones[k].extentCtr != 0 && ReachesBelow(w, zones[k].extents)
    decreases |zones| - i
  {
    if i < |zones| {
      if zones[i].extentCtr == 0 {
        DumpHangsIff(w, zones, i + 1, current, zonemap);
      } else {
        WalkEndlessIff(w, zones[i].extents, current, map[]);
        match WalkZone(w, zones[i].extents, current, map[])
        case Endless =>
        case Walked(cur, zone) =>
          DumpHangsIff(w, zones, i + 1, cur, zonemap[Dec32(cur) := JObject(zone)]);
      }
    }
  }

  /** The extent walk of json_dump_f2fs_zonemap over one zone's list. */
  method DumpZone(w: Window, es: seq<Extent>, current0: u32) returns (r: Walk)
    ensures r == WalkZone(w, es, current0, map[])
  {
    var zone: map<string, Json> := map[];
    var current := current0;
    var k := 0;
    while k < |es|
      invariant k <= |es|
      invariant WalkZone(w, es, current0, map[]) == WalkZone(w, es[k..], current, zone)
    {
      assert es[k..][0] == es[k] && es[k..][1..] == es[k + 1..];
      var segmentLba := Segmap.ExtentLba(w.g, es[k]);
      if segmentLba >= w.endLba {
        break;
      }
      if segmentLba < w.startLba {
        return Endless;
      }
      if current != es[k].zone {
        current := es[k].zone;
        zone := zone["zone_info" := JZoneInfo(current)];
      }
      k := k + 1;
    }
    return Walked(current, zone);
  }

  /** json_dump_f2fs_zonemap: the "zonemap" object, one key per zone with extents. */
  method DumpZonemap(w: Window, zones: seq<Zone>) returns (r: Dump)
    ensures r == DumpFrom(w, zones, 0, 0, map[])
  {
    var zonemap: map<string, Json> := map[];
    var current: u32 := 0;
    var i := 0;
    while i < |zones|
      invariant i <= |zones|
      invariant DumpFrom(w, zones, 0, 0, map[]) == DumpFrom(w, zones, i, current, zonemap)
    {
      if zones[i].extentCtr == 0 {
        i := i + 1;
        continue;
      }
      var walk := DumpZone(w, zones[i].extents, current);
      if walk.Endless? {
        return Hangs;
      }
      current := walk.current;
      var value := Dec32(current);
      zonemap := zonemap[value := JObject(walk.zone)];
      i := i + 1;
    }
    return Dumped(zonemap);
  }
}

=== FILE: segmap.dfy ===
/**
  src/segmap.c: zns.segmap lists, for the extents of a file or a directory
  on F2FS, the segments they occupy, inside a window of zones, and counts
  the segments by heat class (hot, warm, cold data) for the directory and
  per file.

  The extents arrive sorted (sort_extents), and the segment types come
  from the procfs `segment_info` table; both are inputs here. What the
  report prints is modelled as the sequence of its "EXTENT" rows.
 */
module Segmap {
  import opened Wrappers
  import opened Bits
  import opened Text
  import opened ZnsTools
  import opened Extents

  // ---------------------------------------------------------------------
  // Segment counters (set_segment_counters, get_file_stats_index)
  // ---------------------------------------------------------------------

  /** A segment counter and its split by heat class. */
  datatype Counters = Counters(segmentCtr: nat, coldCtr: nat, warmCtr: nat, hotCtr: nat)

  /** The heat-classified segments never outnumber the segments counted. */
  predicate HeatWithin(c: Counters) {
    c.coldCtr + c.warmCtr + c.hotCtr <= c.segmentCtr
  }

  /**
    The switch of set_segment_counters: `n` more segments for the heat
    counter of a data segment type; node types have no heat counter.
   */
  function AddHeat(c: Counters, segType: nat, n: nat): Counters {
    if segType == CursegColdData then c.(coldCtr := c.coldCtr + n)
    else if segType == CursegWarmData then c.(warmCtr := c.warmCtr + n)
    else if segType == CursegHotData then c.(hotCtr := c.hotCtr + n)
    else c
  }

  /**
    Count `n` more segments of type `segType`: all of them go to the
    segment counter, and to the heat counter of a data type; node
    segments have no heat counter.
   */
  function AddSegments(c: Counters, segType: nat, n: nat): (r: Counters)
    ensures r.segmentCtr == c.segmentCtr + n
    ensures r.coldCtr + r.warmCtr + r.hotCtr
            == c.coldCtr + c.warmCtr + c.hotCtr + (if segType <= CursegColdData then n else 0)
    ensures r.coldCtr >= c.coldCtr && r.warmCtr >= c.warmCtr && r.hotCtr >= c.hotCtr
    ensures (r.coldCtr != c.coldCtr ==> segType == CursegColdData)
            && (r.warmCtr != c.warmCtr ==> segType == CursegWarmData)
            && (r.hotCtr != c.hotCtr ==> segType == CursegHotData)
    ensures HeatWithin(c) ==> HeatWithin(r)
  {
    AddHeat(c.(segmentCtr := c.segmentCtr + n), segType, n)
  }

  /** A segment type not in the procfs table. */
  const Unclassified: nat := 6

  /** The type of a segment, from the procfs `segment_info` table. */
  function SegType(types: seq<nat>, segmentId: nat): nat {
    if segmentId < |types| then types[segmentId] else Unclassified
  }

  /** The per-file statistics of segmap_man.fs. */
  datatype FileStats = FileStats(filename: string, counts: Counters, zoneCtr: nat, lastZone: u32)

  /** strncmp(stored, name, MAX_FILE_LENGTH) == 0: the names agree on their first 50 characters. */
  predicate SameName(stored: string, name: string) {
    Truncate(stored, MaxFileLength) == Truncate(name, MaxFileLength)
  }

  /** The first entry named `name`. */
  function FindName(fs: seq<FileStats>, name: string): (r: Option<nat>)
    ensures r.Some? ==> r.value < |fs| && SameName(fs[r.value].filename, name)
    ensures r.Some? ==> forall j | 0 <= j < r.value :: !SameName(fs[j].filename, name)
    ensures r.None? ==> forall j | 0 <= j < |fs| :: !SameName(fs[j].filename, name)
  {
    if fs == [] then None
    else if SameName(fs[0].filename, name) then Some(0)
    else
      var rest := FindName(fs[1..], name);
      assert forall j | 1 <= j < |fs| :: fs[j] == fs[1..][j - 1];
      if rest.None? then None else Some(rest.value + 1)
  }

  /** The entry get_file_stats_index creates: the first 50 characters of the name, counters zero. */
  function NewStats(name: string): FileStats {
    FileStats(Truncate(name, MaxFileLength), Counters(0, 0, 0, 0), 0, 0)
  }

  /** The first entry carrying the name is the one found. */
  lemma {:induction false} FindNameAt(fs: seq<FileStats>, name: string, k: nat)
    requires k < |fs| && SameName(fs[k].filename, name)
    requires forall j | 0 <= j < k :: !SameName(fs[j].filename, name)
    ensures FindName(fs, name) == Some(k)
  {
    if k > 0 {
      assert forall j | 0 <= j < k - 1 :: fs[1..][j] == fs[j + 1];
      FindNameAt(fs[1..], name, k - 1);
    }
  }

  /** The entry the first lookup of a name creates is the one later lookups find. */
  lemma FindNewName(fs: seq<FileStats>, name: string)
    requires FindName(fs, name).None?
    ensures FindName(fs + [NewStats(name)], name) == Some(|fs|)
  {
    var r := fs + [NewStats(name)];
    assert r[|fs|] == NewStats(name);
    assert forall j | 0 <= j < |fs| :: r[j] == fs[j];
    FindNameAt(r, name, |fs|);
  }

  /**
    One file's statistics after set_segment_counters: `n` segments of
    type `segType` in zone `zone`; the zone counter moves only when the
    zone differs from the last one counted for that file.
   */
  function Track(s: FileStats, zone: u32, segType: nat, n: nat): (r: FileStats)
    ensures r.filename == s.filename && r.lastZone == zone
    ensures r.counts == AddSegments(s.counts, segType, n)
    ensures s.lastZone == zone <==> r.zoneCtr == s.zoneCtr
  {
    var s2 := Touch(s, zone, n);
    s2.(counts := AddHeat(s2.counts, segType, n))
  }

  /** The part of Track before the heat switch: the segments, and a zone change. */
  function Touch(s: FileStats, zone: u32, n: nat): FileStats {
    var s1 := s.(counts := s.counts.(segmentCtr := s.counts.segmentCtr + n));
    if s1.lastZone != zone then s1.(lastZone := zone, zoneCtr := s1.zoneCtr + 1) else s1
  }

  /** A second batch in the same zone does not count the zone again. */
  lemma TrackSameZone(s: FileStats, zone: u32, t1: nat, n1: nat, t2: nat, n2: nat)
    ensures Track(Track(s, zone, t1, n1), zone, t2, n2).zoneCtr == Track(s, zone, t1, n1).zoneCtr
    ensures Track(s, zone, t1, n1).zoneCtr <= s.zoneCtr + 1
  {
  }

  /** The per-file table after set_segment_counters for an extent of file `name`. */
  function Tracked(fs: seq<FileStats>, name: string, zone: u32, segType: nat, n: nat): seq<FileStats> {
    match FindName(fs, name)
    case Some(j) => fs[j := Track(fs[j], zone, segType, n)]
    case None => fs + [Track(NewStats(name), zone, segType, n)]
  }

  /**
    Counting for a file is an update of its entry in the table that
    get_file_stats_index leaves behind.
   */
  lemma TrackedIsUpdate(fs0: seq<FileStats>, name: string, zone: u32, segType: nat, n: nat,
                        fs1: seq<FileStats>, i: nat)
    requires fs1 == if FindName(fs0, name).Some? then fs0 else fs0 + [NewStats(name)]
    requires FindName(fs1, name) == Some(i)
    ensures i < |fs1| && Tracked(fs0, name, zone, segType, n) == fs1[i := Track(fs1[i], zone, segType, n)]
  {
    if FindName(fs0, name).None? {
      FindNewName(fs0, name);
    }
  }

  /** The sum of the per-file segment counters. */
  function SegmentSum(fs: seq<FileStats>): nat {
    if fs == [] then 0 else SegmentSum(fs[..|fs| - 1]) + fs[|fs| - 1].counts.segmentCtr
  }

  /** Every file's heat counters are within its segment counter. */
  predicate AllWithin(fs: seq<FileStats>) {
    forall j | 0 <= j < |fs| :: HeatWithin(fs[j].counts)
  }

  lemma {:induction false} SegmentSumUpdate(fs: seq<FileStats>, j: nat, s: FileStats)
    requires j < |fs|
    ensures SegmentSum(fs[j := s]) + fs[j].counts.segmentCtr == SegmentSum(fs) + s.counts.segmentCtr
  {
    var last := |fs| - 1;
    if j < last {
      assert fs[j := s][..last] == fs[..last][j := s];
      SegmentSumUpdate(fs[..last], j, s);
    } else {
      assert fs[j := s][..last] == fs[..last];
    }
  }

  /**
    Counting segments for a file keeps its entry findable: the entry
    found before, or a new one at the end for a name not yet in the table.
   */
  lemma TrackedFinds(fs: seq<FileStats>, name: string, zone: u32, segType: nat, n: nat)
    ensures var r := Tracked(fs, name, zone, segType, n);
      FindName(r, name) == Some(if FindName(fs, name).Some? then FindName(fs, name).value else |fs|)
      && |r| == |fs| + (if FindName(fs, name).Some? then 0 else 1)
  {
    var r := Tracked(fs, name, zone, segType, n);
    match FindName(fs, name)
    case Some(j) =>
      FindNameAt(r, name, j);
    case None =>
      assert r[..|fs|] == fs;
      FindNameAt(r, name, |fs|);
  }

  /** Counting segments for a file adds exactly `n` to the per-file segment sum. */
  lemma TrackedSum(fs: seq<FileStats>, name: string, zone: u32, segType: nat, n: nat)
    ensures SegmentSum(Tracked(fs, name, zone, segType, n)) == SegmentSum(fs) + n
  {
    var r := Tracked(fs, name, zone, segType, n);
    match FindName(fs, name)
    case Some(j) =>
      SegmentSumUpdate(fs, j, Track(fs[j], zone, segType, n));
    case None =>
      assert r[..|fs|] == fs;
  }

  /** Counting segments keeps every file's heat counters within its segment counter. */
  lemma TrackedWithin(fs: seq<FileStats>, name: string, zone: u32, segType: nat, n: nat)
    requires AllWithin(fs)
    ensures AllWithin(Tracked(fs, name, zone, segType, n))
  {
    match FindName(fs, name)
    case Some(j) =>
      var t := Track(fs[j], zone, segType, n);
      assert HeatWithin(fs[j].counts);
      assert HeatWithin(t.counts);
    case None =>
      var t := Track(NewStats(name), zone, segType, n);
      assert HeatWithin(NewStats(name).counts);
      assert HeatWithin(t.counts);
      var r := fs + [t];
      assert forall j | 0 <= j < |fs| :: r[j] == fs[j];
  }

  // ---------------------------------------------------------------------
  // Segment arithmetic of show_segment_report and its helpers
  // ---------------------------------------------------------------------

  /** `x & f2fs_segment_mask`: the start of the segment holding `x`. */
  function SegmentStart(g: Geometry, x: nat): nat {
    And(x, g.segmentMask)
  }

  /** `(x & f2fs_segment_mask) >> segment_shift`: the segment holding `x`. */
  function SegmentOf(g: Geometry, x: nat): nat {
    Shr(SegmentStart(g, x), g.segmentShift)
  }

  /** `x << segment_shift`: the first sector of segment `x`. */
  function SegmentLba(g: Geometry, x: int): int {
    x * Pow2(g.segmentShift)
  }

  /**
    The test of show_segment_report for an extent that needs one row:
    its start and end mask to the same segment, or it ends exactly at
    the end of its first segment.
   */
  predicate SingleSegment(g: Geometry, e: Extent) {
    var start := SegmentStart(g, e.phyBlk);
    var end := e.phyBlk + e.len;
    start == SegmentStart(g, end) || end == start + Shr(F2fsSegmentBytes, g.sectorShift)
  }

  /** One "EXTENT" row of the report: PBAS, PBAE and SIZE. */
  datatype Row = Row(pbas: int, pbae: int, size: int)

  /** One call of set_segment_counters: its segment id and number of segments, both uint32_t. */
  datatype Call = Call(segmentId: u32, numSegments: u32)

  /** What showing one extent produces: its rows, its counter calls, and the new `cur_segment`. */
  datatype Plan = Plan(rows: seq<Row>, calls: seq<Call>, cur: int)

  /**
    The rows and counter calls for one extent from PBAS `phy` to PBAE
    `end`, given the values show_segment_report masks out of them: the
    segment `segId` holding PBAS and its start `start`, the segment `last`
    holding PBAE and its start `endStart`, the segment size `m`, the unit
    `unit` of `segment_id << segment_shift`, and whether the extent fits
    one row. An extent in one segment gets one row, and a call when its
    segment is not the current one. A longer extent is cut into the part
    in its first segment (show_beginning_segment, when it starts inside
    that segment), the run of segments after it
    (show_consecutive_segments), and the part in its last segment
    (show_remainder_segment, when it ends inside that segment).
   */
  function PlanOf(phy: int, end: int, cur: int, m: int, unit: int,
                  segId: int, start: int, last: int, endStart: int, single: bool): Plan
  {
    if single then
      Plan([Row(phy, end, end - phy)],
           if segId != cur then [Call(ToU32(segId), 1)] else [],
           if segId != cur then segId else cur)
    else
      var p1 := BeginPart(phy, m, segId, start, cur);
      var first := if phy != start then segId + 1 else segId;
      var p2 := RunPart(phy, m, unit, first, last, p1.cur);
      Then(Then(p1, p2), RestPart(end, unit, last, endStart, p2.cur))
  }

  /** One part of a plan followed by the next. */
  function Then(p: Plan, q: Plan): Plan {
    Plan(p.rows + q.rows, p.calls + q.calls, q.cur)
  }

  /**
    show_beginning_segment and its counter call, for an extent starting
    inside its segment: the row from PBAS to the segment's end, which
    makes that segment current.
   */
  function BeginPart(phy: int, m: int, segId: int, start: int, cur: int): Plan {
    if phy != start then Plan([Row(phy, start + m, start + m - phy)], [Call(ToU32(segId), 1)], segId)
    else Plan([], [], cur)
  }

  /**
    show_consecutive_segments: the row for the segments from `first` up
    to `last`, counted as `last - first + 1` segments; a run of one
    segment becomes the current segment.
   */
  function RunPart(phy: int, m: int, unit: int, first: int, last: int, cur: int): Plan {
    var num := last - first;
    Plan(if num == 1 then [Row(phy, last * unit, m)] else [Row(first * unit, last * unit, num * m)],
         [Call(ToU32(first), ToU32(num + 1))],
         if num == 1 then first else cur)
  }

  /**
    show_remainder_segment and its counter call, for an extent ending
    inside segment `last`: the row from that segment's start to PBAE,
    which makes that segment current.
   */
  function RestPart(end: int, unit: int, last: int, endStart: int, cur: int): Plan {
    if endStart != end then
      var lastStart := last * unit;
      var remainder := end - lastStart;
      Plan([Row(lastStart, lastStart + remainder, remainder)], [Call(ToU32(last), 1)], last)
    else Plan([], [], cur)
  }

  /** The plan show_segment_report follows for extent `e` when `cur` is the current segment. */
  function ExtentPlan(g: Geometry, e: Extent, cur: int): Plan {
    var end := e.phyBlk + e.len;
    PlanOf(e.phyBlk, end, cur, g.segmentSectors, Pow2(g.segmentShift),
           SegmentOf(g, e.phyBlk), SegmentStart(g, e.phyBlk), SegmentOf(g, end), SegmentStart(g, end),
           SingleSegment(g, e))
  }

  /**
    The rows run forward from `from` to `to`: each row's SIZE is not
    negative and its PBAE less its SIZE is where the previous one ended.
   */
  predicate Chain(rows: seq<Row>, from: int, to: int)
    decreases |rows|
  {
    if rows == [] then from == to
    else 0 <= rows[0].size && rows[0].pbae - rows[0].size == from
         && Chain(rows[1..], rows[0].pbae, to)
  }

  function SizeSum(rows: seq<Row>): int
    decreases |rows|
  {
    if rows == [] then 0 else rows[0].size + SizeSum(rows[1..])
  }

  /** Chained rows have sizes adding up to the distance they cover. */
  lemma {:induction false} ChainSizes(rows: seq<Row>, from: int, to: int)
    requires Chain(rows, from, to)
    ensures SizeSum(rows) == to - from
    decreases |rows|
  {
    if rows != [] {
      ChainSizes(rows[1..], rows[0].pbae, to);
    }
  }

  /** Rows from `x` to `y` followed by rows from `y` to `z` run from `x` to `z`. */
  lemma {:induction false} ChainAppend(a: seq<Row>, b: seq<Row>, x: int, y: int, z: int)
    requires Chain(a, x, y) && Chain(b, y, z)
    ensures Chain(a + b, x, z)
    decreases |a|
  {
    if a != [] {
      assert (a + b)[0] == a[0];
      assert (a + b)[1..] == a[1..] + b;
      ChainAppend(a[1..], b, a[0].pbae, y, z);
    } else {
      assert a + b == b;
    }
  }

  /**
    The geometry init_znsdev sets up: a segment is 2^segment_shift
    sectors, F2FS_SEGMENT_BYTES >> sector_shift of them, and the segment
    mask clears the offset inside a segment.
   */
  predicate DeviceGeometry(g: Geometry) {
    && g.segmentShift < 64
    && g.segmentSectors == Pow2(g.segmentShift)
    && g.segmentMask == TWO64 - g.segmentSectors
    && Shr(F2fsSegmentBytes, g.sectorShift) == g.segmentSectors
  }

  /** init_znsdev gives such a geometry for any sector size. */
  lemma InitShiftsGeometry(sectorSize: nat)
    ensures DeviceGeometry(InitShifts(sectorSize))
  {
  }

  /** The segment start and id of `x`, as divisions by the segment size. */
  lemma SegmentOfQuotient(g: Geometry, x: u64)
    requires DeviceGeometry(g)
    ensures g.segmentSectors > 0
    ensures SegmentStart(g, x) == (x / g.segmentSectors) * g.segmentSectors
    ensures SegmentOf(g, x) == x / g.segmentSectors
  {
    var k := g.segmentShift;
    var m := g.segmentSectors;
    LowMask64(k);
    RoundDown64(x, k);
    var v := (x / m) * m;
    assert SegmentStart(g, x) == v;
    DivModUnique(v, m, x / m, 0);
  }

  /** `x / m == q` from the bounds of `x`. */
  lemma DivIs(x: int, m: int, q: int)
    requires m > 0 && q * m <= x < (q + 1) * m
    ensures x / m == q && x % m == x - q * m
  {
    DivModUnique(x, m, q, x - q * m);
  }

  /**
    For blocks p < end and segments of m sectors: end lies in p's segment
    or is that segment's end exactly when end - 1 lies in p's segment.
   */
  lemma SameSegmentIff(p: nat, end: nat, m: nat)
    requires m > 0 && p < end
    ensures (p / m == end / m || end == (p / m) * m + m) <==> p / m == (end - 1) / m
  {
    var q := p / m;
    DivModIdentity(p, m);
    if p / m == end / m || end == q * m + m {
      LastInSegment(end, m, q);
    }
    if q == (end - 1) / m {
      EndInSegment(end, m, q);
    }
  }

  lemma LastInSegment(end: nat, m: nat, q: nat)
    requires m > 0 && q * m < end && (end / m == q || end == q * m + m)
    ensures (end - 1) / m == q
  {
    if end / m == q {
      DivModIdentity(end, m);
    }
    DivIs(end - 1, m, q);
  }

  lemma EndInSegment(end: nat, m: nat, q: nat)
    requires m > 0 && 0 < end && (end - 1) / m == q
    ensures end / m == q || end == q * m + m
  {
    DivModIdentity(end - 1, m);
    if end < q * m + m {
      DivIs(end, m, q);
    }
  }

  /**
    An extent of non-zero length that does not wrap past 2^64 - 1 is
    shown in one row exactly when its first and last sectors lie in the
    same segment.
   */
  lemma SingleSegmentIff(g: Geometry, e: Extent)
    requires DeviceGeometry(g)
    requires e.len > 0 && e.phyBlk + e.len < TWO64
    ensures SingleSegment(g, e) <==>
            e.phyBlk / g.segmentSectors == (e.phyBlk + e.len - 1) / g.segmentSectors
  {
    var m := g.segmentSectors;
    var end := e.phyBlk + e.len;
    SegmentOfQuotient(g, e.phyBlk);
    SegmentOfQuotient(g, end);
    MulCancel(e.phyBlk / m, end / m, m);
    SameSegmentIff(e.phyBlk, end, m);
  }

  lemma MulCancel(a: int, b: int, m: int)
    requires m > 0
    ensures a * m == b * m <==> a == b
  {
    if a * m == b * m {
      assert (a - b) * m == 0;
    }
  }

  /**
    For blocks p <= end in different segments, with end not the end of
    p's segment: end's segment is later, and when p is not a segment start
    end is in a segment after the next one or is not a segment start.
   */
  lemma LaterSegment(p: nat, end: nat, m: nat)
    requires m > 0 && p <= end
    requires p / m != end / m && end != (p / m) * m + m
    ensures end / m > p / m && (p / m + 1) * m <= end
    ensures p != (p / m) * m ==> end / m > p / m + 1 || end % m != 0
  {
    var s := p / m;
    DivIs(p, m, s);
    var l := end / m;
    DivIs(end, m, l);
    QuotientMonotone(p, end, m);
  }

  /** Division by a positive segment size keeps the order of blocks. */
  lemma {:induction false} QuotientMonotone(a: int, b: int, m: int)
    requires m > 0 && a <= b
    ensures a / m <= b / m
    decreases b - a
  {
    if a < b {
      QuotientMonotone(a, b - 1, m);
      QuotientStep(b - 1, m);
    }
  }

  /** The next block lies in the same segment or the next one. */
  lemma QuotientStep(x: int, m: int)
    requires m > 0
    ensures x / m <= (x + 1) / m
  {
    var q, r := x / m, x % m;
    DivModIdentity(x, m);
    if r + 1 < m {
      DivModUnique(x + 1, m, q, r + 1);
    } else {
      assert (q + 1) * m == q * m + m;
      DivModUnique(x + 1, m, q + 1, 0);
    }
  }

  /** The segment facts the plan of a longer extent rests on. */
  lemma MultiFacts(g: Geometry, e: Extent)
    requires DeviceGeometry(g)
    requires e.phyBlk + e.len < TWO64 && !SingleSegment(g, e)
    ensures var m := g.segmentSectors; var s := e.phyBlk / m; var end := e.phyBlk + e.len;
      m > 0 && end / m > s
      && (e.phyBlk != SegmentStart(g, e.phyBlk) ==> end / m > s + 1 || end % m != 0)
      && (s + 1) * m <= end
      && SegmentStart(g, e.phyBlk) == s * m && SegmentOf(g, e.phyBlk) == s
      && SegmentStart(g, end) == (end / m) * m && SegmentOf(g, end) == end / m
  {
    var m := g.segmentSectors;
    var end := e.phyBlk + e.len;
    SegmentOfQuotient(g, e.phyBlk);
    SegmentOfQuotient(g, end);
    MulCancel(e.phyBlk / m, end / m, m);
    LaterSegment(e.phyBlk, end, m);
  }

  /**
    The masked values of an extent from `phy` to `end` that needs more
    than one row, as quotients: it starts in segment `s` and its end lies
    in segment `l`, a later one; when it starts inside segment `s`, it
    does not end exactly where segment `s` ends.
   */
  predicate MultiCuts(phy: int, end: int, m: int, s: int, l: int) {
    && m > 0 && 0 <= phy && s * m <= phy < s * m + m && l * m <= end < l * m + m
    && s < l && (s + 1) * m <= end
    && (phy != s * m && l == s + 1 ==> end != l * m)
  }

  /** The masked values of a longer extent, under the geometry init_znsdev sets up. */
  lemma MultiCutsOf(g: Geometry, e: Extent)
    requires DeviceGeometry(g)
    requires e.phyBlk + e.len < TWO64 && !SingleSegment(g, e)
    ensures g.segmentSectors > 0
    ensures var m := g.segmentSectors; var end := e.phyBlk + e.len;
      MultiCuts(e.phyBlk, end, m, e.phyBlk / m, end / m)
  {
    var m := g.segmentSectors;
    var end := e.phyBlk + e.len;
    MultiFacts(g, e);
    QuotientBounds(e.phyBlk, m);
    QuotientBounds(end, m);
  }

  /** `x` lies in the segment of `m` sectors numbered `x / m`. */
  lemma QuotientBounds(x: int, m: int)
    requires m > 0
    ensures (x / m) * m <= x < (x / m) * m + m
    ensures x % m == x - (x / m) * m
  {
    DivModIdentity(x, m);
  }

  /** The plan of a longer extent, in terms of the quotients of its ends by the segment size. */
  lemma MultiPlanOf(g: Geometry, e: Extent, cur: int)
    requires DeviceGeometry(g)
    requires e.phyBlk + e.len < TWO64 && !SingleSegment(g, e)
    ensures g.segmentSectors > 0
    ensures var m := g.segmentSectors; var end := e.phyBlk + e.len;
      ExtentPlan(g, e, cur)
      == PlanOf(e.phyBlk, end, cur, m, m, e.phyBlk / m, (e.phyBlk / m) * m, end / m, (end / m) * m, false)
  {
    var m := g.segmentSectors;
    var end := e.phyBlk + e.len;
    MultiFacts(g, e);
    var s, start, l, endStart := SegmentOf(g, e.phyBlk), SegmentStart(g, e.phyBlk), SegmentOf(g, end), SegmentStart(g, end);
    assert s == e.phyBlk / m && start == (e.phyBlk / m) * m;
    assert l == end / m && endStart == (end / m) * m;
    assert Pow2(g.segmentShift) == m;
  }

  /** `a * m - b * m == (a - b) * m`. */
  lemma MulSub(a: int, b: int, m: int)
    ensures a * m - b * m == (a - b) * m
  {
  }

  /** The rows of a longer extent chain from its PBAS to its PBAE. */
  lemma MultiRowsChain(phy: int, end: int, cur: int, m: int, s: int, l: int)
    requires MultiCuts(phy, end, m, s, l)
    ensures Chain(PlanOf(phy, end, cur, m, m, s, s * m, l, l * m, false).rows, phy, end)
  {
    var sm, lm := s * m, l * m;
    var begin := phy != sm;
    var first := if begin then s + 1 else s;
    var fm := first * m;
    MulSub(first, s, m);
    assert fm == if begin then sm + m else sm;
    MulSub(l, first, m);
    if l - first >= 1 {
      MulAtLeast(l - first, m);
    }
    var rows1 := if begin then [Row(phy, sm + m, sm + m - phy)] else [];
    var rows2 := if l - first == 1 then [Row(phy, lm, m)]
                 else [Row(fm, lm, (l - first) * m)];
    assert Chain(rows1, phy, fm);
    assert Chain(rows2, fm, lm);
    ChainAppend(rows1, rows2, phy, fm, lm);
    if end != lm {
      var rest := [Row(lm, end, end - lm)];
      assert Chain(rest, lm, end);
      ChainAppend(rows1 + rows2, rest, phy, lm, end);
      assert PlanOf(phy, end, cur, m, m, s, sm, l, lm, false).rows == rows1 + rows2 + rest;
    } else {
      assert PlanOf(phy, end, cur, m, m, s, sm, l, lm, false).rows == rows1 + rows2;
    }
  }

  /**
    The rows of an extent that does not wrap past 2^64 - 1 chain from its
    PBAS to its PBAE, so their sizes add up to its length: no sector is
    left out or shown twice.
   */
  lemma PlanRowsCover(g: Geometry, e: Extent, cur: int)
    requires DeviceGeometry(g)
    requires e.phyBlk + e.len < TWO64
    ensures Chain(ExtentPlan(g, e, cur).rows, e.phyBlk, e.phyBlk + e.len)
    ensures SizeSum(ExtentPlan(g, e, cur).rows) == e.len
  {
    var p := ExtentPlan(g, e, cur);
    var end := e.phyBlk + e.len;
    if !SingleSegment(g, e) {
      var m := g.segmentSectors;
      MultiCutsOf(g, e);
      MultiPlanOf(g, e, cur);
      MultiRowsChain(e.phyBlk, end, cur, m, e.phyBlk / m, end / m);
    } else {
      assert p.rows == [Row(e.phyBlk, end, e.len)];
    }
    ChainSizes(p.rows, e.phyBlk, end);
  }

  /** The number of segments the counter calls add up. */
  function CallSum(calls: seq<Call>): nat
    decreases |calls|
  {
    if calls == [] then 0 else calls[0].numSegments + CallSum(calls[1..])
  }

  lemma {:induction false} CallSumAppend(a: seq<Call>, b: seq<Call>)
    ensures CallSum(a + b) == CallSum(a) + CallSum(b)
    decreases |a|
  {
    if a != [] {
      assert (a + b)[0] == a[0];
      assert (a + b)[1..] == a[1..] + b;
      CallSumAppend(a[1..], b);
    } else {
      assert a + b == b;
    }
  }

  /**
    The calls for a longer extent count the segments from `s` through `l`,
    and `l` once more when the extent ends inside it.
   */
  lemma MultiCallSum(phy: int, end: int, cur: int, m: int, s: int, l: int)
    requires MultiCuts(phy, end, m, s, l) && 0 <= s && l + 1 < TWO32
    ensures CallSum(PlanOf(phy, end, cur, m, m, s, s * m, l, l * m, false).calls)
            == l - s + 1 + (if end != l * m then 1 else 0)
  {
    var begin := phy != s * m;
    var first := if begin then s + 1 else s;
    var calls1 := if begin then [Call(ToU32(s), 1)] else [];
    var calls2 := [Call(ToU32(first), ToU32(l - first + 1))];
    assert CallSum(calls1) == if begin then 1 else 0;
    assert CallSum(calls2) == l - first + 1;
    CallSumAppend(calls1, calls2);
    if end != l * m {
      var calls3 := [Call(ToU32(l), 1)];
      assert CallSum(calls3) == 1;
      CallSumAppend(calls1 + calls2, calls3);
    }
  }

  /** The segments from the one holding PBAS to the one holding the last sector. */
  function Occupied(g: Geometry, e: Extent): int
    requires g.segmentSectors > 0
  {
    (e.phyBlk + e.len - 1) / g.segmentSectors - e.phyBlk / g.segmentSectors + 1
  }

  /**
    An extent spanning several segments is counted as one segment more
    than it occupies: show_consecutive_segments counts the run with its
    ending segment included, and the remainder (or, for an extent ending
    on a segment boundary, the segment after it) is counted once more.
    Segment ids are taken to fit uint32_t.
   */
  lemma MultiCountsOneMore(g: Geometry, e: Extent, cur: int)
    requires DeviceGeometry(g)
    requires e.phyBlk + e.len < TWO64 && !SingleSegment(g, e)
    requires (e.phyBlk + e.len) / g.segmentSectors + 1 < TWO32
    ensures g.segmentSectors > 0
    ensures CallSum(ExtentPlan(g, e, cur).calls) == Occupied(g, e) + 1
  {
    var m := g.segmentSectors;
    var end := e.phyBlk + e.len;
    var s, l := e.phyBlk / m, end / m;
    MultiCutsOf(g, e);
    MultiPlanOf(g, e, cur);
    DivBounds(e.phyBlk, m);
    MultiCallSum(e.phyBlk, end, cur, m, s, l);
    LastSectorSegment(end, m, l);
    assert Occupied(g, e) == (end - 1) / m - s + 1;
    assert CallSum(ExtentPlan(g, e, cur).calls) == l - s + 1 + (if end != l * m then 1 else 0);
  }

  /** The segment of the sector before `end`, for `end` in segment `l`. */
  lemma LastSectorSegment(end: int, m: int, l: int)
    requires m > 0 && 0 < end && l * m <= end < l * m + m
    ensures (end - 1) / m == if end != l * m then l else l - 1
  {
    if end != l * m {
      MulSub(l + 1, l, m);
      DivIs(end - 1, m, l);
    } else {
      MulSub(l, l - 1, m);
      DivIs(end - 1, m, l - 1);
    }
  }

  /** A one-segment extent is counted once, and only when its segment is not the current one. */
  lemma SingleCountsOnce(g: Geometry, e: Extent, cur: int)
    requires DeviceGeometry(g)
    requires e.len > 0 && e.phyBlk + e.len < TWO64 && SingleSegment(g, e)
    ensures g.segmentSectors > 0 && Occupied(g, e) == 1
    ensures CallSum(ExtentPlan(g, e, cur).calls) == if SegmentOf(g, e.phyBlk) == cur then 0 else 1
    ensures ExtentPlan(g, e, cur).cur == SegmentOf(g, e.phyBlk)
  {
    SingleSegmentIff(g, e);
    SegmentOfQuotient(g, e.phyBlk);
  }

  /** The last row of a longer extent, and the segment the report moves to. */
  lemma MultiLastRow(phy: int, end: int, cur: int, m: int, s: int, l: int)
    requires MultiCuts(phy, end, m, s, l)
    ensures var p := PlanOf(phy, end, cur, m, m, s, s * m, l, l * m, false);
      p.rows != []
      && (end != l * m ==> p.rows[|p.rows| - 1] == Row(l * m, end, end - l * m) && p.cur == l)
      && (end == l * m ==> p.rows[|p.rows| - 1].pbae == end)
  {
  }

  /**
    A longer extent ends with a remainder row exactly when its PBAE is not
    on a segment boundary; the row covers PBAE modulo the segment size and
    the report moves to PBAE's segment.
   */
  lemma RemainderRow(g: Geometry, e: Extent, cur: int)
    requires DeviceGeometry(g)
    requires e.phyBlk + e.len < TWO64 && !SingleSegment(g, e)
    ensures g.segmentSectors > 0 && ExtentPlan(g, e, cur).rows != []
    ensures var p := ExtentPlan(g, e, cur); var end := e.phyBlk + e.len; var m := g.segmentSectors;
      (end % m != 0 ==> p.rows[|p.rows| - 1] == Row(end - end % m, end, end % m) && p.cur == end / m)
      && (end % m == 0 ==> p.rows[|p.rows| - 1].pbae == end)
  {
    var m := g.segmentSectors;
    var end := e.phyBlk + e.len;
    var s, l := e.phyBlk / m, end / m;
    MultiCutsOf(g, e);
    MultiPlanOf(g, e, cur);
    MultiLastRow(e.phyBlk, end, cur, m, s, l);
    QuotientBounds(end, m);
    assert end - end % m == l * m;
  }

  /** The geometry of a device with 512-byte sectors: segments of 4096 sectors. */
  lemma Geometry512()
    ensures var g := InitShifts(512);
      DeviceGeometry(g) && g.segmentSectors == 4096 && g.segmentShift == 12
  {
    Pow2Small();
  }

  /**
    An extent that starts inside segment 1 and ends inside segment 2 (of
    4096 sectors) is shown with an empty SEGMENT RANGE row between its two
    parts: the consecutive part spans no segment at all.
   */
  lemma EmptyRangeRow(e: Extent, cur: int)
    requires e.phyBlk == 4096 + 100 && e.len == 4096
    ensures var p := ExtentPlan(InitShifts(512), e, cur);
      |p.rows| == 3 && p.rows[1] == Row(8192, 8192, 0)
  {
    var g := InitShifts(512);
    Geometry512();
    DivIs(e.phyBlk, 4096, 1);
    DivIs(e.phyBlk + e.len, 4096, 2);
    DivIs(e.phyBlk + e.len - 1, 4096, 2);
    SingleSegmentIff(g, e);
    MultiPlanOf(g, e, cur);
  }

  /**
    When an extent starts inside a segment and its run of whole segments
    is one segment long, that row shows the extent's own PBAS rather than
    the start of the run: for an extent from sector 4196 to 12388, the row
    covering segment 2 reads PBAS 4196, PBAE 12288, SIZE 4096.
   */
  lemma RunRowShowsExtentStart(e: Extent, cur: int)
    requires e.phyBlk == 4196 && e.len == 8192
    ensures var p := ExtentPlan(InitShifts(512), e, cur);
      |p.rows| == 3 && p.rows[1] == Row(4196, 12288, 4096)
  {
    var g := InitShifts(512);
    Geometry512();
    DivIs(e.phyBlk, 4096, 1);
    DivIs(e.phyBlk + e.len, 4096, 3);
    DivIs(e.phyBlk + e.len - 1, 4096, 3);
    SingleSegmentIff(g, e);
    MultiPlanOf(g, e, cur);
  }

  // ---------------------------------------------------------------------
  // segmap_man and set_segment_counters
  // ---------------------------------------------------------------------

  /** The directory-wide counters and the per-file table of segmap_man. */
  datatype Stats = Stats(totals: Counters, files: seq<FileStats>)

  /**
    set_segment_counters(segmentId, n, e) on the statistics: the
    directory counters always, the entry of the extent's file only when
    per-file statistics are kept (`show_class_stats && nr_files > 1`).
   */
  function CountCall(perFile: bool, types: seq<nat>, st: Stats, c: Call, e: Extent): Stats {
    var t := SegType(types, c.segmentId);
    Stats(AddSegments(st.totals, t, c.numSegments),
          if perFile then Tracked(st.files, e.file, e.zone, t, c.numSegments) else st.files)
  }

  /** Several calls of set_segment_counters for one extent, in order. */
  function CountCalls(perFile: bool, types: seq<nat>, st: Stats, calls: seq<Call>, e: Extent): Stats
    decreases |calls|
  {
    if calls == [] then st else CountCalls(perFile, types, CountCall(perFile, types, st, calls[0], e), calls[1..], e)
  }

  /**
    The statistics agree with each other: heat counters within segment
    counters, directory-wide and per file, and when per-file statistics
    are kept, the per-file segment counters add up to the directory's.
   */
  predicate StatsValid(perFile: bool, st: Stats) {
    && HeatWithin(st.totals)
    && AllWithin(st.files)
    && (perFile ==> SegmentSum(st.files) == st.totals.segmentCtr)
  }

  /** One call of set_segment_counters keeps the statistics consistent. */
  lemma CountCallValid(perFile: bool, types: seq<nat>, st: Stats, c: Call, e: Extent)
    requires StatsValid(perFile, st)
    ensures StatsValid(perFile, CountCall(perFile, types, st, c, e))
    ensures CountCall(perFile, types, st, c, e).totals.segmentCtr == st.totals.segmentCtr + c.numSegments
  {
    var t := SegType(types, c.segmentId);
    if perFile {
      TrackedWithin(st.files, e.file, e.zone, t, c.numSegments);
      TrackedSum(st.files, e.file, e.zone, t, c.numSegments);
    }
  }

  /** Any sequence of calls keeps the statistics consistent and counts the segments they name. */
  lemma {:induction false} CountCallsValid(perFile: bool, types: seq<nat>, st: Stats, calls: seq<Call>, e: Extent)
    requires StatsValid(perFile, st)
    ensures StatsValid(perFile, CountCalls(perFile, types, st, calls, e))
    ensures CountCalls(perFile, types, st, calls, e).totals.segmentCtr == st.totals.segmentCtr + CallSum(calls)
    decreases |calls|
  {
    if calls != [] {
      CountCallValid(perFile, types, st, calls[0], e);
      CountCallsValid(perFile, types, CountCall(perFile, types, st, calls[0], e), calls[1..], e);
    }
  }

  /**
    segmap_man: the directory-wide counters, the per-file table (its
    length is `ctr`), whether per-file statistics are kept, and the
    segment types read from procfs.
   */
  class SegmapManager {
    var totals: Counters
    var fs: seq<FileStats>
    const perFile: bool
    const types: seq<nat>

    /** The zeroed segmap_man of main. */
    constructor (perFile: bool, types: seq<nat>)
      ensures totals == Counters(0, 0, 0, 0) && fs == []
      ensures this.perFile == perFile && this.types == types
    {
      totals := Counters(0, 0, 0, 0);
      fs := [];
      this.perFile := perFile;
      this.types := types;
    }

    function Snapshot(): Stats
      reads this
    {
      Stats(totals, fs)
    }

    /**
      get_file_stats_index: the index of the first entry whose name
      agrees with `filename` on 50 characters; an unknown name is stored
      (truncated to 50 characters, counters zero) at the end.
     */
    method GetFileStatsIndex(filename: string) returns (i: nat)
      modifies this
      ensures totals == old(totals)
      ensures fs == if FindName(old(fs), filename).Some? then old(fs) else old(fs) + [NewStats(filename)]
      ensures FindName(fs, filename) == Some(i)
    {
      i := 0;
      while i < |fs|
        invariant i <= |fs|
        invariant forall j | 0 <= j < i :: !SameName(fs[j].filename, filename)
      {
        if SameName(fs[i].filename, filename) {
          FindNameAt(fs, filename, i);
          return;
        }
        i := i + 1;
      }
      assert FindName(fs, filename).None?;
      FindNewName(fs, filename);
      fs := fs + [NewStats(filename)];
    }

    /**
      set_segment_counters: count `numSegments` segments of the type of
      segment `segmentId` for the directory, and for the extent's file
      when per-file statistics are kept.
     */
    method SetSegmentCounters(segmentId: u32, numSegments: u32, e: Extent)
      modifies this
      ensures Snapshot() == CountCall(perFile, types, old(Snapshot()), Call(segmentId, numSegments), e)
    {
      var index := 0;
      totals := totals.(segmentCtr := totals.segmentCtr + numSegments);
      if perFile {
        index := CountFile(e, numSegments, SegType(types, segmentId));
      }
      CountHeat(SegType(types, segmentId), numSegments, index);
    }

    /** The per-file part of set_segment_counters before the heat switch. */
    method CountFile(e: Extent, n: nat, ghost segType: nat) returns (index: nat)
      modifies this
      ensures totals == old(totals)
      ensures index < |fs|
      ensures Tracked(old(fs), e.file, e.zone, segType, n) == fs[index := fs[index].(counts := AddHeat(fs[index].counts, segType, n))]
    {
      ghost var files0 := fs;
      index := GetFileStatsIndex(e.file);
      TrackedIsUpdate(files0, e.file, e.zone, segType, n, fs, index);
      var f := fs[index].(counts := fs[index].counts.(segmentCtr := fs[index].counts.segmentCtr + n));
      if f.lastZone != e.zone {
        f := f.(lastZone := e.zone, zoneCtr := f.zoneCtr + 1);
      }
      fs := fs[index := f];
    }

    /** The switch of set_segment_counters on the segment type. */
    method CountHeat(segType: nat, n: nat, index: nat)
      requires perFile ==> index < |fs|
      modifies this
      ensures totals == AddHeat(old(totals), segType, n)
      ensures fs == if perFile then old(fs)[index := old(fs)[index].(counts := AddHeat(old(fs)[index].counts, segType, n))]
                    else old(fs)
    {
      if segType == CursegColdData {
        totals := totals.(coldCtr := totals.coldCtr + n);
        if perFile {
          fs := fs[index := fs[index].(counts := fs[index].counts.(coldCtr := fs[index].counts.coldCtr + n))];
        }
      } else if segType == CursegWarmData {
        totals := totals.(warmCtr := totals.warmCtr + n);
        if perFile {
          fs := fs[index := fs[index].(counts := fs[index].counts.(warmCtr := fs[index].counts.warmCtr + n))];
        }
      } else if segType == CursegHotData {
        totals := totals.(hotCtr := totals.hotCtr + n);
        if perFile {
          fs := fs[index := fs[index].(counts := fs[index].counts.(hotCtr := fs[index].counts.hotCtr + n))];
        }
      }
    }
  }

  /** Calls for one extent counted in two batches. */
  lemma {:induction false} CountCallsAppend(perFile: bool, types: seq<nat>, st: Stats, a: seq<Call>, b: seq<Call>, e: Extent)
    ensures CountCalls(perFile, types, st, a + b, e)
            == CountCalls(perFile, types, CountCalls(perFile, types, st, a, e), b, e)
    decreases |a|
  {
    if a == [] {
      assert a + b == b;
    } else {
      assert (a + b)[0] == a[0];
      assert (a + b)[1..] == a[1..] + b;
      CountCallsAppend(perFile, types, CountCall(perFile, types, st, a[0], e), a[1..], b, e);
    }
  }

  /** One call, counted as a sequence of calls. */
  lemma CountCallsOne(perFile: bool, types: seq<nat>, st: Stats, c: Call, e: Extent)
    ensures CountCalls(perFile, types, st, [c], e) == CountCall(perFile, types, st, c, e)
  {
    assert [c][1..] == [];
  }

  // ---------------------------------------------------------------------
  // show_segment_report
  // ---------------------------------------------------------------------

  /**
    What show_segment_report works with: the geometry, the LBA window of
    the zones asked for, whether segments are counted (`show_class_stats
    && procfs`), and the settings of segmap_man.
   */
  datatype Settings = Settings(g: Geometry, startLba: int, endLba: int, counting: bool,
                           perFile: bool, types: seq<nat>)

  /**
    What the report has built: `cur_segment`, the zone of the last extent
    shown, the zone counter of the extent map, the EXTENT rows printed,
    and the statistics of segmap_man.
   */
  datatype State = State(cur: int, zone: u32, zoneCtr: nat, rows: seq<Row>, stats: Stats)

  /** `segment_id << segment_shift`: the first sector of the segment holding the extent's PBAS. */
  function ExtentLba(g: Geometry, e: Extent): int {
    SegmentLba(g, SegmentOf(g, e.phyBlk))
  }

  /** The statistics after the counter calls for extent `e`, made only when segments are counted. */
  function Counted(cfg: Settings, st: Stats, calls: seq<Call>, e: Extent): Stats {
    if cfg.counting then CountCalls(cfg.perFile, cfg.types, st, calls, e) else st
  }

  /** The state after the rows and counter calls of plan `p` for extent `e`. */
  function Apply(cfg: Settings, st: State, p: Plan, e: Extent): State {
    st.(cur := p.cur, rows := st.rows + p.rows, stats := Counted(cfg, st.stats, p.calls, e))
  }

  /** Applying a plan made of two parts is applying one part after the other. */
  lemma ApplyThen(cfg: Settings, st: State, p: Plan, q: Plan, e: Extent)
    ensures Apply(cfg, st, Then(p, q), e) == Apply(cfg, Apply(cfg, st, p, e), q, e)
  {
    assert st.rows + (p.rows + q.rows) == st.rows + p.rows + q.rows;
    CountCallsAppend(cfg.perFile, cfg.types, st.stats, p.calls, q.calls, e);
  }

  /** A new zone is counted when the extent's zone differs from the last one shown. */
  function EnterZone(st: State, zone: u32): State {
    if st.zone != zone then st.(zone := zone, zoneCtr := st.zoneCtr + 1) else st
  }

  /** Showing one extent inside the window. */
  function Step(cfg: Settings, st: State, e: Extent): State {
    var st1 := EnterZone(st, e.zone);
    Apply(cfg, st1, ExtentPlan(cfg.g, e, st1.cur), e)
  }

  /**
    The loop of show_segment_report over the sorted extents: it stops at
    the first extent whose segment starts at or past the window's end,
    and skips those whose segment starts before the window.
   */
  function Run(cfg: Settings, st: State, es: seq<Extent>): State
    decreases |es|
  {
    if es == [] then st
    else if ExtentLba(cfg.g, es[0]) >= cfg.endLba then st
    else if ExtentLba(cfg.g, es[0]) < cfg.startLba then Run(cfg, st, es[1..])
    else Run(cfg, Step(cfg, st, es[0]), es[1..])
  }

  /** The extents the report shows: those before the first one past the window, less those before it. */
  function Shown(cfg: Settings, es: seq<Extent>): seq<Extent>
    decreases |es|
  {
    if es == [] then []
    else if ExtentLba(cfg.g, es[0]) >= cfg.endLba then []
    else if ExtentLba(cfg.g, es[0]) < cfg.startLba then Shown(cfg, es[1..])
    else [es[0]] + Shown(cfg, es[1..])
  }

  /** The extents whose segment starts inside the window [startLba, endLba). */
  function InWindow(cfg: Settings, es: seq<Extent>): (r: seq<Extent>)
    ensures forall e | e in r :: e in es && cfg.startLba <= ExtentLba(cfg.g, e) < cfg.endLba
    decreases |es|
  {
    if es == [] then []
    else if cfg.startLba <= ExtentLba(cfg.g, es[0]) < cfg.endLba then [es[0]] + InWindow(cfg, es[1..])
    else InWindow(cfg, es[1..])
  }

  /** `a <= b` scaled by a positive segment size. */
  lemma MulMonotone(a: int, b: int, m: int)
    requires a <= b && m > 0
    ensures a * m <= b * m
  {
    if a < b {
      MulAtLeast(b - a, m);
      MulSub(b, a, m);
    }
  }

  /** A later extent lies in the same segment or a later one. */
  lemma ExtentLbaMonotone(g: Geometry, e1: Extent, e2: Extent)
    requires DeviceGeometry(g) && e1.phyBlk <= e2.phyBlk
    ensures ExtentLba(g, e1) <= ExtentLba(g, e2)
  {
    SegmentOfQuotient(g, e1.phyBlk);
    SegmentOfQuotient(g, e2.phyBlk);
    QuotientMonotone(e1.phyBlk, e2.phyBlk, g.segmentSectors);
    MulMonotone(SegmentOf(g, e1.phyBlk), SegmentOf(g, e2.phyBlk), g.segmentSectors);
  }

  /** Sorted extents after one past the window's end are all past it. */
  lemma {:induction false} PastWindow(cfg: Settings, es: seq<Extent>, lba: int)
    requires DeviceGeometry(cfg.g) && SortedByPhy(es)
    requires cfg.endLba <= lba && forall i | 0 <= i < |es| :: es[0].phyBlk <= es[i].phyBlk
    requires es != [] ==> lba <= ExtentLba(cfg.g, es[0])
    ensures InWindow(cfg, es) == []
    decreases |es|
  {
    if |es| > 1 {
      ExtentLbaMonotone(cfg.g, es[0], es[1]);
      PastWindow(cfg, es[1..], lba);
    }
  }

  /**
    For extents sorted by physical block, as sort_extents leaves them,
    the report shows exactly the extents whose segment starts inside the
    window: stopping at the first one past its end loses none.
   */
  lemma {:induction false} ShownIsWindow(cfg: Settings, es: seq<Extent>)
    requires DeviceGeometry(cfg.g) && SortedByPhy(es)
    ensures Shown(cfg, es) == InWindow(cfg, es)
    decreases |es|
  {
    if es != [] {
      if ExtentLba(cfg.g, es[0]) >= cfg.endLba {
        PastWindow(cfg, es, ExtentLba(cfg.g, es[0]));
      } else {
        ShownIsWindow(cfg, es[1..]);
      }
    }
  }

  /** The sectors of the extents shown. */
  function LenSum(es: seq<Extent>): nat
    decreases |es|
  {
    if es == [] then 0 else es[0].len + LenSum(es[1..])
  }

  lemma {:induction false} SizeSumAppend(a: seq<Row>, b: seq<Row>)
    ensures SizeSum(a + b) == SizeSum(a) + SizeSum(b)
    decreases |a|
  {
    if a == [] {
      assert a + b == b;
    } else {
      assert (a + b)[0] == a[0];
      assert (a + b)[1..] == a[1..] + b;
      SizeSumAppend(a[1..], b);
    }
  }

  /** Extents that do not wrap past 2^64 - 1. */
  predicate NoWrap(es: seq<Extent>) {
    forall i | 0 <= i < |es| :: es[i].phyBlk + es[i].len < TWO64
  }

  /**
    The EXTENT rows the report adds cover the extents it shows, sector
    for sector: their sizes add up to the lengths of those extents.
   */
  lemma {:induction false} RunRowsCover(cfg: Settings, st: State, es: seq<Extent>)
    requires DeviceGeometry(cfg.g) && NoWrap(es)
    ensures SizeSum(Run(cfg, st, es).rows) == SizeSum(st.rows) + LenSum(Shown(cfg, es))
    decreases |es|
  {
    if es != [] && ExtentLba(cfg.g, es[0]) < cfg.endLba {
      assert NoWrap(es[1..]);
      if ExtentLba(cfg.g, es[0]) < cfg.startLba {
        RunRowsCover(cfg, st, es[1..]);
      } else {
        var st1 := Step(cfg, st, es[0]);
        var p := ExtentPlan(cfg.g, es[0], EnterZone(st, es[0].zone).cur);
        PlanRowsCover(cfg.g, es[0], EnterZone(st, es[0].zone).cur);
        SizeSumAppend(st.rows, p.rows);
        RunRowsCover(cfg, st1, es[1..]);
        assert LenSum(Shown(cfg, es)) == es[0].len + LenSum(Shown(cfg, es[1..]));
      }
    }
  }

  /**
    The report keeps segmap_man consistent: heat counters within segment
    counters, directory-wide and per file, and per-file segment counters
    adding up to the directory's.
   */
  lemma {:induction false} RunKeepsStatsValid(cfg: Settings, st: State, es: seq<Extent>)
    requires StatsValid(cfg.perFile, st.stats)
    ensures StatsValid(cfg.perFile, Run(cfg, st, es).stats)
    decreases |es|
  {
    if es != [] && ExtentLba(cfg.g, es[0]) < cfg.endLba {
      if ExtentLba(cfg.g, es[0]) < cfg.startLba {
        RunKeepsStatsValid(cfg, st, es[1..]);
      } else {
        StepKeepsStatsValid(cfg, st, es[0]);
        RunKeepsStatsValid(cfg, Step(cfg, st, es[0]), es[1..]);
      }
    }
  }

  /** One extent of the report keeps the statistics consistent. */
  lemma StepKeepsStatsValid(cfg: Settings, st: State, e: Extent)
    requires StatsValid(cfg.perFile, st.stats)
    ensures StatsValid(cfg.perFile, Step(cfg, st, e).stats)
  {
    var st1 := EnterZone(st, e.zone);
    var p := ExtentPlan(cfg.g, e, st1.cur);
    CountCallsValid(cfg.perFile, cfg.types, st.stats, p.calls, e);
  }

  /** The state show_segment_report starts from: no zone shown yet, and an empty per-file table under class statistics. */
  function Start(st: State, classStats: bool): State {
    st.(zone := 0, stats := if classStats then st.stats.(files := []) else st.stats)
  }

  /** The report state, kept in a Report and its SegmapManager. */
  class Report {
    var curSegment: int
    var currentZone: u32
    var zoneCtr: nat
    var rows: seq<Row>
    const man: SegmapManager
    const cfg: Settings
    const classStats: bool

    /**
      The report for geometry `g` and window [startLba, endLba), counting
      segments in `man` when class statistics are on and procfs is read.
     */
    constructor (g: Geometry, startLba: int, endLba: int, classStats: bool, procfs: bool,
                 man: SegmapManager, zoneCtr: nat)
      ensures this.man == man && this.classStats == classStats
      ensures cfg == Settings(g, startLba, endLba, classStats && procfs, man.perFile, man.types)
      ensures curSegment == 0 && currentZone == 0 && this.zoneCtr == zoneCtr && rows == []
    {
      this.man := man;
      this.classStats := classStats;
      cfg := Settings(g, startLba, endLba, classStats && procfs, man.perFile, man.types);
      curSegment := 0;
      currentZone := 0;
      this.zoneCtr := zoneCtr;
      rows := [];
    }

    predicate Valid()
      reads this
    {
      cfg.perFile == man.perFile && cfg.types == man.types
    }

    function Snapshot(): State
      reads this, man
    {
      State(curSegment, currentZone, zoneCtr, rows, man.Snapshot())
    }

    /** show_segment_report over the extents `es`, sorted by physical block. */
    method ShowSegmentReport(es: seq<Extent>)
      requires Valid()
      modifies this, man
      ensures Snapshot() == Run(cfg, Start(old(Snapshot()), classStats), es)
    {
      currentZone := 0;
      if classStats {
        man.fs := [];
      }
      ghost var st0 := Snapshot();
      var i := 0;
      while i < |es|
        invariant i <= |es| && Valid()
        invariant Run(cfg, st0, es) == Run(cfg, Snapshot(), es[i..])
      {
        var e := es[i];
        var segmentId := SegmentOf(cfg.g, e.phyBlk);
        if SegmentLba(cfg.g, segmentId) >= cfg.endLba {
          break;
        }
        if SegmentLba(cfg.g, segmentId) < cfg.startLba {
          i := i + 1;
          continue;
        }
        ShowExtent(e);
        i := i + 1;
      }
    }

    /** The body of the report loop for an extent inside the window. */
    method ShowExtent(e: Extent)
      requires Valid()
      modifies this, man
      ensures Snapshot() == Step(cfg, old(Snapshot()), e)
    {
      if currentZone != e.zone {
        currentZone := e.zone;
        zoneCtr := zoneCtr + 1;
      }
      var g := cfg.g;
      var segmentId := SegmentOf(g, e.phyBlk);
      var segmentStart := SegmentStart(g, e.phyBlk);
      var extentEnd := e.phyBlk + e.len;
      if segmentStart == SegmentStart(g, extentEnd) || extentEnd == segmentStart + Shr(F2fsSegmentBytes, g.sectorShift) {
        ShowSingle(e);
      } else {
        ShowMulti(e);
      }
    }

    /** An extent in one segment. */
    method ShowSingle(e: Extent)
      requires Valid() && SingleSegment(cfg.g, e)
      modifies this, man
      ensures Snapshot() == Apply(cfg, old(Snapshot()), ExtentPlan(cfg.g, e, old(curSegment)), e)
    {
      var segmentId := SegmentOf(cfg.g, e.phyBlk);
      if segmentId != curSegment {
        ShowSegmentInfo(segmentId);
        curSegment := segmentId;
        if cfg.counting {
          man.SetSegmentCounters(ToU32(segmentId), 1, e);
        }
        CountCallsOne(cfg.perFile, cfg.types, old(man.Snapshot()), Call(ToU32(segmentId), 1), e);
      }
      rows := rows + [Row(e.phyBlk, e.phyBlk + e.len, e.len)];
    }

    /** An extent over several segments: its beginning, its run of segments, and its remainder. */
    method ShowMulti(e: Extent)
      requires Valid() && !SingleSegment(cfg.g, e)
      modifies this, man
      ensures Snapshot() == Apply(cfg, old(Snapshot()), ExtentPlan(cfg.g, e, old(curSegment)), e)
    {
      var g := cfg.g;
      ghost var st0 := Snapshot();
      ghost var p1 := BeginPart(e.phyBlk, g.segmentSectors, SegmentOf(g, e.phyBlk), SegmentStart(g, e.phyBlk), curSegment);
      // part 1: from PBAS to the end of its segment
      var segmentId := ShowBeginningPart(e);
      ghost var p2 := RunPart(e.phyBlk, g.segmentSectors, Pow2(g.segmentShift), segmentId,
                              SegmentOf(g, e.phyBlk + e.len), curSegment);
      // part 2: the segments in between
      ShowConsecutiveSegments(e, segmentId);
      ghost var p3 := RestPart(e.phyBlk + e.len, Pow2(g.segmentShift), SegmentOf(g, e.phyBlk + e.len),
                               SegmentStart(g, e.phyBlk + e.len), curSegment);
      // part 3: what is left in the last segment
      ShowRemainderPart(e);
      ApplyThen(cfg, st0, p1, p2, e);
      ApplyThen(cfg, st0, Then(p1, p2), p3, e);
    }

    /**
      The first part of an extent over several segments, when it starts
      inside its segment; returns the first segment of the run after it.
     */
    method ShowBeginningPart(e: Extent) returns (first: int)
      requires Valid()
      modifies this, man
      ensures var g := cfg.g; var segmentId := SegmentOf(g, e.phyBlk); var segmentStart := SegmentStart(g, e.phyBlk);
        && first == (if e.phyBlk != segmentStart then segmentId + 1 else segmentId)
        && Snapshot() == Apply(cfg, old(Snapshot()), BeginPart(e.phyBlk, g.segmentSectors, segmentId, segmentStart, old(curSegment)), e)
    {
      var g := cfg.g;
      ghost var st0 := Snapshot();
      var segmentId := SegmentOf(g, e.phyBlk);
      var segmentStart := SegmentStart(g, e.phyBlk);
      if e.phyBlk != segmentStart {
        if segmentId != curSegment {
          ShowSegmentInfo(segmentId);
        }
        ShowBeginningSegment(e);
        if cfg.counting {
          man.SetSegmentCounters(ToU32(segmentId), 1, e);
        }
        CountCallsOne(cfg.perFile, cfg.types, st0.stats, Call(ToU32(segmentId), 1), e);
        segmentId := segmentId + 1;
      }
      first := segmentId;
    }

    /** The last part of an extent over several segments, when it ends inside its last segment. */
    method ShowRemainderPart(e: Extent)
      requires Valid()
      modifies this, man
      ensures var g := cfg.g; var end := e.phyBlk + e.len;
        Snapshot() == Apply(cfg, old(Snapshot()),
                            RestPart(end, Pow2(g.segmentShift), SegmentOf(g, end), SegmentStart(g, end), old(curSegment)), e)
    {
      var g := cfg.g;
      ghost var st0 := Snapshot();
      var segmentEnd := SegmentStart(g, e.phyBlk + e.len);
      if segmentEnd != e.phyBlk + e.len {
        ShowRemainderSegment(e);
        if cfg.counting {
          man.SetSegmentCounters(ToU32(Shr(segmentEnd, g.segmentShift)), 1, e);
        }
        CountCallsOne(cfg.perFile, cfg.types, st0.stats, Call(ToU32(Shr(segmentEnd, g.segmentShift)), 1), e);
      }
    }

    /** show_segment_info: a new segment header, which makes that segment current. */
    method ShowSegmentInfo(segment: int)
      modifies this
      ensures curSegment == segment
      ensures currentZone == old(currentZone) && zoneCtr == old(zoneCtr) && rows == old(rows)
    {
      if curSegment != segment {
        curSegment := segment;
      }
    }

    /** show_beginning_segment: the row from PBAS to the end of its segment. */
    method ShowBeginningSegment(e: Extent)
      modifies this
      ensures var segmentEnd := SegmentStart(cfg.g, e.phyBlk) + cfg.g.segmentSectors;
        rows == old(rows) + [Row(e.phyBlk, segmentEnd, segmentEnd - e.phyBlk)]
      ensures curSegment == old(curSegment) && currentZone == old(currentZone) && zoneCtr == old(zoneCtr)
    {
      var segmentEnd := SegmentStart(cfg.g, e.phyBlk) + cfg.g.segmentSectors;
      rows := rows + [Row(e.phyBlk, segmentEnd, segmentEnd - e.phyBlk)];
    }

    /**
      show_consecutive_segments: the run of segments from `first` up to
      the one holding PBAE, with its counter call.
     */
    method ShowConsecutiveSegments(e: Extent, first: int)
      requires Valid()
      modifies this, man
      ensures var g := cfg.g;
        Snapshot() == Apply(cfg, old(Snapshot()),
                            RunPart(e.phyBlk, g.segmentSectors, Pow2(g.segmentShift), first,
                                    SegmentOf(g, e.phyBlk + e.len), old(curSegment)), e)
    {
      var g := cfg.g;
      ghost var st0 := Snapshot();
      var segmentEnd := SegmentOf(g, e.phyBlk + e.len);
      var numSegments := segmentEnd - first;
      if cfg.counting {
        man.SetSegmentCounters(ToU32(first), ToU32(numSegments + 1), e);
      }
      CountCallsOne(cfg.perFile, cfg.types, st0.stats, Call(ToU32(first), ToU32(numSegments + 1)), e);
      if numSegments == 1 {
        ShowSegmentInfo(first);
        rows := rows + [Row(e.phyBlk, SegmentLba(g, segmentEnd), g.segmentSectors)];
      } else {
        rows := rows + [Row(SegmentLba(g, first), SegmentLba(g, segmentEnd), numSegments * g.segmentSectors)];
      }
    }

    /** show_remainder_segment: the row from the start of PBAE's segment to PBAE, which becomes current. */
    method ShowRemainderSegment(e: Extent)
      modifies this
      ensures var last := SegmentOf(cfg.g, e.phyBlk + e.len); var lastStart := SegmentLba(cfg.g, last);
        var remainder := e.phyBlk + e.len - lastStart;
        rows == old(rows) + [Row(lastStart, lastStart + remainder, remainder)] && curSegment == last
      ensures currentZone == old(currentZone) && zoneCtr == old(zoneCtr)
    {
      var segmentStart := SegmentOf(cfg.g, e.phyBlk + e.len);
      var remainder := e.phyBlk + e.len - SegmentLba(cfg.g, segmentStart);
      ShowSegmentInfo(segmentStart);
      rows := rows + [Row(SegmentLba(cfg.g, segmentStart), SegmentLba(cfg.g, segmentStart) + remainder, remainder)];
    }
  }

  // ---------------------------------------------------------------------
  // The zone window and the options of main
  // ---------------------------------------------------------------------

  /** start_lba of show_segment_report: zones are numbered from 1, in uint64_t arithmetic. */
  function StartLba(startZone: u32, zoneSize: u64): u64 {
    Sub64(Mul64(startZone, zoneSize), zoneSize)
  }

  /** end_lba of show_segment_report: `end_zone + 1` is a uint32_t sum. */
  function EndLba(endZone: u32, zoneSize: u64): u64 {
    Sub64(Mul64(ToU32(endZone + 1), zoneSize), zoneSize)
  }

  /**
    Without overflow, the window runs from the first sector of zone
    `startZone` to the end of zone `endZone`, zones counted from 1.
   */
  lemma WindowOfZones(startZone: u32, endZone: u32, zoneSize: u64)
    requires 1 <= startZone && endZone < TWO32 - 1
    requires startZone * zoneSize < TWO64 && (endZone + 1) * zoneSize < TWO64
    ensures StartLba(startZone, zoneSize) == (startZone - 1) * zoneSize
    ensures EndLba(endZone, zoneSize) == endZone * zoneSize
  {
    ZoneStart(startZone, zoneSize);
    var next := endZone + 1;
    assert ToU32(next) == next;
    ZoneStart(next, zoneSize);
  }

  /** The first sector of zone `z` (from 1), when `z * zoneSize` does not overflow. */
  lemma ZoneStart(z: u64, zoneSize: u64)
    requires 1 <= z && z * zoneSize < TWO64
    ensures Sub64(Mul64(z, zoneSize), zoneSize) == (z - 1) * zoneSize
  {
    var p := z * zoneSize;
    var q := (z - 1) * zoneSize;
    MulSub(z, 1, zoneSize);
    assert p - zoneSize == q;
    assert 0 <= q by {
      if zoneSize > 0 {
        MulMonotone(0, z - 1, zoneSize);
      }
    }
    assert Mul64(z, zoneSize) == p;
  }

  /**
    `-z 0` leaves both zones 0, so the window ends at sector 0: the
    report stops at its first extent and shows nothing.
   */
  lemma ZoneZeroShowsNothing(cfg: Settings, es: seq<Extent>, zoneSize: u64)
    requires cfg.endLba == EndLba(0, zoneSize)
    ensures cfg.endLba == 0 && Shown(cfg, es) == []
  {
    if es != [] {
      assert ExtentLba(cfg.g, es[0]) >= 0;
    }
  }

  /** The options main reads with getopt("d:hil:ws:e:pz:co"); any other letter is Unknown. */
  datatype Opt = Help | Dir(path: string) | LogLevel(arg: string) | Inline | ShowFlags
               | StartZone(arg: string) | EndZone(arg: string) | Zone(arg: string)
               | Procfs | ClassStats | OnlyStats | Unknown

  /** What the options set in `ctrl` and `segmap_man`, with the flags main keeps; the log level is a uint8_t. */
  datatype Options = Options(dir: Option<string>, logLevel: int, excludeFlags: u32, showFlags: bool,
                             startZone: u32, endZone: u32, setZone: bool, setStart: bool, setEnd: bool,
                             procfs: bool, classStats: bool, onlyStats: bool)

  /** After the memsets of main: inline data excluded, everything else zero. */
  function InitialOptions(): Options {
    Options(None, 0, ExtentDataInline, false, 0, 0, false, false, false, false, false, false)
  }

  /** One option; None when it shows the help, which exits with status 0. */
  function SetOption(o: Options, opt: Opt): Option<Options> {
    match opt
    case Help => None
    case Unknown => None
    case Dir(path) => Some(o.(dir := Some(path)))
    case LogLevel(arg) => Some(o.(logLevel := Atoi(arg) % 256))
    case Inline => Some(o.(excludeFlags := 0))
    case ShowFlags => Some(o.(showFlags := true))
    case StartZone(arg) => Some(o.(startZone := ToU32(Atoi(arg)), setStart := true))
    case Zone(arg) => Some(o.(startZone := ToU32(Atoi(arg)), endZone := ToU32(Atoi(arg)), setZone := true))
    case EndZone(arg) => Some(o.(endZone := ToU32(Atoi(arg)), setEnd := true))
    case Procfs => Some(o.(procfs := true))
    case ClassStats => Some(o.(classStats := true))
    case OnlyStats => Some(o.(onlyStats := true, classStats := true))
  }

  /** The options in order, from `o`. */
  function Parsed(o: Options, opts: seq<Opt>): Option<Options>
    decreases |opts|
  {
    if opts == [] then Some(o)
    else match SetOption(o, opts[0])
      case None => None
      case Some(o1) => Parsed(o1, opts[1..])
  }

  /** The getopt loop of main. */
  method ParseOptions(opts: seq<Opt>) returns (r: Option<Options>)
    ensures r == Parsed(InitialOptions(), opts)
  {
    var o := InitialOptions();
    var i := 0;
    while i < |opts|
      invariant i <= |opts|
      invariant Parsed(InitialOptions(), opts) == Parsed(o, opts[i..])
    {
      var next := SetOption(o, opts[i]);
      if next.None? {
        assert opts[i..][0] == opts[i];
        return None;
      }
      assert opts[i..][1..] == opts[i + 1..];
      o := next.value;
      i := i + 1;
    }
    return Some(o);
  }

  /** Whether an option shows the help. */
  predicate ShowsHelp(opt: Opt) {
    opt.Help? || opt.Unknown?
  }

  /** The options parse unless one of them is -h or an unknown letter, which show the help. */
  lemma {:induction false} ParsedIff(o: Options, opts: seq<Opt>)
    ensures Parsed(o, opts).Some? <==> forall i | 0 <= i < |opts| :: !ShowsHelp(opts[i])
    decreases |opts|
  {
    if opts != [] && !ShowsHelp(opts[0]) {
      ParsedIff(SetOption(o, opts[0]).value, opts[1..]);
      assert forall i | 1 <= i < |opts| :: opts[i] == opts[1..][i - 1];
    }
  }

  /** -o always comes with class statistics, whatever follows it. */
  lemma {:induction false} ParsedOnlyStats(o: Options, opts: seq<Opt>)
    requires o.onlyStats ==> o.classStats
    requires Parsed(o, opts).Some?
    ensures Parsed(o, opts).value.onlyStats ==> Parsed(o, opts).value.classStats
    decreases |opts|
  {
    if opts != [] {
      SetOptionOnlyStats(o, opts[0]);
      ParsedOnlyStats(SetOption(o, opts[0]).value, opts[1..]);
    }
  }

  /** No single option sets -o without class statistics. */
  lemma SetOptionOnlyStats(o: Options, opt: Opt)
    requires o.onlyStats ==> o.classStats
    requires SetOption(o, opt).Some?
    ensures SetOption(o, opt).value.onlyStats ==> SetOption(o, opt).value.classStats
  {
    match opt
    case Help =>
    case Unknown =>
    case OnlyStats =>
    case ClassStats =>
    case _ =>
      assert SetOption(o, opt).value.onlyStats == o.onlyStats;
  }

  /** The errors main stops with (exit status 1). */
  datatype OptError = MissingDir | ZoneWithRange | StatsWithoutProcfs

  /**
    The checks of main: a directory is required, -z excludes -s and -e,
    and class statistics need procfs: an error under -o, and otherwise
    they are switched off.
   */
  function Validate(o: Options): (r: Result<Options, OptError>)
    ensures r.Err? && r.error == MissingDir <==> o.dir.None?
    ensures r.Err? && r.error == ZoneWithRange <==> o.dir.Some? && o.setZone && (o.setStart || o.setEnd)
    ensures r.Err? && r.error == StatsWithoutProcfs
            <==> o.dir.Some? && !(o.setZone && (o.setStart || o.setEnd)) && o.classStats && !o.procfs && o.onlyStats
    ensures r.Ok? ==> r.value == o.(classStats := o.classStats && o.procfs)
    ensures r.Ok? ==> (r.value.classStats ==> r.value.procfs)
  {
    if o.dir.None? then Err(MissingDir)
    else if o.setZone && (o.setStart || o.setEnd) then Err(ZoneWithRange)
    else if o.classStats && !o.procfs then
      if o.onlyStats then Err(StatsWithoutProcfs) else Ok(o.(classStats := false))
    else Ok(o)
  }

  /** Accepted options ask for class statistics only with procfs, and -o always gets them. */
  lemma ValidStats(o: Options)
    requires o.onlyStats ==> o.classStats
    requires Validate(o).Ok?
    ensures Validate(o).value.classStats ==> Validate(o).value.procfs
    ensures Validate(o).value.onlyStats ==> Validate(o).value.classStats
  {
  }

  /** The defaults main sets once the device is known: zone 1 to the last zone, unless -z was given. */
  function ApplyDefaults(o: Options, nrZones: u32): (r: Options)
    ensures o.setZone ==> r == o
    ensures !o.setZone ==> r.startZone >= 1 && r.startZone == (if o.startZone == 0 then 1 else o.startZone)
    ensures !o.setZone ==> r.endZone == if o.endZone == 0 then nrZones else o.endZone
    ensures r.(startZone := o.startZone, endZone := o.endZone) == o
  {
    var o1 := if o.startZone == 0 && !o.setZone then o.(startZone := 1) else o;
    if o1.endZone == 0 && !o1.setZone then o1.(endZone := nrZones) else o1
  }

  /**
    Without zone options the window covers the whole device: from sector
    0 to the end of its last zone.
   */
  lemma DefaultWindow(o: Options, nrZones: u32, zoneSize: u64)
    requires !o.setZone && !o.setStart && !o.setEnd && o.startZone == 0 && o.endZone == 0
    requires nrZones < TWO32 - 1 && (nrZones + 1) * zoneSize < TWO64
    ensures var r := ApplyDefaults(o, nrZones);
      StartLba(r.startZone, zoneSize) == 0 && EndLba(r.endZone, zoneSize) == nrZones * zoneSize
  {
    var r := ApplyDefaults(o, nrZones);
    if nrZones == 0 {
      assert EndLba(0, zoneSize) == 0;
    } else {
      MulMonotone(1, nrZones + 1, zoneSize + 1);
      WindowOfZones(1, nrZones, zoneSize);
    }
  }
}

=== FILE: trace_common.dfy ===
/**
  What the Python tracing scripts share: the exceptions that can escape
  them, the nanosecond-to-microsecond conversion `int(ts) / 1000`, and the
  first-match-wins substring classification behind `get_pid`/`get_cat`.
 */
module PyModel {
  import opened Wrappers
  import opened Text

  /** The Python exceptions the modelled code can raise. */
  datatype PyError = ValueError | KeyError | IndexError | TypeError | AttributeError

  /**
    `int(timestamp) / 1000`: the timestamp text is read as a Python integer
    (ValueError otherwise) and divided exactly; Python's float rounding is
    not modelled.
   */
  function Micros(timestamp: string): (r: Result<real, PyError>)
    ensures r.Ok? <==> PyInt(timestamp).Some?
    ensures r.Ok? ==> r.value * 1000.0 == PyInt(timestamp).value as real
    ensures r.Err? ==> r.error == ValueError
  {
    match PyInt(timestamp)
    case Some(n) => Ok(n as real / 1000.0)
    case None => Err(ValueError)
  }

  /** Printing a nanosecond count and converting it back gives that count in microseconds. */
  lemma MicrosOfDecimal(ns: int)
    ensures Micros(SignedDecimal(ns)) == Ok(ns as real / 1000.0)
  {
    PyIntDecimal(ns);
  }
}

/**
  An if/elif chain of `key in name` tests, as data: a list of rules, each
  a set of keys and the value returned when one of them occurs in the
  name. `FirstMatch` is the reference definition the classifiers of
  apptrace and trace are proved against.
 */
module Classify {
  import opened Wrappers
  import opened Text

  datatype Rule<V> = Rule(keys: seq<string>, value: V)

  /** Some key of the list occurs in `name` (the `or` of one elif branch). */
  predicate AnyContains(name: string, keys: seq<string>) {
    |keys| > 0 && (Contains(name, keys[0]) || AnyContains(name, keys[1..]))
  }

  predicate Fires<V>(rule: Rule<V>, name: string) {
    AnyContains(name, rule.keys)
  }

  /** The value of the first rule that fires, None when none does. */
  function FirstMatch<V>(rules: seq<Rule<V>>, name: string): Option<V> {
    if rules == [] then None
    else if Fires(rules[0], name) then Some(rules[0].value)
    else FirstMatch(rules[1..], name)
  }

  lemma {:induction false} AnyContainsIff(name: string, keys: seq<string>)
    ensures AnyContains(name, keys) <==> exists i :: 0 <= i < |keys| && Occurs(name, keys[i])
  {
    if keys != [] {
      AnyContainsIff(name, keys[1..]);
      ContainsIffOccurs(name, keys[0]);
      if exists i :: 0 <= i < |keys| && Occurs(name, keys[i]) {
        var i :| 0 <= i < |keys| && Occurs(name, keys[i]);
        if i > 0 {
          assert keys[1..][i - 1] == keys[i];
        }
      }
      if exists i :: 0 <= i < |keys[1..]| && Occurs(name, keys[1..][i]) {
        var i :| 0 <= i < |keys[1..]| && Occurs(name, keys[1..][i]);
        assert keys[i + 1] == keys[1..][i];
      }
    }
  }

  /** First match wins: rule k decides when it fires and no earlier rule does. */
  lemma {:induction false} FirstMatchIsFirst<V>(rules: seq<Rule<V>>, name: string, k: nat)
    requires k < |rules| && Fires(rules[k], name)
    requires forall j | 0 <= j < k :: !Fires(rules[j], name)
    ensures FirstMatch(rules, name) == Some(rules[k].value)
  {
    if k > 0 {
      assert !Fires(rules[0], name);
      assert forall j | 0 <= j < k - 1 :: rules[1..][j] == rules[j + 1];
      FirstMatchIsFirst(rules[1..], name, k - 1);
    }
  }

  /**
    The converse, for a chain whose rules carry distinct values: when the
    chain returns rule k's value, rule k fires and no earlier rule does.
   */
  lemma {:induction false} FirstMatchOnlyFirst<V>(rules: seq<Rule<V>>, name: string, k: nat)
    requires k < |rules| && FirstMatch(rules, name) == Some(rules[k].value)
    requires forall i, j | 0 <= i < j < |rules| :: rules[i].value != rules[j].value
    ensures Fires(rules[k], name)
    ensures forall j | 0 <= j < k :: !Fires(rules[j], name)
  {
    if !Fires(rules[0], name) {
      FirstMatchFires(rules[1..], name);
      var j :| 0 <= j < |rules[1..]| && Fires(rules[1..][j], name)
                && rules[1..][j].value == rules[k].value;
      assert rules[1..][j] == rules[j + 1];
      assert k == j + 1;
      assert forall i | 0 <= i < k - 1 :: rules[1..][i] == rules[i + 1];
      FirstMatchOnlyFirst(rules[1..], name, k - 1);
    }
  }

  /** No value at all exactly when no rule fires. */
  lemma {:induction false} FirstMatchNone<V>(rules: seq<Rule<V>>, name: string)
    ensures FirstMatch(rules, name) == None <==> forall k | 0 <= k < |rules| :: !Fires(rules[k], name)
  {
    if rules != [] {
      FirstMatchNone(rules[1..], name);
      assert forall k | 1 <= k < |rules| :: rules[k] == rules[1..][k - 1];
    }
  }

  /** One elif branch with one or two keys, spelled out. */
  lemma AnyContainsOneTwo(name: string, a: string, b: string)
    ensures AnyContains(name, [a]) <==> Contains(name, a)
    ensures AnyContains(name, [a, b]) <==> Contains(name, a) || Contains(name, b)
  {
    assert [a][1..] == [];
    assert [a, b][1..] == [b];
    assert [b][1..] == [];
    assert AnyContains(name, [b]) <==> Contains(name, b);
  }

  lemma FirstMatchStep<V>(rules: seq<Rule<V>>, name: string)
    requires rules != []
    ensures FirstMatch(rules, name)
         == if Fires(rules[0], name) then Some(rules[0].value) else FirstMatch(rules[1..], name)
  {
  }

  /** Whatever is returned is the value of some rule that fires. */
  lemma {:induction false} FirstMatchFires<V>(rules: seq<Rule<V>>, name: string)
    requires FirstMatch(rules, name).Some?
    ensures exists k :: 0 <= k < |rules| && Fires(rules[k], name)
                        && rules[k].value == FirstMatch(rules, name).value
  {
    if !Fires(rules[0], name) {
      FirstMatchFires(rules[1..], name);
      var k :| 0 <= k < |rules[1..]| && Fires(rules[1..][k], name)
                && rules[1..][k].value == FirstMatch(rules[1..], name).value;
      assert rules[k + 1] == rules[1..][k];
    } else {
      assert Fires(rules[0], name);
    }
  }
}

=== FILE: trace_event.dfy ===
/**
  zns.trace/util/event.py: the kernel-trace event record. Only the
  category is derived from the name; `pid` and `tid` are kept as given.
 */
module TraceEvent {
  import opened Wrappers
  import opened Text
  import opened PyModel
  import opened Classify

  const CatRules: seq<Rule<string>> := [
    Rule(["vfs", "rw_hint"], "VFS"),
    Rule(["z_"], "ZNS"),
    Rule(["f2fs"], "F2FS"),
    Rule(["mm"], "MM")]

  /** Category of a kernel-trace event name: the first substring test that succeeds decides. */
  function GetCat(name: string): Option<string> {
    if Contains(name, "vfs") || Contains(name, "rw_hint") then Some("VFS")
    else if Contains(name, "z_") then Some("ZNS")
    else if Contains(name, "f2fs") then Some("F2FS")
    else if Contains(name, "mm") then Some("MM")
    else None
  }

  /** get_cat is the first-match rule list CatRules. */
  lemma GetCatIsFirstMatch(name: string)
    ensures GetCat(name) == FirstMatch(CatRules, name)
  {
    AnyContainsOneTwo(name, "vfs", "rw_hint");
    AnyContainsOneTwo(name, "z_", "");
    AnyContainsOneTwo(name, "f2fs", "");
    AnyContainsOneTwo(name, "mm", "");
    FirstMatchStep(CatRules, name);
    FirstMatchStep(CatRules[1..], name);
    FirstMatchStep(CatRules[2..], name);
    FirstMatchStep(CatRules[3..], name);
    assert CatRules[1..][1..] == CatRules[2..] && CatRules[2..][1..] == CatRules[3..];
    assert CatRules[3..][1..] == [];
  }

  /** 'z_' is tested before 'f2fs', so a name with both is a ZNS event. */
  lemma ZnsBeforeF2fs(name: string)
    requires Contains(name, "z_") && Contains(name, "f2fs")
    requires !Contains(name, "vfs") && !Contains(name, "rw_hint")
    ensures GetCat(name) == Some("ZNS")
  {
  }

  lemma ZnsBeforeF2fsExample(name: string)
    requires name == "f2fs_z_reset"
    ensures GetCat(name) == Some("ZNS")
  {
    assert name == "f2fs_" + "z_" + "reset" == "" + "f2fs" + "_z_reset";
    ContainsInfix("f2fs_", "z_", "reset");
    ContainsInfix("", "f2fs", "_z_reset");
    NotContainsByChar(name, "vfs", 'v');
    NotContainsByChar(name, "rw_hint", 'w');
    ZnsBeforeF2fs(name);
  }

  datatype Event<P, T, A> = Event(name: string, cat: Option<string>, ph: string, ts: real,
                                  pid: P, tid: T, args: A)

  /** Event.__init__: ValueError for a non-integer timestamp, otherwise the record. */
  function NewEvent<P, T, A>(name: string, timestamp: string, phase: string, pid: P, tid: T,
                             args: A): (r: Result<Event<P, T, A>, PyError>)
    ensures r.Ok? <==> PyInt(timestamp).Some?
    ensures r.Err? ==> r.error == ValueError
    ensures r.Ok? ==> r.value.ts * 1000.0 == PyInt(timestamp).value as real
    ensures r.Ok? ==> r.value.cat == GetCat(name)
    ensures r.Ok? ==> r.value.pid == pid && r.value.tid == tid
    ensures r.Ok? ==> r.value.name == name && r.value.ph == phase && r.value.args == args
  {
    var ts := Micros(timestamp);
    if ts.Err? then Err(ts.error) else Ok(Event(name, GetCat(name), phase, ts.value, pid, tid, args))
  }
}

=== FILE: trace_helpers.dfy ===
/**
  zns.trace/util/helpers.py: the four code-to-name tables used to label
  trace data. Each is a Python `match` without a default case, so an
  unknown code falls through and the function returns None; nothing
  raises. Each table is paired with its inverse (`CmdCode`, `HintCode`,
  ...), and the round trips below are what makes a table injective.
 */
module TraceHelpers {
  import opened Wrappers

  /** NVMe opcode to command name (get_cmd). */
  function GetCmd(cmd: int): (r: Option<string>)
    ensures r == Some("nvme_cmd_write") <==> cmd == 1 || cmd == 2
    ensures r == Some("nvme_cmd_zone_append") <==> cmd == 0x7d
    ensures r == None <==> cmd != 1 && cmd != 2 && cmd != 0x7d
  {
    match cmd
    case 1 => Some("nvme_cmd_write")
    case 2 => Some("nvme_cmd_write")
    case 0x7d => Some("nvme_cmd_zone_append")
    case _ => None
  }

  /**
    How zns.trace/plot.py reads the same opcode field of the trace:
    1 is a write and 2 a read; anything else stops that script.
   */
  function PlotOperation(op: int): (r: Option<string>)
    ensures r.Some? <==> op == 1 || op == 2
  {
    if op == 1 then Some("write") else if op == 2 then Some("read") else None
  }

  /** get_cmd gives two opcodes one name, and one of them is a read to plot.py. */
  lemma CmdNotInjective()
    ensures GetCmd(1) == GetCmd(2) == Some("nvme_cmd_write")
    ensures PlotOperation(2) == Some("read")
  {
  }

  const HintNames: seq<string> := [
    "RWH_WRITE_LIFE_NOT_SET", "RWH_WRITE_LIFE_NONE", "RWH_WRITE_LIFE_SHORT",
    "RWH_WRITE_LIFE_MEDIUM", "RWH_WRITE_LIFE_LONG", "RWH_WRITE_LIFE_EXTREME"]

  /** Write-life hint to name (get_hint). */
  function GetHint(hint: int): (r: Option<string>)
    ensures r.Some? <==> 0 <= hint < |HintNames|
    ensures r.Some? ==> r.value == HintNames[hint]
  {
    match hint
    case 0 => Some("RWH_WRITE_LIFE_NOT_SET")
    case 1 => Some("RWH_WRITE_LIFE_NONE")
    case 2 => Some("RWH_WRITE_LIFE_SHORT")
    case 3 => Some("RWH_WRITE_LIFE_MEDIUM")
    case 4 => Some("RWH_WRITE_LIFE_LONG")
    case 5 => Some("RWH_WRITE_LIFE_EXTREME")
    case _ => None
  }

  /** The inverse table: hint name back to its code. */
  function HintCode(name: string): Option<int> {
    if name == "RWH_WRITE_LIFE_NOT_SET" then Some(0)
    else if name == "RWH_WRITE_LIFE_NONE" then Some(1)
    else if name == "RWH_WRITE_LIFE_SHORT" then Some(2)
    else if name == "RWH_WRITE_LIFE_MEDIUM" then Some(3)
    else if name == "RWH_WRITE_LIFE_LONG" then Some(4)
    else if name == "RWH_WRITE_LIFE_EXTREME" then Some(5)
    else None
  }

  /** get_hint and its inverse agree in both directions, so get_hint is injective on 0..5. */
  lemma HintRoundTrip(hint: int, name: string)
    ensures GetHint(hint) == Some(name) <==> HintCode(name) == Some(hint)
  {
  }

  lemma HintInjective(a: int, b: int)
    requires GetHint(a).Some? && GetHint(a) == GetHint(b)
    ensures a == b
  {
    HintRoundTrip(a, GetHint(a).value);
    HintRoundTrip(b, GetHint(a).value);
  }

  /** Temperature field of f2fs_io_info to name (get_temp). */
  function GetTemp(temp: int): (r: Option<string>)
    ensures r.Some? <==> 0 <= temp <= 2
    ensures r.Some? ==> TempCode(r.value) == Some(temp)
  {
    match temp
    case 0 => Some("HOT")
    case 1 => Some("WARM")
    case 2 => Some("COLD")
    case _ => None
  }

  function TempCode(name: string): Option<int> {
    if name == "HOT" then Some(0)
    else if name == "WARM" then Some(1)
    else if name == "COLD" then Some(2)
    else None
  }

  /** F2FS page type to name (get_type). */
  function GetType(pageType: int): (r: Option<string>)
    ensures r.Some? <==> 0 <= pageType <= 3
    ensures r.Some? ==> TypeCode(r.value) == Some(pageType)
  {
    match pageType
    case 0 => Some("DATA")
    case 1 => Some("NODE")
    case 2 => Some("META")
    case 3 => Some("META_FLUSH")
    case _ => None
  }

  function TypeCode(name: string): Option<int> {
    if name == "DATA" then Some(0)
    else if name == "NODE" then Some(1)
    else if name == "META" then Some(2)
    else if name == "META_FLUSH" then Some(3)
    else None
  }

  /** The temperature and type tables are injective too: every name they give decodes back. */
  lemma TempTypeRoundTrip(code: int, name: string)
    ensures GetTemp(code) == Some(name) <==> TempCode(name) == Some(code)
    ensures GetType(code) == Some(name) <==> TypeCode(name) == Some(code)
  {
  }
}

=== FILE: trace_timeline.dfy ===
/**
  zns.trace/util/timeline.py: the object serialised as the Chrome trace
  file. Events are only ever appended.
 */
module TraceTimeline {
  import opened TraceTimestamp

  const ToolName: string := "zns-tools ZNS SSD Contract Tracing Framework"
  const ToolVersion: string := "v0.1"

  class Timeline {
    var traceEvents: seq<Timestamp>
    var displayTimeUnit: string
    var systemTraceEvents: string
    var otherData: map<string, string>

    /** The metadata every timeline carries, whatever its events. */
    predicate HasHeader()
      reads this
    {
      displayTimeUnit == "ns" && systemTraceEvents == "SystemTraceData"
      && otherData == map["name" := ToolName, "version" := ToolVersion]
    }

    constructor ()
      ensures traceEvents == []
      ensures HasHeader()
    {
      traceEvents := [];
      displayTimeUnit := "ns";
      systemTraceEvents := "SystemTraceData";
      otherData := map["name" := ToolName, "version" := ToolVersion];
    }

    /**
      addTimestamp: the event goes at the end; the earlier events keep
      their order (no sorting, no de-duplication) and the metadata is
      untouched.
     */
    method AddTimestamp(t: Timestamp)
      modifies this
      ensures traceEvents == old(traceEvents) + [t]
      ensures |traceEvents| == |old(traceEvents)| + 1 && traceEvents[|traceEvents| - 1] == t
      ensures traceEvents[..|old(traceEvents)|] == old(traceEvents)
      ensures displayTimeUnit == old(displayTimeUnit) && systemTraceEvents == old(systemTraceEvents)
      ensures otherData == old(otherData)
    {
      traceEvents := traceEvents + [t];
    }
  }

  /** Adding the same event twice gives two entries: a list, not a set. */
  method AddTwice(t: Timestamp) returns (events: seq<Timestamp>)
    ensures events == [t, t]
  {
    var timeline := new Timeline();
    timeline.AddTimestamp(t);
    timeline.AddTimestamp(t);
    events := timeline.traceEvents;
  }
}

=== FILE: trace_timestamp.dfy ===
/**
  zns.trace/util/timestamp.py: the instant event tracegen emits for each
  map. Its name and category are the map name, its phase is always "i",
  its thread 0 and its arguments empty.
 */
module TraceTimestamp {
  import opened Wrappers
  import opened Text
  import opened PyModel

  datatype Timestamp = Timestamp(name: string, cat: string, ph: string, ts: real,
                                 pid: string, tid: int, args: string)

  /** Timestamp.__init__: ValueError when the timestamp text is not an integer. */
  function NewTimestamp(mapName: string, timestamp: string, pid: string): (r: Result<Timestamp, PyError>)
    ensures r.Ok? <==> PyInt(timestamp).Some?
    ensures r.Err? ==> r.error == ValueError
    ensures r.Ok? ==> r.value.name == mapName && r.value.cat == mapName
    ensures r.Ok? ==> r.value.ph == "i" && r.value.tid == 0 && r.value.args == ""
    ensures r.Ok? ==> r.value.ts * 1000.0 == PyInt(timestamp).value as real && r.value.pid == pid
  {
    var ts := Micros(timestamp);
    if ts.Err? then Err(ts.error) else Ok(Timestamp(mapName, mapName, "i", ts.value, pid, 0, ""))
  }

  /** The attributes that __init__ sets on the object. */
  const Attributes: set<string> := {"name", "cat", "ph", "ts", "pid", "tid", "args"}

  /**
    Timestamp.__str__ formats `self.map_name`, then `self.timestamp`, then
    `self.pid`; an attribute the object does not have raises AttributeError.
   */
  function Str(t: Timestamp): Result<string, PyError> {
    if "map_name" !in Attributes then Err(AttributeError)
    else if "timestamp" !in Attributes then Err(AttributeError)
    else Ok("Map " + t.name + ": " + t.pid)
  }

  /** __str__ fails on every Timestamp: __init__ never sets `map_name`. */
  lemma StrAlwaysRaises(t: Timestamp)
    ensures Str(t) == Err(AttributeError)
  {
    assert "map_name" !in Attributes;
  }
}

=== FILE: tracegen.dfy ===
/**
  zns.trace/tracegen.py, the decode loop: every input line is a JSON
  document whose "data" object maps a map name to an object of
  "timestamp,pid,..." keys. For every map, the FIRST key alone becomes an
  instant event named after the map with its '@' characters removed.
  Any exception ends the run before the timeline is written, so the
  model reports the first error instead of a timeline.
 */
module TraceGen {
  import opened Wrappers
  import opened Text
  import opened PyModel
  import opened TraceTimestamp
  import opened TraceTimeline

  /**
    A value as json.loads returns it; an object lists its keys in document
    order. Its keys are taken to be distinct, as in the dict json.loads
    builds, so `Lookup` finding the first entry for a key finds the only one.
   */
  datatype Json =
    | JNull
    | JBool(b: bool)
    | JNum(n: int)
    | JStr(s: string)
    | JList(items: seq<Json>)
    | JObj(entries: seq<(string, Json)>)

  /** `v[key]` with a string key. */
  function Subscript(v: Json, key: string): (r: Result<Json, PyError>)
    ensures r.Ok? ==> v.JObj? && exists i :: 0 <= i < |v.entries| && v.entries[i] == (key, r.value)
  {
    match v
    case JObj(entries) => Lookup(entries, key)
    case _ => Err(TypeError)
  }

  function Lookup(entries: seq<(string, Json)>, key: string): (r: Result<Json, PyError>)
    ensures r.Ok? ==> exists i :: 0 <= i < |entries| && entries[i] == (key, r.value)
    ensures r.Err? ==> r.error == KeyError && forall i | 0 <= i < |entries| :: entries[i].0 != key
  {
    if entries == [] then Err(KeyError)
    else if entries[0].0 == key then Ok(entries[0].1)
    else
      var r := Lookup(entries[1..], key);
      assert r.Ok? ==> exists i :: 0 <= i < |entries[1..]| && entries[1..][i] == (key, r.value);
      assert forall i | 1 <= i < |entries| :: entries[i] == entries[1..][i - 1];
      r
  }

  /** `v[i]` with an integer index: lists and strings are indexable, a dict has no int keys. */
  function Index(v: Json, i: nat): (r: Result<Json, PyError>)
    ensures r.Ok? <==> (v.JList? && i < |v.items|) || (v.JStr? && i < |v.s|)
  {
    match v
    case JList(items) => if i < |items| then Ok(items[i]) else Err(IndexError)
    case JStr(s) => if i < |s| then Ok(JStr([s[i]])) else Err(IndexError)
    case JObj(_) => Err(KeyError)
    case _ => Err(TypeError)
  }

  /** `v.items()`: only a dict has it. */
  function Items(v: Json): (r: Result<seq<(string, Json)>, PyError>)
    ensures r.Ok? <==> v.JObj?
  {
    if v.JObj? then Ok(v.entries) else Err(AttributeError)
  }

  /**
    The body of the key loop for one key: split the key on ',', take the
    timestamp and the pid, strip '@' from the map name, read the rw_hint
    value's first two elements (unused), then build the Timestamp.
   */
  function KeyEvent(mapName: string, key: string, value: Json): Result<Timestamp, PyError> {
    var items := SplitOn(key, {','});
    if |items| < 2 then Err(IndexError)
    else
      var name := RemoveChar(mapName, '@');
      var inode := if Contains(name, "rw_hint") then Index(value, 0) else Ok(value);
      var hint := if Contains(name, "rw_hint") && inode.Ok? then Index(value, 1) else Ok(value);
      if inode.Err? then Err(inode.error)
      else if hint.Err? then Err(hint.error)
      else NewTimestamp(name, items[0], items[1])
  }

  /** One map of a line: the first key only (the loop breaks after it), none for an empty map. */
  function MapEvents(entry: (string, Json)): Result<seq<Timestamp>, PyError> {
    var keys := Items(entry.1);
    if keys.Err? then Err(keys.error)
    else if keys.value == [] then Ok([])
    else
      var t := KeyEvent(entry.0, keys.value[0].0, keys.value[0].1);
      if t.Err? then Err(t.error) else Ok([t.value])
  }

  /** The events of the items in order, or the first error met. */
  function Collect<X>(xs: seq<X>, f: X -> Result<seq<Timestamp>, PyError>): Result<seq<Timestamp>, PyError> {
    if xs == [] then Ok([])
    else
      var init := Collect(xs[..|xs| - 1], f);
      if init.Err? then init
      else
        var last := f(xs[|xs| - 1]);
        if last.Err? then Err(last.error) else Ok(init.value + last.value)
  }

  /** One input line: `data["data"].items()`, then every map in order. */
  function LineEvents(line: Json): Result<seq<Timestamp>, PyError> {
    var maps := Subscript(line, "data");
    if maps.Err? then Err(maps.error)
    else
      var entries := Items(maps.value);
      if entries.Err? then Err(entries.error) else Collect(entries.value, MapEvents)
  }

  /** The whole input: the events of every line in order, or the first error. */
  function TraceEvents(lines: seq<Json>): Result<seq<Timestamp>, PyError> {
    Collect(lines, LineEvents)
  }

  lemma CollectStep<X>(xs: seq<X>, f: X -> Result<seq<Timestamp>, PyError>, i: nat)
    requires i < |xs|
    ensures Collect(xs[..i + 1], f)
         == if Collect(xs[..i], f).Err? then Collect(xs[..i], f)
            else if f(xs[i]).Err? then Err(f(xs[i]).error)
            else Ok(Collect(xs[..i], f).value + f(xs[i]).value)
  {
    assert xs[..i + 1][..i] == xs[..i];
  }

  /** One more item: its error ends the whole run, its events go after the earlier ones. */
  lemma CollectExtend<X>(xs: seq<X>, f: X -> Result<seq<Timestamp>, PyError>, i: nat, done: seq<Timestamp>)
    requires i < |xs| && Collect(xs[..i], f) == Ok(done)
    ensures f(xs[i]).Err? ==> Collect(xs, f) == Err(f(xs[i]).error)
    ensures f(xs[i]).Ok? ==> Collect(xs[..i + 1], f) == Ok(done + f(xs[i]).value)
  {
    CollectStep(xs, f, i);
    if f(xs[i]).Err? {
      CollectErrStays(xs, f, i + 1);
    }
  }

  /** An error stops the run: once a prefix fails, every longer input fails the same way. */
  lemma {:induction false} CollectErrStays<X>(xs: seq<X>, f: X -> Result<seq<Timestamp>, PyError>, i: nat)
    requires i <= |xs| && Collect(xs[..i], f).Err?
    ensures Collect(xs, f) == Collect(xs[..i], f)
    decreases |xs| - i
  {
    if i < |xs| {
      CollectStep(xs, f, i);
      CollectErrStays(xs, f, i + 1);
    } else {
      assert xs[..i] == xs;
    }
  }

  /** The events of a concatenated input are the events of each part, in order. */
  lemma {:induction false} CollectAppend<X>(xs: seq<X>, ys: seq<X>, f: X -> Result<seq<Timestamp>, PyError>)
    requires Collect(xs + ys, f).Ok?
    ensures Collect(xs, f).Ok? && Collect(ys, f).Ok?
    ensures Collect(xs + ys, f).value == Collect(xs, f).value + Collect(ys, f).value
    decreases |ys|
  {
    if ys == [] {
      assert xs + ys == xs;
    } else {
      var zs := xs + ys;
      assert zs[..|zs| - 1] == xs + ys[..|ys| - 1];
      assert zs[|zs| - 1] == ys[|ys| - 1];
      CollectAppend(xs, ys[..|ys| - 1], f);
    }
  }

  /** Every collected event comes from one item's own events. */
  lemma {:induction false} CollectAll<X>(xs: seq<X>, f: X -> Result<seq<Timestamp>, PyError>, p: Timestamp -> bool)
    requires forall x | x in xs && f(x).Ok? :: forall t | t in f(x).value :: p(t)
    requires Collect(xs, f).Ok?
    ensures forall t | t in Collect(xs, f).value :: p(t)
  {
    if xs != [] {
      assert forall x | x in xs[..|xs| - 1] :: x in xs;
      CollectAll(xs[..|xs| - 1], f, p);
    }
  }

  /** Number of maps with at least one key, for any map of a line that is a dict. */
  function NonEmptyMaps(maps: seq<(string, Json)>): nat {
    if maps == [] then 0
    else NonEmptyMaps(maps[..|maps| - 1])
         + (if maps[|maps| - 1].1.JObj? && maps[|maps| - 1].1.entries != [] then 1 else 0)
  }

  /** One event per map that has a key, none for a map without keys. */
  lemma {:induction false} OneEventPerMap(maps: seq<(string, Json)>)
    requires Collect(maps, MapEvents).Ok?
    ensures |Collect(maps, MapEvents).value| == NonEmptyMaps(maps)
  {
    if maps != [] {
      OneEventPerMap(maps[..|maps| - 1]);
    }
  }

  /** A map with no keys contributes nothing. */
  lemma EmptyMapNoEvent(mapName: string)
    ensures MapEvents((mapName, JObj([]))) == Ok([])
  {
  }

  /** Only the first key of a map is looked at: later keys change nothing. */
  lemma FirstKeyOnly(mapName: string, first: (string, Json), rest1: seq<(string, Json)>, rest2: seq<(string, Json)>)
    ensures MapEvents((mapName, JObj([first] + rest1))) == MapEvents((mapName, JObj([first] + rest2)))
  {
  }

  /** A key without a comma has no pid field: IndexError. */
  lemma KeyWithoutComma(mapName: string, key: string, value: Json)
    requires ',' !in key
    ensures KeyEvent(mapName, key, value) == Err(IndexError)
  {
    SplitOnMany(key, {','});
  }

  /** The rw_hint value is read (and can fail) but never reaches the event. */
  lemma HintValueUnused(mapName: string, key: string, v1: Json, v2: Json)
    requires KeyEvent(mapName, key, v1).Ok? && KeyEvent(mapName, key, v2).Ok?
    ensures KeyEvent(mapName, key, v1) == KeyEvent(mapName, key, v2)
  {
  }

  /** The event of a key: map name without '@', timestamp and pid from the key's first two fields. */
  lemma KeyEventFields(mapName: string, key: string, value: Json)
    requires KeyEvent(mapName, key, value).Ok?
    ensures var t := KeyEvent(mapName, key, value).value;
      var items := SplitOn(key, {','});
      |items| >= 2 && t.name == RemoveChar(mapName, '@') && '@' !in t.name
      && PyInt(items[0]).Some? && t.ts * 1000.0 == PyInt(items[0]).value as real
      && t.pid == items[1] && t.ph == "i"
  {
  }

  ghost predicate Clean(t: Timestamp) {
    '@' !in t.name && t.name == t.cat && t.ph == "i" && t.tid == 0 && t.args == ""
  }

  /** Every event of a successful run is an instant event whose name has no '@'. */
  lemma AllEventsClean(lines: seq<Json>)
    requires TraceEvents(lines).Ok?
    ensures forall t | t in TraceEvents(lines).value :: Clean(t)
  {
    forall line | line in lines && LineEvents(line).Ok?
      ensures forall t | t in LineEvents(line).value :: Clean(t)
    {
      var maps := Subscript(line, "data").value;
      var entries := Items(maps).value;
      CollectAll(entries, MapEvents, (t: Timestamp) => Clean(t));
    }
    CollectAll(lines, LineEvents, (t: Timestamp) => Clean(t));
  }

  /** The lines' events come out in line order: the events of a + b are a's then b's. */
  lemma LinesInOrder(a: seq<Json>, b: seq<Json>)
    requires TraceEvents(a + b).Ok?
    ensures TraceEvents(a).Ok? && TraceEvents(b).Ok?
    ensures TraceEvents(a + b).value == TraceEvents(a).value + TraceEvents(b).value
  {
    CollectAppend(a, b, LineEvents);
  }

  /** The frame every step keeps: only traceEvents may change. */
  twostate predicate HeaderKept(timeline: Timeline)
    reads timeline
  {
    timeline.displayTimeUnit == old(timeline.displayTimeUnit)
    && timeline.systemTraceEvents == old(timeline.systemTraceEvents)
    && timeline.otherData == old(timeline.otherData)
  }

  /**
    The loop of tracegen.py over the input lines, appending to the
    timeline. On success the timeline has gained exactly TraceEvents(lines);
    on failure the error is the first one TraceEvents meets.
   */
  method Generate(timeline: Timeline, lines: seq<Json>) returns (status: Result<(), PyError>)
    modifies timeline
    ensures status.Ok? <==> TraceEvents(lines).Ok?
    ensures status.Err? ==> status.error == TraceEvents(lines).error
    ensures status.Ok? ==> timeline.traceEvents == old(timeline.traceEvents) + TraceEvents(lines).value
    ensures HeaderKept(timeline)
  {
    var i := 0;
    ghost var start := timeline.traceEvents;
    ghost var done: seq<Timestamp> := [];
    while i < |lines|
      invariant 0 <= i <= |lines|
      invariant TraceEvents(lines[..i]) == Ok(done)
      invariant timeline.traceEvents == start + done
      invariant HeaderKept(timeline)
    {
      var lineStatus := AddLine(timeline, lines[i]);
      if lineStatus.Err? {
        LineErrorEndsRun(lines, i, done);
        return lineStatus;
      }
      ghost var added := LineEvents(lines[i]).value;
      LineExtendsRun(lines, i, done);
      Concat3(start, done, added);
      done := done + added;
      i := i + 1;
    }
    assert lines[..i] == lines;
    status := Ok(());
  }

  lemma Concat3(a: seq<Timestamp>, b: seq<Timestamp>, c: seq<Timestamp>)
    ensures (a + b) + c == a + (b + c)
  {
  }

  /** An error on line i is the error of the whole run. */
  lemma LineErrorEndsRun(lines: seq<Json>, i: nat, done: seq<Timestamp>)
    requires i < |lines| && TraceEvents(lines[..i]) == Ok(done)
    requires LineEvents(lines[i]).Err?
    ensures TraceEvents(lines) == Err(LineEvents(lines[i]).error)
  {
    CollectExtend(lines, LineEvents, i, done);
  }

  /** A line without error adds its events to those of the lines before it. */
  lemma LineExtendsRun(lines: seq<Json>, i: nat, done: seq<Timestamp>)
    requires i < |lines| && TraceEvents(lines[..i]) == Ok(done)
    requires LineEvents(lines[i]).Ok?
    ensures TraceEvents(lines[..i + 1]) == Ok(done + LineEvents(lines[i]).value)
  {
    CollectExtend(lines, LineEvents, i, done);
  }

  /** One line: `for map_name, map_data in data["data"].items()`. */
  method AddLine(timeline: Timeline, line: Json) returns (status: Result<(), PyError>)
    modifies timeline
    ensures status.Ok? <==> LineEvents(line).Ok?
    ensures status.Err? ==> status.error == LineEvents(line).error
    ensures status.Ok? ==> timeline.traceEvents == old(timeline.traceEvents) + LineEvents(line).value
    ensures HeaderKept(timeline)
  {
    var data := Subscript(line, "data");
    if data.Err? {
      return Err(data.error);
    }
    var maps := Items(data.value);
    if maps.Err? {
      return Err(maps.error);
    }
    var entries := maps.value;
    var j := 0;
    ghost var done: seq<Timestamp> := [];
    while j < |entries|
      invariant 0 <= j <= |entries|
      invariant Collect(entries[..j], MapEvents) == Ok(done)
      invariant timeline.traceEvents == old(timeline.traceEvents) + done
      invariant HeaderKept(timeline)
    {
      CollectExtend(entries, MapEvents, j, done);
      var mapStatus := AddMap(timeline, entries[j].0, entries[j].1);
      if mapStatus.Err? {
        return mapStatus;
      }
      done := done + MapEvents(entries[j]).value;
      j := j + 1;
    }
    assert entries[..j] == entries;
    status := Ok(());
  }

  /** One map: `for key, value in map_data.items()`, left by `break` after the first key. */
  method AddMap(timeline: Timeline, mapName: string, mapData: Json) returns (status: Result<(), PyError>)
    modifies timeline
    ensures status.Ok? <==> MapEvents((mapName, mapData)).Ok?
    ensures status.Err? ==> status.error == MapEvents((mapName, mapData)).error
    ensures status.Ok? ==> timeline.traceEvents == old(timeline.traceEvents) + MapEvents((mapName, mapData)).value
    ensures HeaderKept(timeline)
  {
    var items := Items(mapData);
    if items.Err? {
      return Err(items.error);
    }
    var keys := items.value;
    // The key loop ends in an unconditional `break`: only the first key is visited.
    if 0 < |keys| {
      var t := KeyEvent(mapName, keys[0].0, keys[0].1);
      if t.Err? {
        return Err(t.error);
      }
      timeline.AddTimestamp(t.value);
    }
    status := Ok(());
  }
}

=== FILE: zmap.dfy ===
/**
  lib/libzmap.c: the 1-based zone number of an LBA. The same function is
  repeated as a static helper in src/filemap.c (lines 30-38); both use
  this one definition.
 */
module Zmap {
  import opened Bits

  /**
    get_zone_number: mask the LBA with `~(zone_size - 1)` and divide by
    the zone size, counting zones from 1. A masked LBA of 0 gives zone 1
    without dividing, which is also what keeps a zone size of 0 from
    dividing by zero (the mask is then 0). The quotient plus one is
    computed in 64 bits and returned as uint32_t.
   */
  function ZoneNumber(lba: u64, zoneSize: u64): (r: u32)
    ensures zoneSize == 0 ==> r == 1
  {
    MaskFacts(lba, zoneSize);
    ZoneOfMasked(And(lba, Not64(Sub64(zoneSize, 1))), zoneSize)
  }

  /** The zone number of an already masked LBA `slba`. */
  function ZoneOfMasked(slba: u64, zoneSize: u64): u32
    requires zoneSize == 0 ==> slba == 0
  {
    if slba == 0 then 1
    else
      DivBounds(slba, zoneSize);
      ToU32(Add64(slba / zoneSize, 1))
  }

  /** The masked LBA is at most the LBA, and 0 when the zone size is 0. */
  lemma MaskFacts(lba: u64, zoneSize: u64)
    ensures And(lba, Not64(Sub64(zoneSize, 1))) <= lba
    ensures zoneSize == 0 ==> And(lba, Not64(Sub64(zoneSize, 1))) == 0
  {
    AndUpperBound(lba, Not64(Sub64(zoneSize, 1)));
    if zoneSize == 0 {
      assert Sub64(zoneSize, 1) == TWO64 - 1;
      AndZeroRight(lba);
    }
  }

  /** The masked start of the zone holding `lba`, when the zone size is 2^k. */
  lemma MaskedStart(lba: u64, z: u64, k: nat)
    requires k < 64 && z == Pow2(k)
    ensures And(lba, Not64(Sub64(z, 1))) == (lba / z) * z
  {
    RoundDown64(lba, k);
  }

  /**
    For a power-of-two zone size Z the result is lba / Z + 1, as long as
    that zone index fits the uint32_t return type.
   */
  lemma ZoneNumberPow2(lba: u64, z: u64, k: nat)
    requires k < 64 && z == Pow2(k) && lba / z + 1 < TWO32
    ensures ZoneNumber(lba, z) == lba / z + 1
  {
    MaskedStart(lba, z, k);
    ZoneNumberOfStart(lba, z, lba / z);
  }

  /** A zone number computed from a masked start q * z. */
  lemma ZoneNumberOfStart(lba: u64, z: u64, q: nat)
    requires z > 0 && And(lba, Not64(Sub64(z, 1))) == q * z && q + 1 < TWO32
    ensures ZoneNumber(lba, z) == q + 1
  {
    MaskFacts(lba, z);
    ZoneOfMaskedMultiple(And(lba, Not64(Sub64(z, 1))), z, q);
  }

  lemma ZoneOfMaskedMultiple(slba: u64, z: u64, q: nat)
    requires z > 0 && slba == q * z && q + 1 < TWO32
    ensures ZoneOfMasked(slba, z) == q + 1
  {
    if q != 0 {
      DivModUnique(slba, z, q, 0);
    }
  }

  /**
    The zone number is at least 1, for any zone size, as long as the zone
    index of the LBA fits the uint32_t return type.
   */
  lemma ZoneNumberAtLeastOne(lba: u64, zoneSize: u64)
    requires zoneSize == 0 || lba / zoneSize + 1 < TWO32
    ensures ZoneNumber(lba, zoneSize) >= 1
  {
    MaskFacts(lba, zoneSize);
    var slba := And(lba, Not64(Sub64(zoneSize, 1)));
    if zoneSize != 0 {
      ZoneOfMaskedAtLeastOne(slba, zoneSize, lba);
    }
  }

  lemma ZoneOfMaskedAtLeastOne(slba: u64, z: u64, lba: u64)
    requires z > 0 && slba <= lba && lba / z + 1 < TWO32
    ensures ZoneOfMasked(slba, z) >= 1
  {
    if slba != 0 {
      var q := slba / z;
      DivMonotone(slba, lba, z);
      DivBounds(slba, z);
      assert 1 <= q + 1 < TWO32;
      DivModUnique(q + 1, TWO64, 0, q + 1);
      DivModUnique(q + 1, TWO32, 0, q + 1);
    }
  }

  /**
    The uint32_t return type wraps: with zones of one sector, LBA
    2^32 - 1 is reported as zone 0.
   */
  lemma ZoneNumberWraps(lba: u64)
    requires lba == TWO32 - 1
    ensures ZoneNumber(lba, 1) == 0
  {
    Pow2Of64();
    AndLowOnes(lba, 64);
    assert Not64(Sub64(1, 1)) == Pow2(64) - 1;
  }

  /** LBAs in the same Z-aligned block share their zone number. */
  lemma SameBlockSameZone(a: u64, b: u64, z: u64, k: nat)
    requires k < 64 && z == Pow2(k) && a / z == b / z
    ensures ZoneNumber(a, z) == ZoneNumber(b, z)
  {
    MaskedStart(a, z, k);
    MaskedStart(b, z, k);
  }

  /** For a power-of-two zone size the zone number never decreases as the LBA grows. */
  lemma ZoneNumberMonotone(a: u64, b: u64, z: u64, k: nat)
    requires k < 64 && z == Pow2(k) && a <= b && b / z + 1 < TWO32
    ensures ZoneNumber(a, z) <= ZoneNumber(b, z)
  {
    DivMonotone(a, b, z);
    ZoneNumberPow2(a, z, k);
    ZoneNumberPow2(b, z, k);
  }

  lemma DivMonotone(a: nat, b: nat, m: nat)
    requires a <= b && m > 0
    ensures a / m <= b / m
  {
    var qa, qb := a / m, b / m;
    DivModIdentity(a, m);
    DivModIdentity(b, m);
    assert qa * m < (qb + 1) * m;
    MulLessCancel(qa, qb + 1, m);
  }

  lemma MulLessCancel(x: int, y: int, m: int)
    requires m > 0 && x * m < y * m
    ensures x < y
  {
    assert (y - x) * m > 0;
  }
}

=== FILE: zns_tools.dfy ===
/**
  lib/libzns-tools.c: the library every zns-tools program links. It
  derives the sector and segment shifts of the device, maps LBAs to
  0-based zone numbers, keeps one list of extents per zone sorted by
  physical block, counts extents, segments and zones per file, and
  collects a file's extents from FIEMAP answers.
 */
module ZnsTools {
  import opened Wrappers
  import opened Bits
  import opened Extents

  /** F2FS_SEGMENT_BYTES: an F2FS segment is 2 MiB. */
  const F2fsSegmentBytes: nat := 2097152

  /** MAX_FILE_LENGTH: the size of the name buffer of a file counter. */
  const MaxFileLength: nat := 50

  /** The shift and mask fields init_znsdev derives from the sector size. */
  datatype Geometry = Geometry(sectorShift: nat, segmentSectors: u64, segmentMask: u64,
                               segmentShift: nat)

  /**
    init_znsdev: 512-byte sectors shift by 9, any other size by 12; a
    segment is 2 MiB of sectors; its mask clears the offset inside a
    segment, and `segment_shift` turns a segment start into a segment id.
   */
  function InitShifts(sectorSize: nat): (g: Geometry)
    ensures g.sectorShift == 9 || g.sectorShift == 12
    ensures g.segmentSectors * Pow2(g.sectorShift) == F2fsSegmentBytes
    ensures g.segmentShift < 64 && g.segmentSectors == Pow2(g.segmentShift)
    ensures g.segmentMask == TWO64 - g.segmentSectors
  {
    Pow2Small();
    LowMask64(9);
    LowMask64(12);
    var sectorShift := if sectorSize == 512 then 9 else 12;
    var segmentSectors := Shr(F2fsSegmentBytes, sectorShift);
    Geometry(sectorShift, segmentSectors, Not64(Sub64(segmentSectors, 1)),
             if sectorSize == 512 then 12 else 9)
  }

  /** `(blk & f2fs_segment_mask) >> segment_shift`: the segment an F2FS block belongs to. */
  function SegmentId(g: Geometry, blk: u64): nat {
    Shr(And(blk, g.segmentMask), g.segmentShift)
  }

  /**
    With the shifts init_znsdev sets, the masked block is the start of its
    segment and the segment id is the block divided by the segment size.
   */
  lemma SegmentIdIsQuotient(sectorSize: nat, blk: u64)
    ensures var g := InitShifts(sectorSize);
      And(blk, g.segmentMask) == (blk / g.segmentSectors) * g.segmentSectors
      && SegmentId(g, blk) == blk / g.segmentSectors
  {
    var g := InitShifts(sectorSize);
    var k := g.segmentShift;
    LowMask64(k);
    RoundDown64(blk, k);
    var q := blk / g.segmentSectors;
    DivBounds(blk, g.segmentSectors);
    DivModUnique(q * g.segmentSectors, g.segmentSectors, q, 0);
  }

  /**
    get_zone_number: 0-based. The mask `~((zone_size << zns_sector_shift)
    - 1)` is stored in a uint32_t, so it also clears the upper 32 bits of
    the LBA. None stands for the division by zero of a zone size of 0.
   */
  function ZoneNumber(lba: u64, zoneSize: u64, znsSectorShift: nat): (r: Option<u32>)
    ensures r.None? <==> Shl64(zoneSize, znsSectorShift) == 0
  {
    var z := Shl64(zoneSize, znsSectorShift);
    var mask := ToU32(Not64(Sub64(z, 1)));
    if z == 0 then None
    else
      AndUpperBound(lba, mask);
      DivBounds(And(lba, mask), z);
      Some(ToU32(And(lba, mask) / z))
  }

  /** Only the low 32 bits of the LBA matter. */
  lemma ZoneNumberUsesLow32Bits(lba: u64, zoneSize: u64, znsSectorShift: nat)
    ensures ZoneNumber(lba, zoneSize, znsSectorShift) == ZoneNumber(lba % TWO32, zoneSize, znsSectorShift)
  {
    var z := Shl64(zoneSize, znsSectorShift);
    var mask := ToU32(Not64(Sub64(z, 1)));
    Pow2Of32();
    AndTruncate(lba, mask, 32);
    AndTruncate(lba % TWO32, mask, 32);
  }

  /**
    For a zone of 2^k sectors, k <= 32, the zone number is the zone index
    of the low 32 bits of the LBA.
   */
  lemma ZoneNumberPow2(lba: u64, zoneSize: u64, znsSectorShift: nat, k: nat)
    requires k <= 32 && Shl64(zoneSize, znsSectorShift) == Pow2(k)
    ensures ZoneNumber(lba, zoneSize, znsSectorShift) == Some((lba % TWO32) / Pow2(k))
  {
    var z := Pow2(k);
    var mask := Mask32(k);
    var x := lba % TWO32;
    Pow2Of32();
    AndTruncate(lba, mask, 32);
    AndHighMask(x, 32, k);
    ZoneIndexOfStart(x, z);
    DivBounds(x, z);
    DivModUnique(x / z, TWO32, 0, x / z);
    assert And(lba, mask) / z == x / z;
    assert ToU32(x / z) == x / z;
  }

  /** The uint32_t mask of a zone of 2^k sectors keeps the bits from k to 31. */
  lemma Mask32(k: nat) returns (mask: nat)
    requires k <= 32
    ensures Pow2(k) <= TWO32 && mask == TWO32 - Pow2(k)
    ensures mask == ToU32(Not64(Sub64(Pow2(k), 1)))
  {
    Pow2Of32();
    Pow2Monotone(k, 32);
    LowMask64(k);
    DivModUnique(TWO64 - Pow2(k), TWO32, TWO32 - 1, TWO32 - Pow2(k));
    mask := TWO32 - Pow2(k);
  }

  lemma ZoneIndexOfStart(x: nat, z: nat)
    requires 0 < z && x < TWO32
    ensures (x - x % z) / z == x / z && x / z < TWO32
  {
    DivModIdentity(x, z);
    DivBounds(x, z);
    DivModUnique(x - x % z, z, x / z, 0);
  }

  /**
    The truncation in action: LBA 2^32 lies beyond the first zone for
    every zone size up to 2^32 sectors, yet it is reported in zone 0.
   */
  lemma ZoneNumberDropsHighBits(lba: u64, zoneSize: u64, znsSectorShift: nat, k: nat)
    requires lba == TWO32 && k <= 32 && Shl64(zoneSize, znsSectorShift) == Pow2(k)
    ensures lba / Pow2(k) >= 1
    ensures ZoneNumber(lba, zoneSize, znsSectorShift) == Some(0)
  {
    ZoneNumberUsesLow32Bits(lba, zoneSize, znsSectorShift);
    Pow2Of32();
    Pow2Monotone(k, 32);
    DivAtLeastOne(lba, Pow2(k));
    assert lba % TWO32 == 0;
    AndZeroLeft(ToU32(Not64(Sub64(Pow2(k), 1))));
    DivModUnique(0, Pow2(k), 0, 0);
  }

  lemma DivAtLeastOne(a: nat, m: nat)
    requires 0 < m <= a
    ensures a / m >= 1
  {
    DivBounds(a - m, m);
    DivModUnique(a, m, (a - m) / m + 1, (a - m) % m);
  }

  /** `struct extent`, the fields the library sets (zone_wp, zone_lbae and the like come from the device and are not part of this model). */
  datatype Extent = Extent(zone: u32, flags: u32, extNr: u32, fileId: nat,
                           logicalBlk: u64, phyBlk: u64, len: u64, zoneSize: u64, file: string)

  /** A zone's extent list is non-decreasing by physical block. */
  predicate SortedByPhy(list: seq<Extent>) {
    forall i, j | 0 <= i < j < |list| :: list[i].phyBlk <= list[j].phyBlk
  }

  /**
    Where sorted_zone_list_insert links a node with physical block `key`:
    in front of the first node whose physical block is not smaller.
   */
  function InsertPos(list: seq<Extent>, key: u64): (p: nat)
    ensures p <= |list|
    ensures forall i | 0 <= i < p :: list[i].phyBlk < key
    ensures p < |list| ==> list[p].phyBlk >= key
  {
    if list == [] || list[0].phyBlk >= key then 0
    else
      var p := InsertPos(list[1..], key);
      assert forall i | 1 <= i < p + 1 :: list[i] == list[1..][i - 1];
      p + 1
  }

  /** The position of the walk is the only one with both properties. */
  lemma InsertPosUnique(list: seq<Extent>, key: u64, i: nat)
    requires i <= |list| && (forall j | 0 <= j < i :: list[j].phyBlk < key)
    requires i < |list| ==> list[i].phyBlk >= key
    ensures InsertPos(list, key) == i
  {
  }

  /** The list after sorted_zone_list_insert relinks the new node. */
  function Inserted(list: seq<Extent>, e: Extent): seq<Extent> {
    var p := InsertPos(list, e.phyBlk);
    list[..p] + [e] + list[p..]
  }

  /** Insertion keeps a sorted list sorted. */
  lemma InsertedSorted(list: seq<Extent>, e: Extent)
    requires SortedByPhy(list)
    ensures SortedByPhy(Inserted(list, e))
  {
    var p := InsertPos(list, e.phyBlk);
    var r := Inserted(list, e);
    forall i, j | 0 <= i < j < |r|
      ensures r[i].phyBlk <= r[j].phyBlk
    {
      if j < p || i > p {
      } else if i == p {
        assert r[j] == list[j - 1];
      } else {
        assert j >= p;
      }
    }
  }

  /**
    Insertion adds exactly the new extent, one longer than before, and
    taking it out again gives the old list in its old order.
   */
  lemma InsertedContents(list: seq<Extent>, e: Extent)
    ensures var r := Inserted(list, e);
      |r| == |list| + 1
      && multiset(r) == multiset(list) + multiset{e}
      && exists p | 0 <= p < |r| :: r[p] == e && r[..p] + r[p + 1..] == list
  {
    var p := InsertPos(list, e.phyBlk);
    var r := Inserted(list, e);
    assert list == list[..p] + list[p..];
    assert r[..p] == list[..p] && r[p + 1..] == list[p..];
    assert r[p] == e;
  }

  /**
    sorted_zone_list_insert: walk the links while the node there has a
    smaller physical block, then link the new node in front of it.
   */
  method SortedInsert(list: seq<Extent>, e: Extent) returns (r: seq<Extent>)
    ensures r == Inserted(list, e)
  {
    var i := 0;
    while i < |list| && list[i].phyBlk < e.phyBlk
      invariant i <= |list|
      invariant forall j | 0 <= j < i :: list[j].phyBlk < e.phyBlk
    {
      i := i + 1;
    }
    InsertPosUnique(list, e.phyBlk, i);
    r := list[..i] + [e] + list[i..];
  }

  /** One `struct zone`: its extent list and its extent counter. */
  datatype Zone = Zone(extents: seq<Extent>, extentCtr: nat)

  /** All extents held by a run of zones. */
  function Bag(zs: seq<Zone>): multiset<Extent> {
    if zs == [] then multiset{} else Bag(zs[..|zs| - 1]) + multiset(zs[|zs| - 1].extents)
  }

  /** Replacing one zone replaces its extents in the bag and nothing else. */
  lemma {:induction false} BagUpdate(zs: seq<Zone>, i: nat, z: Zone)
    requires i < |zs|
    ensures Bag(zs[i := z]) == Bag(zs) - multiset(zs[i].extents) + multiset(z.extents)
    decreases |zs|
  {
    var n := |zs| - 1;
    var ys := zs[i := z];
    if i == n {
      assert ys[..n] == zs[..n];
    } else {
      assert ys[..n] == zs[..n][i := z];
      BagUpdate(zs[..n], i, z);
      BagHolds(zs[..n], i);
    }
  }

  /** A zone's extents are part of the bag. */
  lemma {:induction false} BagHolds(zs: seq<Zone>, i: nat)
    requires i < |zs|
    ensures multiset(zs[i].extents) <= Bag(zs)
    decreases |zs|
  {
    var n := |zs| - 1;
    if i < n {
      BagHolds(zs[..n], i);
    }
  }

  /**
    A zone's counter is the length of its list, the list is sorted, and
    it holds only extents of zone `idx`.
   */
  ghost predicate ValidZone(z: Zone, idx: int) {
    |z.extents| == z.extentCtr && SortedByPhy(z.extents)
    && forall e | e in z.extents :: e.zone as int == idx
  }

  /** Every zone of the run is valid at its own index. */
  ghost predicate ValidZones(zs: seq<Zone>) {
    zs == [] || (ValidZones(zs[..|zs| - 1]) && ValidZone(zs[|zs| - 1], |zs| - 1))
  }

  /** A valid run of zones is valid at each index. */
  lemma {:induction false} ValidZonesAt(zs: seq<Zone>, i: nat)
    requires ValidZones(zs) && i < |zs|
    ensures ValidZone(zs[i], i)
    decreases |zs|
  {
    if i < |zs| - 1 {
      ValidZonesAt(zs[..|zs| - 1], i);
    }
  }

  /** Replacing one zone of a valid run by a zone valid at that index keeps the run valid. */
  lemma {:induction false} ValidZonesUpdate(zs: seq<Zone>, i: nat, z: Zone)
    requires ValidZones(zs) && i < |zs| && ValidZone(z, i)
    ensures ValidZones(zs[i := z])
    decreases |zs|
  {
    var n := |zs| - 1;
    if i < n {
      assert zs[i := z][..n] == zs[..n][i := z];
      ValidZonesUpdate(zs[..n], i, z);
    } else {
      assert zs[i := z][..n] == zs[..n];
    }
  }

  /** Zones that are all empty, with counters of 0, are valid. */
  lemma {:induction false} EmptyZonesValid(zs: seq<Zone>)
    requires forall i | 0 <= i < |zs| :: zs[i] == Zone([], 0)
    ensures ValidZones(zs)
    decreases |zs|
  {
    if zs != [] {
      EmptyZonesValid(zs[..|zs| - 1]);
    }
  }

  /** Sorted insertion of an extent of the zone keeps the zone valid. */
  lemma InsertKeepsZoneValid(z: Zone, e: Extent)
    requires ValidZone(z, e.zone as int)
    ensures ValidZone(Zone(Inserted(z.extents, e), z.extentCtr + 1), e.zone as int)
  {
    var list := Inserted(z.extents, e);
    InsertedSorted(z.extents, e);
    InsertedContents(z.extents, e);
    forall x | x in list ensures x.zone == e.zone {
      assert x in multiset(list);
    }
  }

  /** Inserting an extent into its own zone keeps the zones valid and adds it to the bag. */
  lemma ZoneInsertKeepsValid(zs: seq<Zone>, e: Extent, zs': seq<Zone>)
    requires ValidZones(zs) && e.zone as int < |zs|
    requires zs' == zs[e.zone := Zone(Inserted(zs[e.zone].extents, e), zs[e.zone].extentCtr + 1)]
    ensures ValidZones(zs')
    ensures Bag(zs') == Bag(zs) + multiset{e}
  {
    ValidZonesAt(zs, e.zone as nat);
    InsertKeepsZoneValid(zs[e.zone], e);
    ValidZonesUpdate(zs, e.zone as nat, zs'[e.zone]);
    BagInsert(zs, e.zone as nat, e, zs');
  }

  /** Adding `e` to its zone as add_extent_to_zone_list does keeps the zones valid. */
  lemma ZoneAddKeepsValid(zs: seq<Zone>, e: Extent, list: seq<Extent>, zs': seq<Zone>)
    requires e.zone as int < |zs|
    requires list == if zs[e.zone].extentCtr == 0 then [e] else Inserted(zs[e.zone].extents, e)
    requires zs' == zs[e.zone := Zone(list, zs[e.zone].extentCtr + 1)]
    ensures ValidZones(zs) ==>
      list == Inserted(zs[e.zone].extents, e) && ValidZones(zs') && Bag(zs') == Bag(zs) + multiset{e}
  {
    if !ValidZones(zs) {
      return;
    }
    if zs[e.zone].extentCtr == 0 {
      ValidZonesAt(zs, e.zone as nat);
      assert zs[e.zone].extents == [];
      assert Inserted([], e) == [e];
    }
    ZoneInsertKeepsValid(zs, e, zs');
  }

  lemma BagInsert(zs: seq<Zone>, i: nat, e: Extent, zs': seq<Zone>)
    requires i < |zs| && zs' == zs[i := Zone(Inserted(zs[i].extents, e), zs[i].extentCtr + 1)]
    ensures Bag(zs') == Bag(zs) + multiset{e}
  {
    InsertedContents(zs[i].extents, e);
    BagUpdate(zs, i, zs'[i]);
    BagHolds(zs, i);
  }

  /** `struct zone_map`: the per-zone lists and the counters kept over all of them. */
  class ZoneMap {
    const zones: array<Zone>
    var extentCtr: nat
    var cumExtentSize: u64
    var zoneCtr: nat

    /** The zone lists as ValidZones describes them. */
    ghost predicate Valid()
      reads this, zones
    {
      ValidZones(zones[..])
    }

    /** init_zone_map: `nr_zones` zones, all empty, all counters 0. */
    constructor (nrZones: nat)
      ensures zones.Length == nrZones && fresh(zones)
      ensures forall z | 0 <= z < nrZones :: zones[z] == Zone([], 0)
      ensures extentCtr == 0 && cumExtentSize == 0 && zoneCtr == 0
      ensures Valid()
    {
      zones := new Zone[nrZones](_ => Zone([], 0));
      extentCtr, cumExtentSize, zoneCtr := 0, 0, 0;
      new;
      EmptyZonesValid(zones[..]);
    }

    /**
      add_extent_to_zone_list: an empty zone gets the node as its head,
      any other zone gets it by sorted insertion; the zone's counter goes
      up by one and no other zone changes.
     */
    method AddExtentToZoneList(e: Extent)
      requires e.zone as int < zones.Length
      modifies zones
      ensures zones[..] == old(zones[..])[e.zone := Zone(
                if old(zones[e.zone].extentCtr) == 0 then [e] else Inserted(old(zones[e.zone].extents), e),
                old(zones[e.zone].extentCtr) + 1)]
      ensures old(Valid()) ==> Valid() && zones[e.zone].extents == Inserted(old(zones[e.zone].extents), e)
      ensures old(Valid()) ==> Bag(zones[..]) == Bag(old(zones[..])) + multiset{e}
    {
      var zone := zones[e.zone];
      var list;
      if zone.extentCtr == 0 {
        list := [e];
      } else {
        list := SortedInsert(zone.extents, e);
      }
      ghost var before := zones[..];
      zones[e.zone] := Zone(list, zone.extentCtr + 1);
      ghost var after := zones[..];
      assert after == before[e.zone := Zone(list, zone.extentCtr + 1)];
      ZoneAddKeepsValid(before, e, list, after);
    }
  }

  /** `struct file_counter`: a file's name buffer and its counters. */
  datatype FileCounter = FileCounter(file: string, extCtr: nat, segmentCtr: nat, zoneCtr: nat,
                                     coldCtr: nat, warmCtr: nat, hotCtr: nat,
                                     lastSegmentId: u64, lastZone: u32)

  /** strncpy into a buffer of `n` bytes: at most the first `n` characters. */
  function Truncate(s: string, n: nat): (r: string)
    ensures r <= s && |r| == if |s| <= n then |s| else n
  {
    if |s| <= n then s else s[..n]
  }

  /** The first entry whose name equals `file` (strcmp). */
  function FindExact(files: seq<FileCounter>, file: string): (r: Option<nat>)
    ensures r.Some? ==> r.value < |files| && files[r.value].file == file
    ensures r.Some? ==> forall j | 0 <= j < r.value :: files[j].file != file
    ensures r.None? ==> forall j | 0 <= j < |files| :: files[j].file != file
  {
    if files == [] then None
    else if files[0].file == file then Some(0)
    else
      var rest := FindExact(files[1..], file);
      assert forall j | 1 <= j < |files| :: files[j] == files[1..][j - 1];
      if rest.None? then None else Some(rest.value + 1)
  }

  /**
    The first entry whose name is a prefix of `file`: strncmp bounded by
    the length of the stored name.
   */
  function FindPrefix(files: seq<FileCounter>, file: string): (r: Option<nat>)
    ensures r.Some? ==> r.value < |files| && files[r.value].file <= file
    ensures r.Some? ==> forall j | 0 <= j < r.value :: !(files[j].file <= file)
    ensures r.None? ==> forall j | 0 <= j < |files| :: !(files[j].file <= file)
  {
    if files == [] then None
    else if files[0].file <= file then Some(0)
    else
      var rest := FindPrefix(files[1..], file);
      assert forall j | 1 <= j < |files| :: files[j] == files[1..][j - 1];
      if rest.None? then None else Some(rest.value + 1)
  }

  /** No two entries carry the same name. */
  predicate UniqueNames(files: seq<FileCounter>) {
    forall i, j | 0 <= i < j < |files| :: files[i].file != files[j].file
  }

  /** The extent count kept under exactly the name `file`, 0 when there is none. */
  function ExactCount(files: seq<FileCounter>, file: string): nat {
    match FindExact(files, file)
    case Some(i) => files[i].extCtr
    case None => 0
  }

  /** The entry increase_file_extent_counter appends for a new name. */
  function NewCounter(file: string): FileCounter {
    FileCounter(Truncate(file, MaxFileLength), 1, 0, 0, 0, 0, 0, 0, 0)
  }

  /** The table after increase_file_extent_counter(file). */
  function CountExtent(files: seq<FileCounter>, file: string): seq<FileCounter> {
    match FindExact(files, file)
    case Some(i) => files[i := files[i].(extCtr := files[i].extCtr + 1)]
    case None => files + [NewCounter(file)]
  }

  /**
    Counting an extent of a name that fits the buffer adds one to that
    name's count, leaves every other name's count alone, grows the table
    by one exactly when the name was new, and keeps the names unique.
   */
  lemma CountExtentCounts(files: seq<FileCounter>, file: string)
    requires |file| <= MaxFileLength
    ensures var r := CountExtent(files, file);
      ExactCount(r, file) == ExactCount(files, file) + 1
      && (forall other | other != file :: ExactCount(r, other) == ExactCount(files, other))
      && |r| == |files| + (if FindExact(files, file).Some? then 0 else 1)
      && (UniqueNames(files) ==> UniqueNames(r))
  {
    var r := CountExtent(files, file);
    assert forall j | 0 <= j < |files| :: r[j].file == files[j].file;
    forall other | other != file
      ensures ExactCount(r, other) == ExactCount(files, other)
    {
      FindSameNames(files, r, other);
    }
    if FindExact(files, file).None? {
      assert r[|files|].file == file;
      assert forall j | 0 <= j < |files| :: r[j].file != file;
    } else {
      FindSameNames(files, r, file);
    }
  }

  /** Two tables with the same names find a name at the same place. */
  lemma FindSameNames(a: seq<FileCounter>, b: seq<FileCounter>, file: string)
    requires |a| <= |b| && forall j | 0 <= j < |a| :: a[j].file == b[j].file
    requires forall j | |a| <= j < |b| :: b[j].file != file
    ensures FindExact(b, file) == FindExact(a, file)
  {
    var fa, fb := FindExact(a, file), FindExact(b, file);
    if fa.Some? {
      assert fb.Some? && !(fb.value < fa.value) && !(fa.value < fb.value);
    } else {
      assert fb.None?;
    }
  }

  /**
    get_file_extent_count: the count of the first entry whose name is a
    prefix of `file`, 0 when there is none.
   */
  function ExtentCount(files: seq<FileCounter>, file: string): nat {
    match FindPrefix(files, file)
    case Some(i) => files[i].extCtr
    case None => 0
  }

  /**
    The prefix lookup agrees with the exact count as long as no other
    stored name is a prefix of `file`.
   */
  lemma ExtentCountExact(files: seq<FileCounter>, file: string)
    requires UniqueNames(files)
    requires forall j | 0 <= j < |files| && files[j].file <= file :: files[j].file == file
    ensures ExtentCount(files, file) == ExactCount(files, file)
  {
    var fp, fe := FindPrefix(files, file), FindExact(files, file);
    if fe.Some? {
      assert fp.Some? && !(fp.value < fe.value) && !(fe.value < fp.value);
    }
  }

  /**
    The prefix rule in action: with "/mnt/a" stored before "/mnt/ab", the
    query "/mnt/ab" is answered with the count of "/mnt/a".
   */
  lemma ExtentCountPrefixShadows(files: seq<FileCounter>)
    requires |files| == 2 && files[0].file == "/mnt/a" && files[1].file == "/mnt/ab"
    ensures ExtentCount(files, "/mnt/ab") == files[0].extCtr
    ensures ExactCount(files, "/mnt/ab") == files[1].extCtr
  {
    assert files[0].file <= "/mnt/ab";
    assert files[0].file != "/mnt/ab";
  }

  /** The F2FS segment types of enum type (include/f2fs.h). */
  const CursegHotData: nat := 0
  const CursegWarmData: nat := 1
  const CursegColdData: nat := 2

  /** The device parameters that the counting and mapping code reads from `ctrl`. */
  datatype Config = Config(sectorShift: nat, znsSectorShift: nat, segmentShift: nat,
                           zoneSize: u64, offset: u64, excludeFlags: u32)

  /** A segment-counter update for a file already in the table. */
  datatype SegmentUpdate = SegmentUpdate(numSegments: u32, curSegment: u32, segType: nat, zoneCap: u64)

  /**
    The zone a segment starts in: `cur_segment << segment_shift >>
    zns_sector_shift`, computed in 32 bits, then get_zone_number.
   */
  function SegmentZone(cfg: Config, curSegment: u32): Option<u32> {
    ZoneNumber(Shr(Shl32(curSegment, cfg.segmentShift), cfg.znsSectorShift) as u64, cfg.zoneSize,
               cfg.znsSectorShift)
  }

  /**
    The zones a run of `numSegments` segments adds: its size in sectors,
    `num_segments * F2FS_SEGMENT_BYTES >> sector_shift` computed in 32
    bits, divided by the zone capacity, plus one.
   */
  function ZoneSpan(cfg: Config, u: SegmentUpdate): nat
    requires u.zoneCap > 0
  {
    Shr(ToU32(u.numSegments * F2fsSegmentBytes), cfg.sectorShift) / u.zoneCap + 1
  }

  /**
    The entry after increase_file_segment_counter. The segment counters
    move only for a segment other than the last one counted; the zone
    counter moves only for a zone other than the last one counted. None
    stands for a division by zero: a zone size of 0, or a zone change
    with a zone capacity of 0.
   */
  function SegmentStep(cfg: Config, fc: FileCounter, u: SegmentUpdate): (r: Option<FileCounter>)
    ensures r.Some? ==> r.value.file == fc.file && r.value.extCtr == fc.extCtr
    ensures r.Some? ==> r.value.lastSegmentId == u.curSegment
  {
    var n := u.numSegments;
    var fc1 :=
      if fc.lastSegmentId == u.curSegment then fc
      else fc.(segmentCtr := fc.segmentCtr + n, lastSegmentId := u.curSegment,
               coldCtr := fc.coldCtr + (if u.segType == CursegColdData then n else 0),
               warmCtr := fc.warmCtr + (if u.segType == CursegWarmData then n else 0),
               hotCtr := fc.hotCtr + (if u.segType == CursegHotData then n else 0));
    match SegmentZone(cfg, u.curSegment)
    case None => None
    case Some(zone) =>
      if fc1.lastZone == zone then Some(fc1)
      else if u.zoneCap == 0 then None
      else Some(fc1.(zoneCtr := fc1.zoneCtr + ZoneSpan(cfg, u), lastZone := zone))
  }

  /** The heat counters together never exceed the segment counter. */
  predicate HeatBounded(fc: FileCounter) {
    fc.coldCtr + fc.warmCtr + fc.hotCtr <= fc.segmentCtr
  }

  /**
    A new segment adds `num_segments` to the segment counter and to at
    most one heat counter (none for node segments); the same segment again
    adds nothing; either way the heat bound is kept.
   */
  lemma SegmentStepCounts(cfg: Config, fc: FileCounter, u: SegmentUpdate)
    requires SegmentStep(cfg, fc, u).Some?
    ensures var r := SegmentStep(cfg, fc, u).value;
      (fc.lastSegmentId == u.curSegment ==>
         r.segmentCtr == fc.segmentCtr && r.coldCtr == fc.coldCtr
         && r.warmCtr == fc.warmCtr && r.hotCtr == fc.hotCtr)
      && (fc.lastSegmentId != u.curSegment ==>
         r.segmentCtr == fc.segmentCtr + u.numSegments
         && r.coldCtr + r.warmCtr + r.hotCtr
            == fc.coldCtr + fc.warmCtr + fc.hotCtr + (if u.segType <= CursegColdData then u.numSegments else 0))
      && (HeatBounded(fc) ==> HeatBounded(r))
      && r.zoneCtr >= fc.zoneCtr
  {
  }

  /** Repeating the same update changes nothing more. */
  lemma SegmentStepIdempotent(cfg: Config, fc: FileCounter, u: SegmentUpdate)
    requires SegmentStep(cfg, fc, u).Some?
    ensures SegmentStep(cfg, SegmentStep(cfg, fc, u).value, u) == SegmentStep(cfg, fc, u)
  {
  }

  /**
    The zone counter grows by the zone span exactly when the segment lies
    in a zone other than the last one counted, and that zone becomes the
    last one.
   */
  lemma SegmentStepZones(cfg: Config, fc: FileCounter, u: SegmentUpdate)
    requires SegmentStep(cfg, fc, u).Some?
    ensures SegmentZone(cfg, u.curSegment).Some?
    ensures var r := SegmentStep(cfg, fc, u).value;
      var zone := SegmentZone(cfg, u.curSegment).value;
      r.lastZone == zone
      && (fc.lastZone == zone ==> r.zoneCtr == fc.zoneCtr)
      && (fc.lastZone != zone ==> u.zoneCap > 0 && r.zoneCtr == fc.zoneCtr + ZoneSpan(cfg, u))
  {
  }

  /**
    The 32-bit product wraps: 2048 segments are 2^32 bytes, which become
    0, so such a run adds a single zone whatever its real size.
   */
  lemma ZoneSpanWraps(cfg: Config, u: SegmentUpdate)
    requires u.numSegments == 2048 && u.zoneCap > 0
    ensures ZoneSpan(cfg, u) == 1
  {
    assert ToU32(u.numSegments * F2fsSegmentBytes) == 0;
    DivModUnique(0, Pow2(cfg.sectorShift), 0, 0);
    DivModUnique(0, u.zoneCap, 0, 0);
  }

  /** `struct file_counter_map`: the table of per-file counters, `file_ctr` being its length. */
  class FileCounterMap {
    var files: seq<FileCounter>

    constructor ()
      ensures files == []
    {
      files := [];
    }

    /**
      increase_file_extent_counter: add one to the entry named exactly
      `file`, or append the name with a count of 1.
     */
    method IncreaseFileExtentCounter(file: string)
      modifies this
      ensures files == CountExtent(old(files), file)
    {
      var i := 0;
      while i < |files|
        invariant i <= |files|
        invariant forall j | 0 <= j < i :: files[j].file != file
      {
        if files[i].file == file {
          files := files[i := files[i].(extCtr := files[i].extCtr + 1)];
          return;
        }
        i := i + 1;
      }
      files := files + [NewCounter(file)];
    }

    /** get_file_extent_count. */
    method GetFileExtentCount(file: string) returns (n: nat)
      ensures n == ExtentCount(files, file)
    {
      var i := 0;
      while i < |files|
        invariant i <= |files|
        invariant forall j | 0 <= j < i :: !(files[j].file <= file)
      {
        if files[i].file <= file {
          return files[i].extCtr;
        }
        i := i + 1;
      }
      return 0;
    }

    /**
      increase_file_segment_counter: find the first entry whose name is a
      prefix of `file` and apply the segment and zone update to it. The
      entry must exist and no division by zero may occur.
     */
    method IncreaseFileSegmentCounter(cfg: Config, file: string, u: SegmentUpdate)
      requires FindPrefix(files, file).Some?
      requires SegmentStep(cfg, files[FindPrefix(files, file).value], u).Some?
      modifies this
      ensures var i := FindPrefix(old(files), file).value;
        files == old(files)[i := SegmentStep(cfg, old(files)[i], u).value]
    {
      var i := 0;
      while i < |files| && !(files[i].file <= file)
        invariant i <= |files|
        invariant forall j | 0 <= j < i :: !(files[j].file <= file)
      {
        i := i + 1;
      }
      files := files[i := SegmentStep(cfg, files[i], u).value];
    }
  }

  /** The table after `k` calls of increase_file_extent_counter with the same name. */
  function CountTimes(files: seq<FileCounter>, file: string, k: nat): seq<FileCounter> {
    if k == 0 then files else CountExtent(CountTimes(files, file, k - 1), file)
  }

  /** `k` extents of one name add `k` to that name's count and nothing to any other. */
  lemma {:induction false} CountTimesCounts(files: seq<FileCounter>, file: string, k: nat)
    requires |file| <= MaxFileLength
    ensures var r := CountTimes(files, file, k);
      ExactCount(r, file) == ExactCount(files, file) + k
      && (forall other | other != file :: ExactCount(r, other) == ExactCount(files, other))
      && (UniqueNames(files) ==> UniqueNames(r))
  {
    if k > 0 {
      CountTimesCounts(files, file, k - 1);
      CountExtentCounts(CountTimes(files, file, k - 1), file);
    }
  }

  /** EXIT_SUCCESS and EXIT_FAILURE. */
  const ExitSuccess: int := 0
  const ExitFailure: int := 1

  /**
    get_extents skips an answer that starts below the ZNS offset (data on
    the conventional device) or carries one of the excluded flags.
   */
  predicate Kept(cfg: Config, fe: FiemapExtent) {
    fe.physical >= cfg.offset && And(fe.flags, cfg.excludeFlags) == 0
  }

  /** A kept answer's physical block: `(fe_physical - offset) >> sector_shift`. */
  function PhyBlk(cfg: Config, fe: FiemapExtent): u64
    requires fe.physical >= cfg.offset
  {
    Shr(fe.physical - cfg.offset, cfg.sectorShift)
  }

  /** The zone of a kept answer: get_zone_number of `phy_blk << zns_sector_shift`. */
  function ZoneOf(cfg: Config, fe: FiemapExtent): u32
    requires fe.physical >= cfg.offset && Shl64(cfg.zoneSize, cfg.znsSectorShift) != 0
  {
    ZoneNumber(Shl64(PhyBlk(cfg, fe), cfg.znsSectorShift), cfg.zoneSize, cfg.znsSectorShift).value
  }

  /**
    The extent get_extents builds from the `k`-th kept answer of a file:
    blocks shifted down to sectors, `ext_nr` the 32-bit `k`, and the file
    name cut to the 49 characters that fit with their terminator.
   */
  function ExtentOf(cfg: Config, filename: string, fileId: nat, k: nat, fe: FiemapExtent): Extent
    requires fe.physical >= cfg.offset && Shl64(cfg.zoneSize, cfg.znsSectorShift) != 0
  {
    Extent(ZoneOf(cfg, fe), fe.flags, ToU32(k), fileId, Shr(fe.logical, cfg.sectorShift),
           PhyBlk(cfg, fe), Shr(fe.length, cfg.sectorShift), cfg.zoneSize,
           Truncate(filename, MaxFileLength - 1))
  }

  /** The extents get_extents adds while reading the answers `fs`, in order. */
  function Collected(cfg: Config, filename: string, fileId: nat, fs: seq<FiemapExtent>): (r: seq<Extent>)
    requires Shl64(cfg.zoneSize, cfg.znsSectorShift) != 0
    ensures |r| <= |fs|
  {
    if fs == [] then []
    else
      var prev := Collected(cfg, filename, fileId, fs[..|fs| - 1]);
      var fe := fs[|fs| - 1];
      if Kept(cfg, fe) then prev + [ExtentOf(cfg, filename, fileId, |prev|, fe)] else prev
  }

  /**
    The answers that pass the filter, in order. Filemap.Filter has the same
    shape over its own Kept: the two mappers filter alike, each with its
    own test.
   */
  function Filter(cfg: Config, fs: seq<FiemapExtent>): (r: seq<FiemapExtent>)
    ensures |r| <= |fs| && forall k | 0 <= k < |r| :: Kept(cfg, r[k])
  {
    if fs == [] then []
    else
      var prev := Filter(cfg, fs[..|fs| - 1]);
      if Kept(cfg, fs[|fs| - 1]) then prev + [fs[|fs| - 1]] else prev
  }

  /**
    The collected extents are the filtered answers numbered 0, 1, 2, ...
    in order.
   */
  lemma {:induction false} CollectedNumbers(cfg: Config, filename: string, fileId: nat, fs: seq<FiemapExtent>)
    requires Shl64(cfg.zoneSize, cfg.znsSectorShift) != 0
    ensures var c := Collected(cfg, filename, fileId, fs);
      var f := Filter(cfg, fs);
      |c| == |f| && forall k | 0 <= k < |c| :: c[k] == ExtentOf(cfg, filename, fileId, k, f[k])
  {
    if fs != [] {
      CollectedNumbers(cfg, filename, fileId, fs[..|fs| - 1]);
    }
  }

  /** How many answers carry FIEMAP_EXTENT_DATA_INLINE. */
  function InlineCount(fs: seq<FiemapExtent>): nat {
    if fs == [] then 0
    else InlineCount(fs[..|fs| - 1]) + (if And(fs[|fs| - 1].flags, ExtentDataInline) != 0 then 1 else 0)
  }

  /** Reading one more answer: what it adds to the collected extents and the counts. */
  lemma CollectStep(cfg: Config, filename: string, fileId: nat, fs: seq<FiemapExtent>, i: nat)
    requires Shl64(cfg.zoneSize, cfg.znsSectorShift) != 0 && i < |fs|
    ensures var prev := Collected(cfg, filename, fileId, fs[..i]);
      var fe := fs[i];
      var added := if Kept(cfg, fe) then [ExtentOf(cfg, filename, fileId, |prev|, fe)] else [];
      Collected(cfg, filename, fileId, fs[..i + 1]) == prev + added
      && LenSum(prev + added) == LenSum(prev) + (if Kept(cfg, fe) then added[0].len else 0)
      && InlineCount(fs[..i + 1]) == InlineCount(fs[..i]) + (if And(fe.flags, ExtentDataInline) != 0 then 1 else 0)
  {
    assert fs[..i + 1][..i] == fs[..i];
    var prev := Collected(cfg, filename, fileId, fs[..i]);
    if Kept(cfg, fs[i]) {
      var e := ExtentOf(cfg, filename, fileId, |prev|, fs[i]);
      assert (prev + [e])[..|prev|] == prev;
    } else {
      assert prev + [] == prev;
    }
  }

  /** What the loop of get_extents needs to know before reading answer `i`. */
  lemma LoopStep(cfg: Config, filename: string, fileId: nat, t0: Tally, fs: seq<FiemapExtent>, i: nat)
    requires Shl64(cfg.zoneSize, cfg.znsSectorShift) != 0 && t0.extCtr == 0
    requires i < |fs| && forall j | 0 <= j < i :: !IsLast(fs[j])
    ensures i < |Processed(fs)| && Processed(fs)[i] == fs[i]
    ensures var prev := Collected(cfg, filename, fileId, fs[..i]);
      Tallied(cfg, filename, fileId, t0, fs[..i]).extCtr == |prev|
      && Tallied(cfg, filename, fileId, t0, fs[..i + 1])
         == TallyStep(cfg, filename, fileId, Tallied(cfg, filename, fileId, t0, fs[..i]), fs[i])
      && Collected(cfg, filename, fileId, fs[..i + 1])
         == prev + if Kept(cfg, fs[i]) then [ExtentOf(cfg, filename, fileId, |prev|, fs[i])] else []
  {
    PrefixOfProcessed(fs, i);
    CollectStep(cfg, filename, fileId, fs, i);
    TalliedClosed(cfg, filename, fileId, t0, fs[..i]);
    TalliedStep(cfg, filename, fileId, t0, fs, i);
  }

  /** The summed lengths of extents. */
  function LenSum(es: seq<Extent>): nat {
    if es == [] then 0 else LenSum(es[..|es| - 1]) + es[|es| - 1].len
  }

  /**
    The counters get_extents moves: its local extent counter, the zone
    map's extent counter, zone counter and summed size, the inlined-extent
    count, and the file counter table.
   */
  datatype Tally = Tally(extCtr: nat, mapExtents: nat, mapZones: nat, cumSize: u64,
                         inlined: nat, files: seq<FileCounter>)

  /** What reading one answer does to the counters. */
  function TallyStep(cfg: Config, filename: string, fileId: nat, t: Tally, fe: FiemapExtent): Tally
    requires Shl64(cfg.zoneSize, cfg.znsSectorShift) != 0
  {
    var t1 :=
      if Kept(cfg, fe) then
        var e := ExtentOf(cfg, filename, fileId, t.extCtr, fe);
        Tally(t.extCtr + 1, t.mapExtents + 1, t.mapZones + 1, Add64(t.cumSize, e.len), t.inlined,
              CountExtent(t.files, e.file))
      else t;
    if And(fe.flags, ExtentDataInline) != 0 then t1.(inlined := t1.inlined + 1) else t1
  }

  /** The counters after reading the answers `fs` in order. */
  function Tallied(cfg: Config, filename: string, fileId: nat, t: Tally, fs: seq<FiemapExtent>): Tally
    requires Shl64(cfg.zoneSize, cfg.znsSectorShift) != 0
  {
    if fs == [] then t
    else TallyStep(cfg, filename, fileId, Tallied(cfg, filename, fileId, t, fs[..|fs| - 1]), fs[|fs| - 1])
  }

  /**
    The counters after `kept` were added, starting from `t` with an
    extent counter of 0, with `inl` inlined answers among those read.
   */
  function Closed(t: Tally, name: string, kept: seq<Extent>, inl: nat): Tally {
    Tally(|kept|, t.mapExtents + |kept|, t.mapZones + |kept|, ToU64(t.cumSize + LenSum(kept)),
          t.inlined + inl, CountTimes(t.files, name, |kept|))
  }

  /** One more answer keeps the tally in closed form. */
  lemma ClosedStep(cfg: Config, filename: string, fileId: nat, t: Tally, kept: seq<Extent>, inl: nat,
                   fe: FiemapExtent)
    requires Shl64(cfg.zoneSize, cfg.znsSectorShift) != 0
    ensures var name := Truncate(filename, MaxFileLength - 1);
      var added := if Kept(cfg, fe) then [ExtentOf(cfg, filename, fileId, |kept|, fe)] else [];
      TallyStep(cfg, filename, fileId, Closed(t, name, kept, inl), fe)
      == Closed(t, name, kept + added, inl + (if And(fe.flags, ExtentDataInline) != 0 then 1 else 0))
  {
    var name := Truncate(filename, MaxFileLength - 1);
    if Kept(cfg, fe) {
      ClosedKept(t, name, kept, inl, ExtentOf(cfg, filename, fileId, |kept|, fe));
    } else {
      assert kept + [] == kept;
    }
  }

  /** Adding one extent to the closed form. */
  lemma ClosedKept(t: Tally, name: string, kept: seq<Extent>, inl: nat, e: Extent)
    requires e.file == name
    ensures var c := Closed(t, name, kept, inl);
      Closed(t, name, kept + [e], inl)
      == Tally(c.extCtr + 1, c.mapExtents + 1, c.mapZones + 1, Add64(c.cumSize, e.len), c.inlined,
               CountExtent(c.files, name))
  {
    assert (kept + [e])[..|kept|] == kept;
    assert LenSum(kept + [e]) == LenSum(kept) + e.len;
    Add64Sum(t.cumSize, LenSum(kept), e.len);
  }

  /**
    Starting from an extent counter of 0, reading `fs` numbers the kept
    answers 0, 1, 2, ..., adds their number to the extent and zone
    counters and to the file's entry, adds their lengths to the summed
    size modulo 2^64, and counts the inlined answers, kept or not.
   */
  lemma {:induction false} TalliedClosed(cfg: Config, filename: string, fileId: nat, t: Tally, fs: seq<FiemapExtent>)
    requires Shl64(cfg.zoneSize, cfg.znsSectorShift) != 0 && t.extCtr == 0
    ensures Tallied(cfg, filename, fileId, t, fs)
      == Closed(t, Truncate(filename, MaxFileLength - 1), Collected(cfg, filename, fileId, fs), InlineCount(fs))
  {
    if fs == [] {
      DivModUnique(t.cumSize, TWO64, 0, t.cumSize);
    } else {
      TalliedClosed(cfg, filename, fileId, t, fs[..|fs| - 1]);
      TalliedClosedStep(cfg, filename, fileId, t, fs);
    }
  }

  /** The inductive step of TalliedClosed: one more answer at the end. */
  lemma TalliedClosedStep(cfg: Config, filename: string, fileId: nat, t: Tally, fs: seq<FiemapExtent>)
    requires Shl64(cfg.zoneSize, cfg.znsSectorShift) != 0 && fs != []
    requires var n := |fs| - 1;
      Tallied(cfg, filename, fileId, t, fs[..n])
      == Closed(t, Truncate(filename, MaxFileLength - 1), Collected(cfg, filename, fileId, fs[..n]), InlineCount(fs[..n]))
    ensures Tallied(cfg, filename, fileId, t, fs)
      == Closed(t, Truncate(filename, MaxFileLength - 1), Collected(cfg, filename, fileId, fs), InlineCount(fs))
  {
    var name := Truncate(filename, MaxFileLength - 1);
    var n := |fs| - 1;
    var prev := Collected(cfg, filename, fileId, fs[..n]);
    var inl := InlineCount(fs[..n]);
    var added := if Kept(cfg, fs[n]) then [ExtentOf(cfg, filename, fileId, |prev|, fs[n])] else [];
    TalliedLast(cfg, filename, fileId, t, fs);
    ClosedStep(cfg, filename, fileId, t, prev, inl, fs[n]);
    CollectedLast(cfg, filename, fileId, fs);
  }

  lemma TalliedLast(cfg: Config, filename: string, fileId: nat, t: Tally, fs: seq<FiemapExtent>)
    requires Shl64(cfg.zoneSize, cfg.znsSectorShift) != 0 && fs != []
    ensures Tallied(cfg, filename, fileId, t, fs)
      == TallyStep(cfg, filename, fileId, Tallied(cfg, filename, fileId, t, fs[..|fs| - 1]), fs[|fs| - 1])
  {
  }

  lemma CollectedLast(cfg: Config, filename: string, fileId: nat, fs: seq<FiemapExtent>)
    requires Shl64(cfg.zoneSize, cfg.znsSectorShift) != 0 && fs != []
    ensures var n := |fs| - 1;
      var prev := Collected(cfg, filename, fileId, fs[..n]);
      && Collected(cfg, filename, fileId, fs)
         == prev + (if Kept(cfg, fs[n]) then [ExtentOf(cfg, filename, fileId, |prev|, fs[n])] else [])
      && InlineCount(fs) == InlineCount(fs[..n]) + (if And(fs[n].flags, ExtentDataInline) != 0 then 1 else 0)
  {
    var n := |fs| - 1;
    if !Kept(cfg, fs[n]) {
      assert Collected(cfg, filename, fileId, fs[..n]) + [] == Collected(cfg, filename, fileId, fs[..n]);
    }
  }

  /** Reading one more answer extends the tally by one step. */
  lemma TalliedStep(cfg: Config, filename: string, fileId: nat, t: Tally, fs: seq<FiemapExtent>, i: nat)
    requires Shl64(cfg.zoneSize, cfg.znsSectorShift) != 0 && i < |fs|
    ensures Tallied(cfg, filename, fileId, t, fs[..i + 1])
            == TallyStep(cfg, filename, fileId, Tallied(cfg, filename, fileId, t, fs[..i]), fs[i])
  {
    assert fs[..i + 1][..i] == fs[..i];
  }

  /** The zone of every kept answer among `fs` is a zone of the device. */
  predicate ZonesInRange(cfg: Config, fs: seq<FiemapExtent>, nrZones: nat)
    requires Shl64(cfg.zoneSize, cfg.znsSectorShift) != 0
  {
    forall j | 0 <= j < |fs| && Kept(cfg, fs[j]) :: ZoneOf(cfg, fs[j]) as int < nrZones
  }

  /**
    The part of `struct control` that get_extents updates: the zone map,
    the file counter table, the file count and the inlined-extent count.
   */
  class Control {
    const cfg: Config
    const zonemap: ZoneMap
    const counters: FileCounterMap
    var nrFiles: nat
    var inlinedExtentCtr: nat

    constructor (cfg: Config, nrZones: nat)
      ensures this.cfg == cfg && fresh(zonemap) && fresh(zonemap.zones) && fresh(counters)
      ensures zonemap.Valid() && zonemap.zones.Length == nrZones
      ensures zonemap.extentCtr == 0 && zonemap.zoneCtr == 0 && zonemap.cumExtentSize == 0
      ensures counters.files == [] && nrFiles == 0 && inlinedExtentCtr == 0
    {
      this.cfg := cfg;
      zonemap := new ZoneMap(nrZones);
      counters := new FileCounterMap();
      nrFiles, inlinedExtentCtr := 0, 0;
    }

    /** The counters of the tally, with `extCtr` for get_extents' local counter. */
    function Snapshot(extCtr: nat): Tally
      reads this, zonemap, counters
    {
      Tally(extCtr, zonemap.extentCtr, zonemap.zoneCtr, zonemap.cumExtentSize, inlinedExtentCtr, counters.files)
    }

    /**
      One pass of the do-while body of get_extents: a kept answer becomes
      an extent numbered `extCtr` that goes into its zone's list and into
      the counters; an inlined answer is counted either way.
     */
    method ReadAnswer(filename: string, fileId: nat, extCtr: nat, fe: FiemapExtent) returns (next: nat)
      requires Shl64(cfg.zoneSize, cfg.znsSectorShift) != 0
      requires Kept(cfg, fe) ==> ZoneOf(cfg, fe) as int < zonemap.zones.Length
      modifies this, zonemap, zonemap.zones, counters
      ensures Snapshot(next) == TallyStep(cfg, filename, fileId, old(Snapshot(extCtr)), fe)
      ensures nrFiles == old(nrFiles)
      ensures old(zonemap.Valid()) ==>
        (zonemap.Valid()
         && Bag(zonemap.zones[..]) == Bag(old(zonemap.zones[..]))
              + (if Kept(cfg, fe) then multiset{ExtentOf(cfg, filename, fileId, extCtr, fe)} else multiset{}))
    {
      next := extCtr;
      if Kept(cfg, fe) {
        var e := ExtentOf(cfg, filename, fileId, extCtr, fe);
        zonemap.cumExtentSize := Add64(zonemap.cumExtentSize, e.len);
        zonemap.AddExtentToZoneList(e);
        counters.IncreaseFileExtentCounter(e.file);
        next := extCtr + 1;
        zonemap.extentCtr := zonemap.extentCtr + 1;
        zonemap.zoneCtr := zonemap.zoneCtr + 1;
      }
      if And(fe.flags, ExtentDataInline) != 0 {
        inlinedExtentCtr := inlinedExtentCtr + 1;
      }
    }

    /**
      The counters and zone lists have taken in the answers `read`, from
      the counters `t0` and the zone contents `bag0`; `extCtr` is
      get_extents' local extent counter.
     */
    ghost predicate TookIn(filename: string, fileId: nat, t0: Tally, bag0: multiset<Extent>,
                           read: seq<FiemapExtent>, extCtr: nat)
      reads this, zonemap, zonemap.zones, counters
      requires Shl64(cfg.zoneSize, cfg.znsSectorShift) != 0
    {
      && extCtr == |Collected(cfg, filename, fileId, read)|
      && Snapshot(extCtr) == Tallied(cfg, filename, fileId, t0, read)
      && zonemap.Valid()
      && Bag(zonemap.zones[..]) == bag0 + multiset(Collected(cfg, filename, fileId, read))
    }

    /**
      Reading answer `i`, before any LAST one, in the terms of the loop
      below: the counters and zone lists move from having taken in
      `fs[..i]` to having taken in `fs[..i + 1]`.
     */
    method ReadNext(filename: string, fileId: nat, fs: seq<FiemapExtent>, i: nat, extCtr: nat,
                    ghost t0: Tally, ghost bag0: multiset<Extent>) returns (next: nat)
      requires Shl64(cfg.zoneSize, cfg.znsSectorShift) != 0 && t0.extCtr == 0
      requires i < |fs| && forall j | 0 <= j < i :: !IsLast(fs[j])
      requires ZonesInRange(cfg, Processed(fs), zonemap.zones.Length)
      requires TookIn(filename, fileId, t0, bag0, fs[..i], extCtr)
      modifies this, zonemap, zonemap.zones, counters
      ensures nrFiles == old(nrFiles)
      ensures TookIn(filename, fileId, t0, bag0, fs[..i + 1], next)
    {
      LoopStep(cfg, filename, fileId, t0, fs, i);
      next := ReadAnswer(filename, fileId, extCtr, fs[i]);
    }

    /**
      The do-while loop of get_extents: read answers until one is flagged
      LAST or none is left. Every answer read is among the processed ones,
      and the counters and zone lists have taken in exactly those.
     */
    method ReadAnswers(filename: string, fileId: nat, fs: seq<FiemapExtent>) returns (last: bool, extCtr: nat)
      requires Shl64(cfg.zoneSize, cfg.znsSectorShift) != 0
      requires ZonesInRange(cfg, Processed(fs), zonemap.zones.Length)
      requires zonemap.Valid()
      modifies this, zonemap, zonemap.zones, counters
      ensures last <==> RunLength(fs).Some?
      ensures nrFiles == old(nrFiles)
      ensures extCtr == |Collected(cfg, filename, fileId, Processed(fs))|
      ensures Snapshot(extCtr) == Tallied(cfg, filename, fileId, old(Snapshot(0)), Processed(fs))
      ensures zonemap.Valid()
      ensures Bag(zonemap.zones[..]) == Bag(old(zonemap.zones[..])) + multiset(Collected(cfg, filename, fileId, Processed(fs)))
    {
      ghost var t0 := Snapshot(0);
      var i := 0;
      last := false;
      extCtr := 0;
      ghost var bag0 := Bag(zonemap.zones[..]);
      while !last && i < |fs|
        invariant nrFiles == old(nrFiles) && Scanned(fs, i, last)
        invariant TookIn(filename, fileId, t0, bag0, fs[..i], extCtr)
        decreases |fs| - i
      {
        ScanStep(fs, i);
        extCtr := ReadNext(filename, fileId, fs, i, extCtr, t0, bag0);
        last := IsLast(fs[i]);
        i := i + 1;
      }
      ScanDone(fs, i, last);
    }

    /**
      get_extents: read FIEMAP answers one at a time until one is flagged
      LAST, adding every kept one to its zone's sorted list and to the
      counters. Running out of answers first is the "no extents are
      mapped" failure, after the answers read so far have been added.
      `zone_ctr` goes up once per kept extent, not once per zone.
     */
    method GetExtents(filename: string, fs: seq<FiemapExtent>) returns (status: int)
      requires Shl64(cfg.zoneSize, cfg.znsSectorShift) != 0
      requires ZonesInRange(cfg, Processed(fs), zonemap.zones.Length)
      requires zonemap.Valid()
      modifies this, zonemap, zonemap.zones, counters
      ensures status == (if RunLength(fs).Some? then ExitSuccess else ExitFailure)
      ensures nrFiles == old(nrFiles) + (if status == ExitSuccess then 1 else 0)
      ensures Snapshot(|Collected(cfg, filename, old(nrFiles), Processed(fs))|)
              == Closed(old(Snapshot(0)), Truncate(filename, MaxFileLength - 1),
                        Collected(cfg, filename, old(nrFiles), Processed(fs)), InlineCount(Processed(fs)))
      ensures zonemap.Valid()
      ensures Bag(zonemap.zones[..]) == Bag(old(zonemap.zones[..])) + multiset(Collected(cfg, filename, old(nrFiles), Processed(fs)))
    {
      var fileId := nrFiles;
      ghost var t0 := Snapshot(0);
      var last, extCtr := ReadAnswers(filename, fileId, fs);
      TalliedClosed(cfg, filename, fileId, t0, Processed(fs));
      if last {
        nrFiles := nrFiles + 1;
        status := ExitSuccess;
      } else {
        // Out of answers before a LAST one: the next ioctl maps no extent.
        status := ExitFailure;
      }
    }
  }
}
